=== FILE: README.md ===
# Makepad VS Code extension — a Dafny model of its source scanners

The Makepad extension for VS Code gives editor support inside Rust
`live_design!` blocks. It offers completions, Go-to-Definition and
generated snippets. All of these rest on text scanners that read the
Makepad widget sources (`widgets/src/*.rs`):

- `scripts/extract_widgets.py` finds every struct deriving `Live` or
  `Widget`. For each it records the `#[live]` fields and the `///` doc
  comment. It then emits a snippet for each common widget and a
  Markdown widget reference.
- `scripts/generate_locations.py` records the line that defines each
  widget struct and each `#[live]` property of `view.rs`. It points
  `width` and `height` at `pub struct Walk` in the draw crate.
- `src/extension.ts` scans the same sources when it is activated. It
  then answers definition requests and completion requests from the
  tables it built.

The model keeps each scanner's own form:

- A regular expression becomes a recursive function over the text that
  follows the same match rules. Examples are the leftmost match, lazy
  `.*?`, `re.match` versus `re.search`, and `finditer` resuming after
  each match.
- A loop that fills a dictionary becomes a `method` with a `while` loop.
  It is proved equal to a function of its inputs.
- The extension's module-level tables are the fields of a class,
  `Extension.MakepadIndex`, which the scan updates in place.

Where a prose account of the behaviour and the code differ, the model
follows the code. For example, blank lines and attribute lines do not end
the backward doc-comment scan. Only a non-blank line that is neither a
`///` line nor an attribute ends it.

The one exception is the defect listed under Findings. A member of its
own models that code as written, and the class uses the corrected scan
(see "## Left out").

Files:

- `text.dfy`: module `Text` holds characters, strip, split/join and code-point
  order. Module `Sources` holds source files and locations.
- `patterns.dfy` (`Patterns`): the struct-line and live-property
  patterns, and the skip rules.
- `extract_widgets.dfy` (`ExtractWidgets`): the widget catalog.
- `snippets.dfy` (`Snippets`): the snippets.
- `documentation.dfy` (`Documentation`): the widget reference.
- `line_scan.dfy` (`LineScan`): the line-by-line "record a definition"
  scans that both the locations script and the extension perform.
  Later lines win in one kind of scan and the first line wins in the other.
- `generate_locations.dfy` (`GenerateLocations`).
- `extension.dfy` (`Extension`): the index class and Go-to-Definition.
- `completions.dfy` (`Completions`).

## Model

| member | source | states |
|---|---|---|
| Text.Strip | scripts/extract_widgets.py:110 | the result is the input with its leading and trailing whitespace removed: a contiguous slice, only whitespace outside it, no whitespace at either end, empty exactly when the input is all whitespace |
| Text.JoinSplit | scripts/extract_widgets.py:106 | joining the pieces of `split('\n')` with the separator gives back the text |
| Text.SplitJoin | src/extension.ts:567 | splitting a join of separator-free pieces gives back the pieces |
| Text.Lower | scripts/extract_widgets.py:140 | `lower()` keeps the length and lower-cases every ASCII letter in place |
| Patterns.StructLineName | src/extension.ts:337 | a declared name is a `\w+` word, and the line is `pub struct `, that name, optional whitespace, `{` and any rest, so the name is the whole word run |
| Patterns.StructLineNameOf | scripts/generate_locations.py:24 | every line `pub struct <Name><spaces>{…}` yields exactly `Name` |
| Patterns.StructLineNameNeedsPrefix | scripts/generate_locations.py:24 | a line not starting with `pub struct ` (indented, `pub(crate)`) declares nothing |
| Patterns.LivePropName | src/extension.ts:350 | a matched property name is a word on a line containing `#[live` |
| Patterns.LivePropNameOf | scripts/generate_locations.py:52 | a line `…#[live…] [pub ]name:…` with no `#` before the attribute yields `name`, for any attribute arguments and spacing |
| ExtractWidgets.HeaderAt | scripts/extract_widgets.py:44 | a header match starts at the given index, ends inside the text and captures a `\w+` name |
| ExtractWidgets.HeaderAtSound | scripts/extract_widgets.py:44 | a header is matched only on text that has, in a row, `#[derive(` with a list up to its first `]` that closes with `)` and names `Live` or `Widget`, a run of whitespace and `#[…]` attributes, and `pub struct <name>`, optional whitespace and `{`, the match ending just past that `{` |
| ExtractWidgets.HeaderAtOf | scripts/extract_widgets.py:44 | conversely, every such derive list, attribute run and declaration in a row is matched at the derive's `#`, with that name and end |
| ExtractWidgets.HeaderAtButton | scripts/extract_widgets.py:44 | `#[derive(Live, Widget)]`, a newline and `pub struct Button {` yield the header `Button`, ending just past the `{` |
| ExtractWidgets.Headers | scripts/extract_widgets.py:46 | the `finditer` matches lie inside the text, in text order, without overlap |
| ExtractWidgets.HeadersAreMatches | scripts/extract_widgets.py:44-46 | every header `finditer` yields is a match of the pattern at its own start |
| ExtractWidgets.BodyBalanced | scripts/extract_widgets.py:56-67 | the struct end is a `}` whose body has as many `{` as `}` with no prefix closing more than it opened; with no such brace, the end stays at the body start and the depth never reaches zero |
| ExtractWidgets.StructEndIsFirstClose | scripts/extract_widgets.py:60-67 | the end is the first `}` that brings the depth back to zero |
| ExtractWidgets.FindStructEnd | scripts/extract_widgets.py:56-68 | the counting loop computes that first closing brace |
| ExtractWidgets.PropType | scripts/extract_widgets.py:94 | the type text has no comma or newline and no surrounding whitespace, and text already trimmed is returned unchanged |
| ExtractWidgets.LiveFieldsWellFormed | scripts/extract_widgets.py:89-100 | every extracted property has a word name and a trimmed type with no comma or newline |
| ExtractWidgets.LiveFieldsSkip | scripts/extract_widgets.py:91 | text without `#` contributes no property |
| ExtractWidgets.ExtractPropertiesOfBody | scripts/extract_widgets.py:84-102 | for a struct body written as fields, the extraction returns exactly the `#[live]`/`#[live(d)]` fields, in order, with their names, types and defaults; other attributes contribute nothing |
| ExtractWidgets.ExtractProperties | scripts/extract_widgets.py:84-102 | the `finditer` loop returns the properties of the scan |
| ExtractWidgets.DocText | scripts/extract_widgets.py:112 | the text of a doc line is trimmed |
| ExtractWidgets.DocWindow | scripts/extract_widgets.py:109 | the window is the last ten lines, or all of them when fewer |
| ExtractWidgets.DocWindowIgnoresOlder | scripts/extract_widgets.py:106-109 | lines more than ten before the struct cannot affect its doc comment |
| ExtractWidgets.DocLinesNoStop | scripts/extract_widgets.py:109-115 | with no stopping line in the window, the doc is the text of every `///` line, in order |
| ExtractWidgets.DocLinesAfterStop | scripts/extract_widgets.py:109-115 | with a stopping line, only the `///` lines after the last stopping line count |
| ExtractWidgets.DocCommentOf | scripts/extract_widgets.py:104-116 | over the last ten lines before the struct: with no stopping line, the doc comment is the text of every `///` line, in order, joined by single spaces; with a last stopping line, only the `///` lines after it are joined |
| ExtractWidgets.ExtractDocComment | scripts/extract_widgets.py:104-116 | the reversed loop with `insert(0, …)` computes that doc comment |
| ExtractWidgets.WidgetAt | scripts/extract_widgets.py:69-80 | a catalog entry carries the struct's name and the file's base name, and every property in it is well formed |
| ExtractWidgets.ExtractWidgets | scripts/extract_widgets.py:35-82 | the nested loops build the catalog of the files in the order read |
| ExtractWidgets.CatalogNeverSkipped | scripts/extract_widgets.py:49-53 | no `Draw*`, `*Ref`, `*Set` or denylisted name is in the catalog |
| ExtractWidgets.CatalogKeys | scripts/extract_widgets.py:39-53 | a name is in the catalog exactly when it is not skipped and some file has a header for it |
| ExtractWidgets.CatalogLastFile | scripts/extract_widgets.py:75-80 | a name in the last file is bound to that file's last header for it, whatever earlier files held |
| ExtractWidgets.CatalogEarlierFile | scripts/extract_widgets.py:39-80 | a name the last file does not declare keeps its earlier entry |
| ExtractWidgets.CatalogNamed | scripts/extract_widgets.py:75-80 | every entry is keyed by its own name, which is a word |
| Snippets.TemplateLines | scripts/extract_widgets.py:145-204 | there is always at least one template line, and a widget without a template gets exactly `    $0` |
| Snippets.Description | scripts/extract_widgets.py:208 | the description is the doc comment, or `Makepad <name> widget` when that is empty |
| Snippets.WidgetSnippetShape | scripts/extract_widgets.py:138-214 | the prefix is `mp` and the lower-cased name; the body opens with the instantiation line, closes with `}` and has three lines for untemplated widgets |
| Snippets.GenerateWidgetSnippet | scripts/extract_widgets.py:138-214 | the list-building code produces that snippet |
| Snippets.SnippetInstantiatesWidget | scripts/extract_widgets.py:143 | the opening line instantiates the widget: its first `<…>` names it |
| Snippets.KeyNameOf | scripts/extract_widgets.py:134 | the widget name can be read back from its key `<name> Widget` |
| Snippets.SnippetKeyInjective | scripts/extract_widgets.py:134 | distinct widgets get distinct keys |
| Snippets.WidgetSnippets | scripts/extract_widgets.py:118-136 | a key is present exactly for a common widget of the catalog, every key is the key of such a widget, and its snippet is that widget's snippet |
| Snippets.GenerateSnippets | scripts/extract_widgets.py:118-136 | the loop over the catalog builds that table |
| Snippets.MergedKeys | scripts/extract_widgets.py:534-554 | a key is in the merged table exactly when some table has it |
| Snippets.MergedLastWins | scripts/extract_widgets.py:534-554 | a merged key holds the entry of the last table that has it |
| Snippets.MergeTables | scripts/extract_widgets.py:534-554 | the `update` sequence computes the merge |
| Snippets.GenerateAllSnippets | scripts/extract_widgets.py:528-554 | the snippet file is the widget, property, Rust and layout tables merged in that order |
| Snippets.WidgetSnippetSurvives | scripts/extract_widgets.py:536-554 | a widget snippet whose key no hand-written table reuses reaches the snippet file unchanged |
| Documentation.SortedOf | scripts/extract_widgets.py:578 | `sorted` of the names is strictly increasing and holds exactly the names |
| Documentation.SortedUnique | scripts/extract_widgets.py:578 | only one strictly increasing sequence has a given set of elements |
| Documentation.LeastName | scripts/extract_widgets.py:578 | the name picked is below every other name |
| Documentation.SortNames | scripts/extract_widgets.py:578 | the sort yields that sorted sequence |
| Documentation.TocLines | scripts/extract_widgets.py:578-579 | one contents line per name, in order |
| Documentation.DefaultCell | scripts/extract_widgets.py:595 | the default column shows the default, or `-` when it is absent or empty |
| Documentation.PropertiesBlock | scripts/extract_widgets.py:590-597 | the properties table is written exactly when there are properties |
| Documentation.DocParagraph | scripts/extract_widgets.py:587-588 | the doc paragraph is written exactly when there is a doc comment, and it starts with it |
| Documentation.Sections | scripts/extract_widgets.py:583-605 | one section per name, in order, each for that name's widget |
| Documentation.RowsInOrder | scripts/extract_widgets.py:594-596 | the property rows appear in the order of the properties |
| Documentation.RowPresent | scripts/extract_widgets.py:594-596 | every property has its row in the table |
| Documentation.WriteSection | scripts/extract_widgets.py:584-605 | the writes for one widget produce its section |
| Documentation.GenerateDocumentation | scripts/extract_widgets.py:568-606 | the writes produce the reference for the names in ascending order |
| Documentation.DocumentOrder | scripts/extract_widgets.py:578-605 | for names a < b, both a's contents line and a's section come before b's |
| Documentation.DocumentLists | scripts/extract_widgets.py:578-605 | every widget has its contents line and its section in the reference |
| LineScan.RsFiles | scripts/generate_locations.py:18 | the files scanned are exactly the `.rs` entries of the directory, each with its joined path and its own text |
| LineScan.RsFilesConcat | src/extension.ts:327-329 | the `.rs` filter keeps the listing order: the files of two listings in turn are the first listing's files followed by the second's |
| LineScan.RsFilesOne | scripts/generate_locations.py:18 | one entry gives its own file when its name ends in `.rs` and nothing otherwise |
| LineScan.LastWinsLast | scripts/generate_locations.py:33-36 | a key points at the last line in the scan that names it |
| LineScan.LastWinsUntouched | scripts/generate_locations.py:33-36 | a key no line names is neither added nor removed |
| LineScan.LastWinsKeys | scripts/generate_locations.py:22-36 | a key is present exactly when it was already present or some line names it |
| LineScan.FirstWinsKeys | src/extension.ts:350-359 | the same key set for the first-wins scan |
| LineScan.FirstWinsKeeps | src/extension.ts:354 | an entry already present is never overwritten |
| LineScan.FirstWinsFirst | src/extension.ts:354-358 | a new key points at the first line that names it |
| LineScan.FirstWinsAbsent | src/extension.ts:354 | a key no line names is not added |
| LineScan.LastWinsFilesLast | scripts/generate_locations.py:18-36 | across files, a key points at its last line in the last file that names it |
| LineScan.LastWinsFilesKeys | scripts/generate_locations.py:18-36 | across files, a key is present exactly when some line of some file names it |
| LineScan.FirstWinsFilesFirst | src/extension.ts:329-359 | across files, a key points at its first line in the first file that names it |
| LineScan.FirstWinsFilesAbsent | src/extension.ts:329-359 | a key no file names is absent |
| LineScan.FirstWinsFilesKeys | src/extension.ts:329-359 | across files, a key is present exactly when some line names it |
| LineScan.SameKeys | src/extension.ts:343-358 | first-wins and last-wins scans of the same files record the same keys |
| GenerateLocations.WidgetLineName | scripts/generate_locations.py:24-31 | a line is recorded exactly when it matches `^pub struct (\w+)\s*\{` and the name is not skipped, and then under that name |
| GenerateLocations.WidgetLineNameRecords | scripts/generate_locations.py:24-36 | `pub struct Button {` is recorded as `Button` |
| GenerateLocations.WidgetLineNameSkipsRef | scripts/generate_locations.py:28-29 | `pub struct ButtonRef {` is skipped |
| GenerateLocations.WidgetLineNameSkipsDenylisted | scripts/generate_locations.py:30-31 | `pub struct WidgetAction {` is skipped |
| GenerateLocations.FindWidgetLocations | scripts/generate_locations.py:14-38 | the nested loops compute the last-wins scan of the `.rs` files |
| GenerateLocations.WidgetLocationsSound | scripts/generate_locations.py:14-38 | every recorded widget is a non-skipped word, and its recorded 1-based line, in a `.rs` file of the directory, reads `pub struct <name>`, optional whitespace and `{` |
| GenerateLocations.WidgetLocationsComplete | scripts/generate_locations.py:18-36 | a widget is recorded exactly when some line of some file declares it |
| GenerateLocations.WidgetLocationsLastWins | scripts/generate_locations.py:33-36 | a widget declared more than once points at its last declaration |
| GenerateLocations.FirstWalkLine | scripts/generate_locations.py:66-71 | the line found contains `pub struct Walk` and no earlier line does; with none found, no line does |
| GenerateLocations.FindPropertyLocations | scripts/generate_locations.py:40-73 | the two loops compute the property table |
| GenerateLocations.ViewPropertiesSound | scripts/generate_locations.py:51-58 | every `view.rs` property is a word named by a `#[live` line at its recorded 1-based line |
| GenerateLocations.ViewPropertiesLastWins | scripts/generate_locations.py:55-58 | a property on several lines points at the last of them |
| GenerateLocations.WalkOverride | scripts/generate_locations.py:63-71 | with a Walk line, `width` and `height` both point at the first one and every other property keeps its `view.rs` location; without one the table is the `view.rs` scan |
| Extension.ExtWidgetName | src/extension.ts:337-341 | a line is recorded exactly when it matches the struct pattern and the name is not `*Ref`, `*Set` or `Draw*`, and then under that name |
| Extension.ExtRecordsDenylisted | src/extension.ts:341 | unlike the scripts, the extension records `WidgetAction` |
| Extension.AppendedElements | src/extension.ts:343 | the key order holds the old keys first, gains only new names and stays duplicate-free |
| Extension.KeyOrderAssign | src/extension.ts:343-346 | assigning a key keeps the order listing exactly the keys, and a new key goes last |
| Extension.LineNamesKeys | src/extension.ts:333-347 | a name is listed for a file exactly when one of its lines names it |
| Extension.FileNamesKeys | src/extension.ts:329-347 | a name is listed exactly when some line of some file names it |
| Extension.MakepadIndex.constructor | src/extension.ts:7-11 | the index starts with no widget path and empty tables |
| Extension.MakepadIndex.ScanLines | src/extension.ts:333-360 | scanning one file's lines updates the widget table last-wins, appends new widget names to the key order, and updates the property table first-wins |
| Extension.MakepadIndex.ScanMakepadSource | src/extension.ts:318-369 | with no widget path the tables are unchanged; otherwise the `.rs` files in listing order are scanned as above, and the key order keeps listing exactly the widget keys |
| Extension.ScanFromFreshSound | src/extension.ts:318-369 | from empty tables, a widget or property is recorded exactly when some scanned line names it, and the widget key order holds exactly the recorded widgets |
| Extension.FirstWinsAsWrittenAgrees | src/extension.ts:354 | when no scanned name is an `Object.prototype` member, the truthiness test behaves as the first-wins scan |
| Extension.InheritedPropertyDropped | src/extension.ts:354 | a `#[live] constructor:` line is never recorded by the code as written, but the first-wins scan records it |
| Extension.FirstWinsAsWrittenFilesAgree | src/extension.ts:329-358 | across files, the code's truthiness scan and the class's first-wins scan build the same property table whenever no scanned line names an `Object.prototype` member |
| Extension.FirstWinsAsWrittenSkipsInherited | src/extension.ts:354 | the truthiness scan of one file never records an `Object.prototype` member |
| Extension.FirstWinsAsWrittenFilesSkipsInherited | src/extension.ts:329-358 | nor does it across files |
| Extension.EnumFile | src/extension.ts:413-423 | a word has a file exactly when it is one of the nine listed enum values; the file is `view.rs` exactly for `Fill`, `Fit`, `Down`, `Right` and `Overlay`, and `image_cache.rs` for the other four |
| Extension.FirstEnumLine | src/extension.ts:430-437 | the line found contains the value and `#[`, and no earlier line does; with none found, no line does |
| Extension.FindEnumLine | src/extension.ts:430-437 | the loop returns that first marked line |
| Extension.MakepadIndex.ProvideDefinition | src/extension.ts:376-445 | the provider answers the definition of the index's current tables |
| Extension.DefinitionNeedsLiveDesign | src/extension.ts:380-388 | with no word under the cursor or no `live_design!` before it, there is no definition |
| Extension.DefinitionOrder | src/extension.ts:390-442 | an existing widget location wins, then an existing property location; any other answer is the first line of the enum file that marks the value |
| Extension.WidgetDefinitionRoundTrip | src/extension.ts:337-346 | Go-to-Definition on a scanned widget lands on the 0-based line of a declaration of it in a scanned file |
| Extension.PropertyDefinitionRoundTrip | src/extension.ts:350-358 | Go-to-Definition on a scanned property (when no widget has that name) lands on the 0-based line of a `#[live` line naming it |
| Completions.CharBefore | src/extension.ts:507 | the text before the cursor is the line's prefix of length `character`, clamped to the line |
| Completions.EndsWithMarkIff | src/extension.ts:516 | `/<\s*$/` matches exactly when some `<` is followed only by whitespace |
| Completions.SpaceStartOver | src/extension.ts:516 | the trailing whitespace starts just after the last non-space character |
| Completions.PropertyBeforeColon | src/extension.ts:535 | a matched property name is a word |
| Completions.PropertyBeforeColonOf | src/extension.ts:535-537 | `…<name>:<spaces>` yields the whole word `name` |
| Completions.WordStartFrom | src/extension.ts:535 | the captured word extends back to the first non-word character |
| Completions.WidgetItems | src/extension.ts:517-530 | one `Class` item per name, in order, with the widget insert text |
| Completions.UndocumentedElements | src/extension.ts:526-527 | the scanned names added are exactly those without documentation, without duplicates |
| Completions.WidgetNamesOnce | src/extension.ts:516-532 | documented widgets come first and in order; every documented or scanned widget appears, each once |
| Completions.KeptValuesElements | src/extension.ts:542 | the values offered are exactly those not starting with `<` or `{` |
| Completions.KeptValuesAppend | src/extension.ts:541-548 | filtering distributes over concatenation, so order is kept |
| Completions.KeptValuesIdempotent | src/extension.ts:542 | filtering twice is filtering once |
| Completions.ValueItems | src/extension.ts:543-545 | one `Value` item per kept value, with the property name as detail |
| Completions.LookupProp | src/extension.ts:538 | a property found is in the table under that name; when none is found, no entry has the name |
| Completions.PropertyInsertHead | src/extension.ts:560-570 | every property insert text starts with `<name>: ` |
| Completions.PropertyInsertChoices | src/extension.ts:567 | for several values the insert is a choice placeholder whose options split back to the values |
| Completions.PropertyInsertPlaceholder | src/extension.ts:569 | with at most one value, the insert is the generic placeholder |
| Completions.PropertyItems | src/extension.ts:554-573 | one `Property` item per documented property, in order, typed by its documentation |
| Completions.CompletionsCases | src/extension.ts:498-579 | no items outside `live_design!` or for incomplete-completion requests; after `<`, every widget once as a `Class`; after `name:`, exactly the kept values of that property in order, or nothing when it is undocumented; otherwise every property in order, only on explicit invoke at a blank line or after `{`; nothing for an explicit invoke in any other context, and nothing for a trigger character |
| Completions.ProvideCompletionItems | src/extension.ts:498-579 | the provider returns the completions for the index's widget key order and the text before the cursor |
| Completions.CollectWidgetItems | src/extension.ts:516-532 | the two loops build the widget items |
| Completions.CollectValueItems | src/extension.ts:541-548 | the loop builds the value items of the kept values |
| Completions.CollectPropertyItems | src/extension.ts:554-573 | the loop builds the property items |

## Left out

- Text: only ASCII is modelled. `\w` is `[A-Za-z0-9_]`; `\s` and `strip()` are the six ASCII whitespace characters. Python and JavaScript also accept Unicode letters and spaces. Python's `strip()` and `\s` also count the separators `\x1c`–`\x1f` as whitespace; the model does not.
- File system: glob, `readdir`, `read_text`, `readFileSync` and `existsSync` are inputs. A directory is an ordered list of entries, and `existsSync` with `readFileSync` is a map from path to text. The listing order is whatever the caller passes.
- Hidden files: Python's `glob("*.rs")` skips names that start with `.`, and `readdir` does not. Both filters are modelled as the same `.rs` suffix test.
- Failure paths: the `try`/`catch` in `scanMakepadSource` and the scan a read failure would leave half done are not modelled. Neither is the `FileNotFoundError` that `find_property_locations` raises when `view.rs` is missing: the model takes its text as given.
- Path discovery: `findMakepadWidgetsPath`, `MAKEPAD_PATH`, the home directory and `path.join` normalisation are not modelled. The widget path is an input, and a path is the directory, `/` and the name.
- Output: JSON encoding, file writing, `mkdir`, console output and `print` are not modelled. The snippet table is a map; the reference is the string its writes would leave in the file.
- Hand-authored tables: the property, Rust and layout snippet tables and the entries of `WIDGET_DOCS` and `PROPERTY_DOCS` are parameters. Their contents are data, not logic.
- Snippets.TemplateLines: the per-widget template lines for `View`, `Button`, `Label`, `Image`, `TextInput`, `CheckBox`, `Slider` and `PortalList` are copied as data. Only their count and the untemplated case are stated.
- Editor: the hover provider, `activate` registration, `deactivate`, and VS Code's word range, documentation strings and `MarkdownString` are not modelled. The word under the cursor is an `Option`.
- Key order: `Object.keys` lists integer-like keys first. Widget names are `\w+` words, so a struct named with digits only could reorder them; the model lists keys in insertion order.
- Extension.Definition: the code looks up the widget, property and enum tables by truthiness. The model uses key membership instead. A word such as `constructor` finds an inherited `Object.prototype` member in each table. That member has no `file`, so `existsSync` fails for the widget and property tables. With a widgets path, `path.join` then throws a TypeError on the enum entry's missing `file`, while the model returns no definition. Without a widgets path, the source returns `null`, as the model does.
- Extension.MakepadIndex.ScanLines: the property table is filled by the corrected first-wins scan, which tests key membership, and not by the truthiness test at src/extension.ts:354 (see Findings). So the class records a property named after an `Object.prototype` member (`constructor`, `toString`, …), which the code as written never records. `Extension.FirstWinsAsWrittenFilesAgree` shows the two tables agree whenever no scanned line names such a member. `Extension.FirstWinsAsWrittenFilesSkipsInherited` shows the code as written never records one.
- Extension.MakepadIndex.ScanMakepadSource: the same corrected property scan, across all files.
- Extension.ScanFromFreshSound: it describes the keys of the corrected property scan. For the code as written, a property named after an `Object.prototype` member is never a key.
- Extension.MakepadIndex.ScanLines: assigning `WIDGET_LOCATIONS['__proto__']` would replace the object's prototype rather than add a key. The model adds the key.
- Completions.Completions: `WIDGET_DOCS[name]` and `PROPERTY_DOCS[propName]` are modelled as membership. So a scanned widget named after an `Object.prototype` member is still offered, and `constructor:` offers no values instead of throwing.
- Documentation.SortNames: Python's `sorted` is modelled as a selection sort proved to produce the unique strictly increasing sequence, not as Timsort.
- GenerateLocations.FirstWalkLine: `pub struct Walk` is a substring test, as in the source, so it also matches e.g. `pub struct WalkTurtle`.
- Patterns.LivePropNameOf: it gives the name for lines of the stated layout only. For other lines, `Patterns.LivePropName` states that the result is a word on a `#[live` line, not the full regular-expression semantics.
- Completions.PropertyBeforeColonOf: it shows the pattern finds the word before a trailing colon. For other text, `Completions.PropertyBeforeColon` only states that any result is a word.

## Findings

| source | as written | input that shows it | evidently intended | confidence | as-written member | corrected member |
|---|---|---|---|---|---|---|
| src/extension.ts:354 | `if (!PROPERTY_LOCATIONS[propName])` tests truthiness on a plain object, so a name that `Object.prototype` supplies (`constructor`, `toString`, …) always reads as present and is never recorded | a widgets file with the line `    #[live] constructor: f64,` | record the first line that names each property, whatever its name | not executed | Extension.InheritedPropertyDropped | LineScan.FirstWinsFirst |

=== FILE: completions.dfy ===
// src/extension.ts, `provideCompletionItems`: which completions the editor
// offers inside a `live_design!` block, decided from the text before the cursor.

module Completions {
  import opened Text
  import opened Extension

  /** How the completion request was raised. */
  datatype TriggerKind = Invoke | TriggerCharacter | TriggerForIncompleteCompletions

  datatype ItemKind = Class | Value | Property

  /** A completion item: its label (`name`), kind, detail line and snippet text (if any). */
  datatype Item = Item(name: string, kind: ItemKind, detail: string, insertText: Option<string>)

  /** One entry of the property documentation table: its name, type and suggested values. */
  datatype PropertyDoc = PropertyDoc(name: string, propType: string, values: seq<string>)

  /** `line.substring(0, character)`: the text of the line before the cursor. */
  function CharBefore(line: string, character: nat): (r: string)
    ensures StartsWith(line, r)
    ensures |r| == if character <= |line| then character else |line|
  {
    var r := if character <= |line| then line[..character] else line;
    assert forall j :: 0 <= j < |r| ==> line[0 + j] == r[j];
    r
  }

  // ---------------------------------------------------------------------
  // The cursor-context patterns

  /** `/<c>\s*$/` for a non-space `c`: the last character before the trailing whitespace is `c`. */
  predicate EndsWithMark(s: string, c: char) {
    var j := SpaceStart(s, 0, |s|);
    j > 0 && s[j - 1] == c
  }

  /** The pattern holds exactly when some `c` in the text is followed only by whitespace. */
  lemma EndsWithMarkIff(s: string, c: char)
    requires !IsSpace(c)
    ensures EndsWithMark(s, c) <==> exists k :: 0 <= k < |s| && s[k] == c && AllSpace(s[k + 1..])
  {
    var j := SpaceStart(s, 0, |s|);
    if EndsWithMark(s, c) {
      assert AllSpace(s[j..]) by {
        forall m | 0 <= m < |s[j..]| ensures IsSpace(s[j..][m]) {
          assert s[j..][m] == s[j + m];
        }
      }
      assert s[j - 1] == c && s[j - 1 + 1..] == s[j..];
    }
    if exists k :: 0 <= k < |s| && s[k] == c && AllSpace(s[k + 1..]) {
      var k :| 0 <= k < |s| && s[k] == c && AllSpace(s[k + 1..]);
      SpaceStartOver(s, k + 1);
    }
  }

  /** Whitespace running to the end from `k`, after a non-space, puts the trailing run's start at `k`. */
  lemma SpaceStartOver(s: string, k: nat)
    requires 0 < k <= |s| && !IsSpace(s[k - 1]) && AllSpace(s[k..])
    ensures SpaceStart(s, 0, |s|) == k
  {
    forall m | k <= m < |s| ensures IsSpace(s[m]) {
      assert s[m] == s[k..][m - k];
    }
    SpaceStartFrom(s, k, |s|);
  }

  lemma {:induction false} SpaceStartFrom(s: string, k: nat, n: nat)
    requires 0 < k <= n <= |s| && !IsSpace(s[k - 1])
    requires forall m :: k <= m < n ==> IsSpace(s[m])
    ensures SpaceStart(s, 0, n) == k
    decreases n
  {
    if n > k {
      SpaceStartFrom(s, k, n - 1);
    }
  }

  /** `/(\w+):\s*$/`: the whole identifier right before a colon that only whitespace follows. */
  function PropertyBeforeColon(s: string): (r: Option<string>)
    ensures r.Some? ==> IsWord(r.value)
  {
    var j := SpaceStart(s, 0, |s|);
    if j > 0 && s[j - 1] == ':' then
      var w := WordStart(s, j - 1);
      if w < j - 1 then Some(s[w..j - 1]) else None
    else None
  }

  /** A name typed after a non-identifier character, then a colon and whitespace, is read back whole. */
  lemma PropertyBeforeColonOf(pre: string, name: string, ws: string)
    requires IsWord(name) && AllSpace(ws)
    requires pre == [] || !IsWordChar(pre[|pre| - 1])
    ensures PropertyBeforeColon(pre + name + ":" + ws) == Some(name)
  {
    var s := pre + name + ":" + ws;
    var c := |pre| + |name|;
    BeforeColonLayout(pre, name, ws);
    hide *;
    SpaceStartOver(s, c + 1);
    WordStartFrom(s, |pre|, c);
  }

  /** Where the pieces of `pre + name + ":" + ws` sit. */
  lemma BeforeColonLayout(pre: string, name: string, ws: string)
    requires IsWord(name) && AllSpace(ws)
    requires pre == [] || !IsWordChar(pre[|pre| - 1])
    ensures var s := pre + name + ":" + ws; var c := |pre| + |name|;
      c < |s| && s[c] == ':' && !IsSpace(s[c]) && AllSpace(s[c + 1..]) && s[|pre|..c] == name &&
      (forall m :: |pre| <= m < c ==> IsWordChar(s[m])) &&
      (|pre| == 0 || !IsWordChar(s[|pre| - 1]))
  {
    var s := pre + name + ":" + ws;
    var c := |pre| + |name|;
    assert s[c + 1..] == ws;
    forall m | |pre| <= m < c ensures IsWordChar(s[m]) {
      assert s[m] == name[m - |pre|];
    }
    if |pre| > 0 {
      assert s[|pre| - 1] == pre[|pre| - 1];
    }
    assert s[|pre|..c] == name;
  }

  lemma {:induction false} WordStartFrom(s: string, j: nat, k: nat)
    requires j <= k <= |s| && (j == 0 || !IsWordChar(s[j - 1]))
    requires forall m :: j <= m < k ==> IsWordChar(s[m])
    ensures WordStart(s, k) == j
    decreases k
  {
    if k > j {
      WordStartFrom(s, j, k - 1);
    }
  }

  // ---------------------------------------------------------------------
  // Widget completions

  /** The snippet inserted after `<`: `Name> {`, an indented tab stop, `}`. */
  function WidgetInsert(name: string): string {
    name + "> {\n\t$0\n}"
  }

  function WidgetItem(name: string): Item {
    Item(name, Class, "Makepad Widget", Some(WidgetInsert(name)))
  }

  function WidgetItems(names: seq<string>): (items: seq<Item>)
    ensures |items| == |names| && forall i :: 0 <= i < |names| ==> items[i] == WidgetItem(names[i])
  {
    seq(|names|, i requires 0 <= i < |names| => WidgetItem(names[i]))
  }

  /** The scanned names the documentation table does not list, in scan order. */
  function Undocumented(docs: seq<string>, scanned: seq<string>): seq<string>
    decreases |scanned|
  {
    if scanned == [] then []
    else
      var rest := Undocumented(docs, scanned[..|scanned| - 1]);
      var n := scanned[|scanned| - 1];
      if n in docs then rest else rest + [n]
  }

  /** The widget names offered after `<`: every documented name, then every scanned name the docs lack. */
  function WidgetCompletionNames(docs: seq<string>, scanned: seq<string>): seq<string> {
    docs + Undocumented(docs, scanned)
  }

  lemma {:induction false} UndocumentedElements(docs: seq<string>, scanned: seq<string>)
    ensures forall x :: x in Undocumented(docs, scanned) <==> x in scanned && x !in docs
    ensures Distinct(scanned) ==> Distinct(Undocumented(docs, scanned))
    decreases |scanned|
  {
    if scanned != [] {
      var init := scanned[..|scanned| - 1];
      UndocumentedElements(docs, init);
      assert scanned == init + [scanned[|scanned| - 1]];
    }
  }

  /**
   * Each documented name comes first, in table order, and every name is
   * offered exactly when it is documented or scanned; with a table and a scan
   * free of repeats, no name is offered twice.
   */
  lemma WidgetNamesOnce(docs: seq<string>, scanned: seq<string>)
    ensures var names := WidgetCompletionNames(docs, scanned);
      names[..|docs|] == docs &&
      (forall x :: x in names <==> x in docs || x in scanned) &&
      (Distinct(docs) && Distinct(scanned) ==> Distinct(names))
  {
    UndocumentedElements(docs, scanned);
    var names := WidgetCompletionNames(docs, scanned);
    var u := Undocumented(docs, scanned);
    assert names[..|docs|] == docs;
    if Distinct(docs) && Distinct(scanned) {
      forall i, j | 0 <= i < j < |names| ensures names[i] != names[j] {
        if j >= |docs| {
          assert names[j] == u[j - |docs|];
          if i >= |docs| {
            assert names[i] == u[i - |docs|];
          } else {
            assert names[i] in docs;
            assert u[j - |docs|] in u;
          }
        }
      }
    }
  }

  // ---------------------------------------------------------------------
  // Value completions

  /** A value offered after `name:`: not a widget (`<...`) and not a block (`{...`). */
  predicate KeptValue(v: string) {
    !StartsWith(v, "<") && !StartsWith(v, "{")
  }

  function KeptValues(values: seq<string>): seq<string>
    decreases |values|
  {
    if values == [] then []
    else
      var rest := KeptValues(values[..|values| - 1]);
      var v := values[|values| - 1];
      if KeptValue(v) then rest + [v] else rest
  }

  /** The filter keeps exactly the plain values. */
  lemma {:induction false} KeptValuesElements(values: seq<string>)
    ensures forall v :: v in KeptValues(values) <==> v in values && KeptValue(v)
    decreases |values|
  {
    if values != [] {
      KeptValuesElements(values[..|values| - 1]);
      assert values == values[..|values| - 1] + [values[|values| - 1]];
    }
  }

  /** The filter works piece by piece, so it keeps the values' order. */
  lemma {:induction false} KeptValuesAppend(a: seq<string>, b: seq<string>)
    ensures KeptValues(a + b) == KeptValues(a) + KeptValues(b)
    decreases |b|
  {
    if b == [] {
      assert a + b == a;
    } else {
      var b' := b[..|b| - 1];
      assert a + b == (a + b') + [b[|b| - 1]];
      assert (a + b)[..|a + b| - 1] == a + b';
      KeptValuesAppend(a, b');
    }
  }

  /** Filtering twice is filtering once. */
  lemma {:induction false} KeptValuesIdempotent(values: seq<string>)
    ensures KeptValues(KeptValues(values)) == KeptValues(values)
    decreases |values|
  {
    if values != [] {
      var init := values[..|values| - 1];
      var v := values[|values| - 1];
      KeptValuesIdempotent(init);
      if KeptValue(v) {
        KeptValuesAppend(KeptValues(init), [v]);
        assert KeptValues([v]) == [v] by {
          assert [v][..0] == [];
        }
      }
    }
  }

  function ValueItems(propName: string, values: seq<string>): (items: seq<Item>)
    ensures |items| == |values| && forall i :: 0 <= i < |values| ==> items[i] == Item(values[i], Value, propName, None)
  {
    seq(|values|, i requires 0 <= i < |values| => Item(values[i], Value, propName, None))
  }

  /** `PROPERTY_DOCS[name]`: the first entry of that name. */
  function LookupProp(props: seq<PropertyDoc>, name: string): (r: Option<PropertyDoc>)
    ensures r.Some? ==> r.value in props && r.value.name == name
    ensures r.None? ==> forall p :: p in props ==> p.name != name
  {
    if props == [] then None
    else if props[0].name == name then Some(props[0])
    else LookupProp(props[1..], name)
  }

  // ---------------------------------------------------------------------
  // Property completions

  /** The insert text for a property: fixed snippets for `align`, `padding`/`margin` and `draw_bg`, else a choice or a placeholder. */
  function PropertyInsert(name: string, values: seq<string>): string {
    if name == "align" then name + ": {x: ${1:0.5}, y: ${2:0.5}}"
    else if name == "padding" || name == "margin" then name + ": ${1:10}"
    else if name == "draw_bg" then name + ": {\n\tcolor: ${1:#333}\n}"
    else if |values| > 1 then name + ": ${1|" + Join(values, ",") + "|}"
    else name + ": ${1:value}"
  }

  /** Every insert text starts with the property name and `: `. */
  lemma PropertyInsertHead(name: string, values: seq<string>)
    ensures StartsWith(PropertyInsert(name, values), name + ": ")
  {
    hide Join;
    if name == "align" {
      NameColonPrefix(name, ": {x: ${1:0.5}, y: ${2:0.5}}");
    } else if name == "padding" || name == "margin" {
      NameColonPrefix(name, ": ${1:10}");
    } else if name == "draw_bg" {
      NameColonPrefix(name, ": {\n\tcolor: ${1:#333}\n}");
    } else if |values| > 1 {
      NameColonPrefix(name, ": ${1|");
      StartsWithExtend(name + ": ${1|", name + ": ", Join(values, ","));
      StartsWithExtend(name + ": ${1|" + Join(values, ","), name + ": ", "|}");
    } else {
      NameColonPrefix(name, ": ${1:value}");
    }
  }

  lemma NameColonPrefix(name: string, tail: string)
    requires 2 <= |tail| && tail[0] == ':' && tail[1] == ' '
    ensures StartsWith(name + tail, name + ": ")
  {
    assert forall j :: 0 <= j < |name + ": "| ==> (name + tail)[0 + j] == (name + ": ")[j];
  }

  /**
   * For any other property with several values, the snippet is a choice
   * list whose options, split at the commas, are the values in order (when
   * no value holds a comma).
   */
  lemma PropertyInsertChoices(name: string, values: seq<string>)
    requires name != "align" && name != "padding" && name != "margin" && name != "draw_bg"
    requires |values| > 1 && forall k :: 0 <= k < |values| ==> ',' !in values[k]
    ensures var r := PropertyInsert(name, values); var h := name + ": ${1|";
      StartsWith(r, h) && EndsWith(r, "|}") && Split(r[|h|..|r| - 2], ',') == values
  {
    var r := PropertyInsert(name, values);
    var h := name + ": ${1|";
    var c := Join(values, ",");
    assert r == h + c + "|}";
    assert r[|h|..|r| - 2] == c;
    assert forall j :: 0 <= j < |h| ==> r[0 + j] == h[j];
    assert forall j :: 0 <= j < 2 ==> r[|r| - 2 + j] == "|}"[j];
    SplitJoin(values, ',');
  }

  /** Otherwise: a placeholder for one value or none. */
  lemma PropertyInsertPlaceholder(name: string, values: seq<string>)
    requires name != "align" && name != "padding" && name != "margin" && name != "draw_bg"
    requires |values| <= 1
    ensures PropertyInsert(name, values) == name + ": ${1:value}"
  {
  }

  function PropertyItem(p: PropertyDoc): Item {
    Item(p.name, Property, p.propType, Some(PropertyInsert(p.name, p.values)))
  }

  function PropertyItems(props: seq<PropertyDoc>): (items: seq<Item>)
    ensures |items| == |props| && forall i :: 0 <= i < |props| ==> items[i] == PropertyItem(props[i])
  {
    seq(|props|, i requires 0 <= i < |props| => PropertyItem(props[i]))
  }

  // ---------------------------------------------------------------------
  // The decision

  /** The first two branches answer to a trigger character or an explicit request. */
  predicate Prompted(kind: TriggerKind) {
    kind == TriggerCharacter || kind == Invoke
  }

  /**
   * `provideCompletionItems`. `docs` are the names of the widget
   * documentation table and `props` the property table, both in their
   * declaration order; `scanned` are the keys of the widget locations table.
   */
  function Completions(docs: seq<string>, scanned: seq<string>, props: seq<PropertyDoc>,
                       textBefore: string, charBefore: string, kind: TriggerKind): seq<Item>
  {
    if !Contains(textBefore, "live_design!") then []
    else if EndsWithMark(charBefore, '<') && Prompted(kind) then WidgetItems(WidgetCompletionNames(docs, scanned))
    else if PropertyBeforeColon(charBefore).Some? && Prompted(kind) then
      var propName := PropertyBeforeColon(charBefore).value;
      match LookupProp(props, propName)
      case Some(p) => ValueItems(propName, KeptValues(p.values))
      case None => []
    else if kind == Invoke && (AllSpace(charBefore) || EndsWithMark(charBefore, '{')) then PropertyItems(props)
    else []
  }

  /**
   * What each context offers: nothing outside `live_design!`; after `<`
   * every widget once; after `name:` the plain values of that property in
   * order, or nothing for an undocumented name; only on an explicit request,
   * at a blank line or after `{`, every property in order; nothing when
   * completions are only being refreshed, for an explicit request anywhere
   * else, nor for a trigger character in any other context.
   */
  lemma CompletionsCases(docs: seq<string>, scanned: seq<string>, props: seq<PropertyDoc>,
                         textBefore: string, charBefore: string, kind: TriggerKind)
    ensures var r := Completions(docs, scanned, props, textBefore, charBefore, kind);
      (!Contains(textBefore, "live_design!") ==> r == []) &&
      (kind == TriggerForIncompleteCompletions ==> r == []) &&
      (Contains(textBefore, "live_design!") && EndsWithMark(charBefore, '<') && Prompted(kind) ==>
         |r| == |WidgetCompletionNames(docs, scanned)| &&
         (forall n :: n in docs || n in scanned <==> exists i :: 0 <= i < |r| && r[i].name == n && r[i].kind == Class) &&
         (Distinct(docs) && Distinct(scanned) ==> forall i, j :: 0 <= i < j < |r| ==> r[i].name != r[j].name)) &&
      (r != [] && r[0].kind == Value ==>
         PropertyBeforeColon(charBefore).Some? &&
         forall i :: 0 <= i < |r| ==> KeptValue(r[i].name) && r[i].name in LookupProp(props, PropertyBeforeColon(charBefore).value).value.values) &&
      (Contains(textBefore, "live_design!") && !EndsWithMark(charBefore, '<') && Prompted(kind) && PropertyBeforeColon(charBefore).Some? ==>
         var n := PropertyBeforeColon(charBefore).value;
         (LookupProp(props, n).Some? ==>
            |r| == |KeptValues(LookupProp(props, n).value.values)| &&
            forall i :: 0 <= i < |r| ==> r[i] == Item(KeptValues(LookupProp(props, n).value.values)[i], Value, n, None)) &&
         (LookupProp(props, n).None? ==> r == [])) &&
      (Contains(textBefore, "live_design!") && !(EndsWithMark(charBefore, '<') && Prompted(kind)) &&
       !(PropertyBeforeColon(charBefore).Some? && Prompted(kind)) ==>
         (kind == Invoke && (AllSpace(charBefore) || EndsWithMark(charBefore, '{')) ==>
            |r| == |props| && forall i :: 0 <= i < |r| ==> r[i] == PropertyItem(props[i])) &&
         (kind == Invoke && !(AllSpace(charBefore) || EndsWithMark(charBefore, '{')) ==> r == []) &&
         (kind != Invoke ==> r == []))
  {
    var r := Completions(docs, scanned, props, textBefore, charBefore, kind);
    if Contains(textBefore, "live_design!") && EndsWithMark(charBefore, '<') && Prompted(kind) {
      var names := WidgetCompletionNames(docs, scanned);
      WidgetNamesOnce(docs, scanned);
      forall n ensures n in docs || n in scanned <==> exists i :: 0 <= i < |r| && r[i].name == n && r[i].kind == Class {
        if n in names {
          var i :| 0 <= i < |names| && names[i] == n;
          assert r[i].name == n;
        }
      }
    } else if r != [] && r[0].kind == Value {
      var propName := PropertyBeforeColon(charBefore).value;
      var p := LookupProp(props, propName).value;
      KeptValuesElements(p.values);
      forall i | 0 <= i < |r| ensures KeptValue(r[i].name) && r[i].name in p.values {
        assert r[i].name == KeptValues(p.values)[i];
      }
    }
  }

  /** The completion provider over the scanned index; each branch builds its items with a loop. */
  method ProvideCompletionItems(index: MakepadIndex, docs: seq<string>, props: seq<PropertyDoc>,
                                textBefore: string, line: string, character: nat, kind: TriggerKind)
    returns (items: seq<Item>)
    ensures items == Completions(docs, index.widgetOrder, props, textBefore, CharBefore(line, character), kind)
  {
    if !Contains(textBefore, "live_design!") {
      return [];
    }
    var charBefore := CharBefore(line, character);
    var prompted := kind == TriggerCharacter || kind == Invoke;
    if EndsWithMark(charBefore, '<') && prompted {
      items := CollectWidgetItems(docs, index.widgetOrder);
      return items;
    }
    var propMatch := PropertyBeforeColon(charBefore);
    if propMatch.Some? && prompted {
      var prop := LookupProp(props, propMatch.value);
      items := [];
      if prop.Some? {
        items := CollectValueItems(propMatch.value, prop.value.values);
      }
      return items;
    }
    items := [];
    if kind == Invoke && (AllSpace(charBefore) || EndsWithMark(charBefore, '{')) {
      items := CollectPropertyItems(props);
    }
  }

  /** After `<`: one item per documented widget, then one per scanned widget the docs lack. */
  method CollectWidgetItems(docs: seq<string>, scanned: seq<string>) returns (items: seq<Item>)
    ensures items == WidgetItems(WidgetCompletionNames(docs, scanned))
  {
    items := [];
    var i := 0;
    while i < |docs|
      invariant 0 <= i <= |docs|
      invariant items == WidgetItems(docs[..i])
    {
      items := items + [WidgetItem(docs[i])];
      i := i + 1;
    }
    assert docs[..i] == docs;
    var j := 0;
    while j < |scanned|
      invariant 0 <= j <= |scanned|
      invariant items == WidgetItems(docs + Undocumented(docs, scanned[..j]))
    {
      assert scanned[..j + 1][..j] == scanned[..j];
      if scanned[j] !in docs {
        items := items + [WidgetItem(scanned[j])];
      }
      j := j + 1;
    }
    assert scanned[..j] == scanned;
  }

  /** After `name:`: one item per plain value of the property, in order. */
  method CollectValueItems(propName: string, values: seq<string>) returns (items: seq<Item>)
    ensures items == ValueItems(propName, KeptValues(values))
  {
    items := [];
    ghost var kept: seq<string> := [];
    var i := 0;
    while i < |values|
      invariant 0 <= i <= |values|
      invariant kept == KeptValues(values[..i])
      invariant items == ValueItems(propName, kept)
    {
      assert values[..i + 1][..i] == values[..i];
      var value := values[i];
      if !StartsWith(value, "<") && !StartsWith(value, "{") {
        items := items + [Item(value, Value, propName, None)];
        kept := kept + [value];
      }
      i := i + 1;
    }
    assert values[..i] == values;
  }

  /** On an explicit request at a blank line or after `{`: one item per documented property. */
  method CollectPropertyItems(props: seq<PropertyDoc>) returns (items: seq<Item>)
    ensures items == PropertyItems(props)
  {
    items := [];
    var i := 0;
    while i < |props|
      invariant 0 <= i <= |props|
      invariant items == PropertyItems(props[..i])
    {
      items := items + [PropertyItem(props[i])];
      i := i + 1;
    }
    assert props[..i] == props;
  }
}

=== FILE: documentation.dfy ===
// `generate_documentation` of scripts/extract_widgets.py: the Markdown widget
// reference, built as the text its successive writes leave in the file.

module Documentation {
  import opened Text
  import opened ExtractWidgets

  // ---------------------------------------------------------------------
  // `sorted` over widget names.

  predicate StrictlySorted(r: seq<string>) {
    forall i, j :: 0 <= i < j < |r| ==> Less(r[i], r[j])
  }

  predicate IsLeast(m: string, names: set<string>) {
    m in names && forall x | x in names :: x == m || Less(m, x)
  }

  /** Every non-empty set of names has a least one. */
  lemma {:induction false} LeastExists(names: set<string>)
    requires names != {}
    ensures exists m :: IsLeast(m, names)
    decreases |names|
  {
    var x :| x in names;
    var rest := names - {x};
    if rest == {} {
      assert names == {x};
      assert IsLeast(x, names);
    } else {
      LeastExists(rest);
      var m :| IsLeast(m, rest);
      LessTotal(x, m);
      if Less(x, m) {
        forall y | y in names ensures y == x || Less(x, y) {
          if y != x && y != m { LessTransitive(x, m, y); }
        }
        assert IsLeast(x, names);
      } else {
        assert IsLeast(m, names);
      }
    }
  }

  /** The names in ascending order: the reference `sorted` is measured against. */
  ghost function SortedOf(names: set<string>): (r: seq<string>)
    ensures StrictlySorted(r)
    ensures forall x :: x in r <==> x in names
    ensures |r| == |names|
    decreases |names|
  {
    if names == {} then []
    else
      LeastExists(names);
      var m :| IsLeast(m, names);
      var rest := SortedOf(names - {m});
      assert forall j :: 0 <= j < |rest| ==> rest[j] in names - {m};
      [m] + rest
  }

  /** Two ascending sequences of the same names are the same sequence. */
  lemma {:induction false} SortedUnique(a: seq<string>, b: seq<string>)
    requires StrictlySorted(a) && StrictlySorted(b)
    requires forall x :: x in a <==> x in b
    ensures a == b
    decreases |a|
  {
    assert |b| == 0 || b[0] in b;
    if a != [] {
      assert a[0] in b;
      assert b != [];
      assert b[0] in a;
      var i :| 0 <= i < |b| && b[i] == a[0];
      var k :| 0 <= k < |a| && a[k] == b[0];
      if i > 0 {
        assert k > 0 ==> Less(a[0], a[k]);
        LessIrreflexive(a[0]);
        assert Less(b[0], b[i]);
        if k > 0 { LessAsymmetric(a[0], b[0]); }
      }
      assert a[0] == b[0];
      forall x ensures x in a[1..] <==> x in b[1..] {
        if x in a[1..] {
          var j :| 0 <= j < |a[1..]| && a[1..][j] == x;
          assert Less(a[0], a[j + 1]);
          LessIrreflexive(x);
          assert x in b;
        }
        if x in b[1..] {
          var j :| 0 <= j < |b[1..]| && b[1..][j] == x;
          assert Less(b[0], b[j + 1]);
          LessIrreflexive(x);
          assert x in a;
        }
      }
      SortedUnique(a[1..], b[1..]);
      assert a == [a[0]] + a[1..] && b == [b[0]] + b[1..];
    }
  }

  /** The least of a non-empty set of names, by one pass over it. */
  method LeastName(names: set<string>) returns (m: string)
    requires names != {}
    ensures IsLeast(m, names)
  {
    m :| m in names;
    var rest := names - {m};
    while rest != {}
      invariant rest <= names && m in names && m !in rest
      invariant forall x | x in names - rest :: x == m || Less(m, x)
      decreases |rest|
    {
      var x :| x in rest;
      LessTotal(m, x);
      if Less(x, m) {
        forall y | y in names - rest ensures y == x || Less(x, y) {
          if y != m { LessTransitive(x, m, y); }
        }
        m := x;
      }
      rest := rest - {x};
    }
  }

  /** `sorted(names)`: the least remaining name is taken until none is left. */
  method SortNames(names: set<string>) returns (r: seq<string>)
    ensures r == SortedOf(names)
  {
    r := [];
    var remaining := names;
    while remaining != {}
      invariant remaining <= names
      invariant StrictlySorted(r)
      invariant forall x :: x in r <==> x in names && x !in remaining
      invariant forall i, y | 0 <= i < |r| && y in remaining :: Less(r[i], y)
      decreases |remaining|
    {
      var m := LeastName(remaining);
      forall i, y | 0 <= i < |r| + 1 && y in remaining - {m} ensures Less((r + [m])[i], y) {
        if i == |r| {
          assert y != m;
        } else {
          assert Less(r[i], m);
          LessTransitive(r[i], m, y);
        }
      }
      r := r + [m];
      remaining := remaining - {m};
    }
    SortedUnique(r, SortedOf(names));
  }

  // ---------------------------------------------------------------------
  // The pieces of the document.

  const Preamble: string := "# Makepad Widgets Reference\n\n" + "Auto-generated from Makepad source code.\n\n" + "## Table of Contents\n\n"

  const Rule: string := "\n---\n\n"

  /** A table-of-contents entry, linking to the section anchor. */
  function TocLine(name: string): string {
    "- [" + name + "](#" + Lower(name) + ")\n"
  }

  function TocLines(names: seq<string>): (r: seq<string>)
    ensures |r| == |names| && forall i :: 0 <= i < |names| ==> r[i] == TocLine(names[i])
  {
    seq(|names|, i requires 0 <= i < |names| => TocLine(names[i]))
  }

  /** The Default cell: the default text, or `-` when there is none or it is empty. */
  function DefaultCell(d: Option<string>): (c: string)
    ensures d.Some? && d.value != "" ==> c == d.value
    ensures d.None? || d.value == "" ==> c == "-"
  {
    if d.Some? && d.value != "" then d.value else "-"
  }

  function PropertyRow(p: WidgetProperty): string {
    "| `" + p.name + "` | `" + p.propType + "` | " + DefaultCell(p.default) + " |\n"
  }

  function PropertyRows(ps: seq<WidgetProperty>): (r: seq<string>)
    ensures |r| == |ps| && forall i :: 0 <= i < |ps| ==> r[i] == PropertyRow(ps[i])
  {
    seq(|ps|, i requires 0 <= i < |ps| => PropertyRow(ps[i]))
  }

  const TableHead: string := "### Properties\n\n" + "| Property | Type | Default |\n" + "|----------|------|--------|\n"

  /** The properties table, present only when there are properties. */
  function PropertiesBlock(ps: seq<WidgetProperty>): (b: string)
    ensures b == "" <==> ps == []
  {
    if ps == [] then "" else TableHead + Concat(PropertyRows(ps)) + "\n"
  }

  /** The doc paragraph, present only when there is a doc comment. */
  function DocParagraph(doc: string): (b: string)
    ensures b == "" <==> doc == ""
    ensures doc != "" ==> StartsWith(b, doc)
  {
    if doc == "" then "" else doc + "\n\n"
  }

  function ExampleBlock(name: string): string {
    "### Example\n\n" + "```rust\n" + "my_" + Lower(name) + " = <" + name + "> {\n" + "    // properties here\n" + "}\n" + "```\n\n" + "---\n\n"
  }

  function SectionHead(name: string, w: Widget): string {
    "## " + name + "\n\n" + "**File:** `" + w.file + "`\n\n"
  }

  /** One widget's section. */
  function Section(name: string, w: Widget): string {
    SectionHead(name, w) + DocParagraph(w.doc) + PropertiesBlock(w.properties) + ExampleBlock(name)
  }

  function Sections(widgets: map<string, Widget>, names: seq<string>): (r: seq<string>)
    requires forall i :: 0 <= i < |names| ==> names[i] in widgets
    ensures |r| == |names| && forall i :: 0 <= i < |names| ==> r[i] == Section(names[i], widgets[names[i]])
  {
    seq(|names|, i requires 0 <= i < |names| => Section(names[i], widgets[names[i]]))
  }

  /** The document for the names in the order given. */
  function Render(widgets: map<string, Widget>, names: seq<string>): string
    requires forall i :: 0 <= i < |names| ==> names[i] in widgets
  {
    Preamble + Concat(TocLines(names)) + Rule + Concat(Sections(widgets, names))
  }

  /** The document `generate_documentation` writes: names in ascending order. */
  ghost function Document(widgets: map<string, Widget>): string {
    var names := SortedOf(widgets.Keys);
    assert forall i :: 0 <= i < |names| ==> names[i] in widgets;
    Render(widgets, names)
  }

  // ---------------------------------------------------------------------
  // The writes.

  lemma SectionParts(name: string, w: Widget)
    ensures Section(name, w) == SectionHead(name, w) + DocParagraph(w.doc) + PropertiesBlock(w.properties) + ExampleBlock(name)
    ensures w.properties != [] ==> PropertiesBlock(w.properties) == TableHead + Concat(PropertyRows(w.properties)) + "\n"
  {
  }

  lemma RenderParts(widgets: map<string, Widget>)
    ensures var names := SortedOf(widgets.Keys);
      && (forall i :: 0 <= i < |names| ==> names[i] in widgets)
      && Document(widgets) == Preamble + Concat(TocLines(names)) + Rule + Concat(Sections(widgets, names))
  {
  }

  /** One section: heading and file, the doc paragraph if any, the table if any (a row per property), the example. */
  method WriteSection(name: string, w: Widget) returns (text: string)
    ensures text == Section(name, w)
  {
    hide *;
    SectionParts(name, w);
    text := SectionHead(name, w);
    if w.doc != "" {
      text := text + DocParagraph(w.doc);
    }
    ghost var before := text;
    if w.properties != [] {
      text := text + TableHead;
      ghost var rows := PropertyRows(w.properties);
      ConcatSnoc(rows, 0);
      for k := 0 to |w.properties|
        invariant text == before + TableHead + Concat(rows[..k])
      {
        ConcatSnoc(rows, k);
        text := text + PropertyRow(w.properties[k]);
      }
      text := text + "\n";
    }
    text := text + ExampleBlock(name);
  }

  /** `generate_documentation`: header, table of contents, rule, then one section per widget. */
  method GenerateDocumentation(widgets: map<string, Widget>) returns (doc: string)
    ensures doc == Document(widgets)
  {
    hide *;
    RenderParts(widgets);
    var names := SortNames(widgets.Keys);
    doc := Preamble;
    ghost var toc := TocLines(names);
    ConcatSnoc([""], 0);
    assert Concat(toc[..0]) == "" by { assert toc[..0] == [""][..0]; }
    for i := 0 to |names|
      invariant doc == Preamble + Concat(toc[..i])
    {
      ConcatSnoc(toc, i);
      doc := doc + TocLine(names[i]);
    }
    if names != [] { ConcatSnoc(toc, 0); } else { assert toc[..0] == toc; }
    doc := doc + Rule;
    ghost var head := doc;
    ghost var sections := Sections(widgets, names);
    assert Concat(sections[..0]) == "" by { assert sections[..0] == [""][..0]; }
    for i := 0 to |names|
      invariant doc == head + Concat(sections[..i])
    {
      ConcatSnoc(sections, i);
      var section := WriteSection(names[i], widgets[names[i]]);
      doc := doc + section;
    }
    if names != [] { ConcatSnoc(sections, 0); } else { assert sections[..0] == sections; }
  }

  // ---------------------------------------------------------------------
  // What the document promises.

  /** In an ascending sequence, the smaller of two names comes first. */
  lemma SortedPositions(names: seq<string>, a: string, b: string)
    requires StrictlySorted(names) && a in names && b in names && Less(a, b)
    ensures exists i, j :: 0 <= i < j < |names| && names[i] == a && names[j] == b
  {
    var i :| 0 <= i < |names| && names[i] == a;
    var j :| 0 <= j < |names| && names[j] == b;
    if j <= i {
      LessIrreflexive(a);
      if j < i { LessAsymmetric(a, b); }
    }
  }

  /** Of two widget names, the smaller one's entry comes first in the table of contents, and its section first among the sections. */
  lemma DocumentOrder(widgets: map<string, Widget>, a: string, b: string)
    requires a in widgets && b in widgets && Less(a, b)
    ensures InOrder(Document(widgets), TocLine(a), TocLine(b))
    ensures InOrder(Document(widgets), Section(a, widgets[a]), Section(b, widgets[b]))
  {
    hide *;
    RenderParts(widgets);
    var names := SortedOf(widgets.Keys);
    SortedPositions(names, a, b);
    var i, j :| 0 <= i < j < |names| && names[i] == a && names[j] == b;
    var toc := TocLines(names);
    var sections := Sections(widgets, names);
    ConcatInOrder(toc, i, j);
    InOrderShift(Preamble, Concat(toc), Rule + Concat(sections), toc[i], toc[j]);
    assert Preamble + Concat(toc) + Rule + Concat(sections) == Preamble + Concat(toc) + (Rule + Concat(sections));
    ConcatInOrder(sections, i, j);
    InOrderShift(Preamble + Concat(toc) + Rule, Concat(sections), "", sections[i], sections[j]);
    assert Preamble + Concat(toc) + Rule + Concat(sections) == Preamble + Concat(toc) + Rule + Concat(sections) + "";
  }

  /** Every widget of the catalog has its table-of-contents entry and its section. */
  lemma DocumentLists(widgets: map<string, Widget>, a: string)
    requires a in widgets
    ensures exists p: nat :: At(Document(widgets), p, TocLine(a))
    ensures exists p: nat :: At(Document(widgets), p, Section(a, widgets[a]))
  {
    hide *;
    RenderParts(widgets);
    var names := SortedOf(widgets.Keys);
    var i :| 0 <= i < |names| && names[i] == a;
    var toc := TocLines(names);
    var sections := Sections(widgets, names);
    ConcatAt(toc, i);
    AtShift(Preamble, Concat(toc), Rule + Concat(sections), |Concat(toc[..i])|, toc[i]);
    assert Preamble + Concat(toc) + Rule + Concat(sections) == Preamble + Concat(toc) + (Rule + Concat(sections));
    ConcatAt(sections, i);
    AtShift(Preamble + Concat(toc) + Rule, Concat(sections), "", |Concat(sections[..i])|, sections[i]);
    assert Preamble + Concat(toc) + Rule + Concat(sections) == Preamble + Concat(toc) + Rule + Concat(sections) + "";
  }

  lemma PropertiesBlockIs(ps: seq<WidgetProperty>)
    requires ps != []
    ensures PropertiesBlock(ps) == TableHead + Concat(PropertyRows(ps)) + "\n"
  {
  }

  /** A widget's table rows follow its properties, one row each, in order. */
  lemma RowsInOrder(ps: seq<WidgetProperty>, i: nat, j: nat)
    requires i < j < |ps|
    ensures InOrder(PropertiesBlock(ps), PropertyRow(ps[i]), PropertyRow(ps[j]))
  {
    hide *;
    PropertiesBlockIs(ps);
    var rows := PropertyRows(ps);
    ConcatInOrder(rows, i, j);
    InOrderShift(TableHead, Concat(rows), "\n", rows[i], rows[j]);
  }

  /** Every property has its row in the table. */
  lemma RowPresent(ps: seq<WidgetProperty>, i: nat)
    requires i < |ps|
    ensures exists p: nat :: At(PropertiesBlock(ps), p, PropertyRow(ps[i]))
  {
    hide Concat, PropertiesBlock, PropertyRows;
    PropertiesBlockIs(ps);
    var rows := PropertyRows(ps);
    ConcatAt(rows, i);
    AtShift(TableHead, Concat(rows), "\n", |Concat(rows[..i])|, rows[i]);
  }
}

=== FILE: extension.dfy ===
// src/extension.ts: the in-memory index the editor extension builds from the
// Makepad widget sources at activation, and the go-to-definition lookup over it.

module Extension {
  import opened Text
  import opened Sources
  import opened Patterns
  import opened LineScan

  /** A sequence without repeated elements. */
  predicate Distinct(s: seq<string>) {
    forall i, j :: 0 <= i < j < |s| ==> s[i] != s[j]
  }

  /**
   * A line the extension records as a widget: `^pub struct (\w+)\s*\{`
   * naming a type that is not `*Ref`, `*Set` or `Draw*`. Unlike the
   * scripts, the extension has no denylist.
   */
  function ExtWidgetName(line: string): (r: Option<string>)
    ensures r.Some? <==> StructLineName(line).Some? && !IsInternalType(StructLineName(line).value)
    ensures r.Some? ==> r == StructLineName(line)
  {
    match StructLineName(line)
    case Some(name) => if IsInternalType(name) then None else Some(name)
    case None => None
  }

  /** The extension records a denylisted name the scripts skip. */
  lemma ExtRecordsDenylisted()
    ensures ExtWidgetName("pub struct WidgetAction {") == Some("WidgetAction")
  {
    hide StructLineName;
    StructLineNameOf("WidgetAction", " ", "");
    assert "pub struct " + "WidgetAction" + " " + "{" + "" == "pub struct WidgetAction {";
    assert "WidgetAction"[9] != "Ref"[0] && "WidgetAction"[9] != "Set"[0] && "WidgetAction"[0] != "Draw"[0];
  }

  // ---------------------------------------------------------------------
  // Key order of a JavaScript object

  /** The names the recognizer finds in the first `n` lines, in line order. */
  function LineNames(lines: seq<string>, n: nat, rec: string -> Option<string>): seq<string>
    requires n <= |lines|
    decreases n
  {
    if n == 0 then []
    else
      match rec(lines[n - 1])
      case Some(name) => LineNames(lines, n - 1, rec) + [name]
      case None => LineNames(lines, n - 1, rec)
  }

  /** The names the recognizer finds in all lines of all files, in scan order. */
  function FileNames(files: seq<SourceFile>, rec: string -> Option<string>): seq<string>
    decreases |files|
  {
    if files == [] then []
    else
      var f := files[|files| - 1];
      FileNames(files[..|files| - 1], rec) + LineNames(Lines(f), |Lines(f)|, rec)
  }

  /** `Object.keys` order after assigning `names` in turn: a name already present keeps its place, a new one goes last. */
  function Appended(order: seq<string>, names: seq<string>): seq<string>
    decreases |names|
  {
    if names == [] then order
    else
      var before := Appended(order, names[..|names| - 1]);
      var n := names[|names| - 1];
      if n in before then before else before + [n]
  }

  lemma AppendedSnoc(order: seq<string>, names: seq<string>, n: string)
    ensures Appended(order, names + [n]) == if n in Appended(order, names) then Appended(order, names) else Appended(order, names) + [n]
  {
    assert (names + [n])[..|names|] == names;
  }

  /** Assigning `a` then `b` orders the keys as assigning `a + b`. */
  lemma {:induction false} AppendedConcat(order: seq<string>, a: seq<string>, b: seq<string>)
    ensures Appended(order, a + b) == Appended(Appended(order, a), b)
    decreases |b|
  {
    if b == [] {
      assert a + b == a;
    } else {
      var b' := b[..|b| - 1];
      var n := b[|b| - 1];
      assert a + b == (a + b') + [n];
      assert b == b' + [n];
      AppendedConcat(order, a, b');
      AppendedSnoc(order, a + b', n);
      AppendedSnoc(Appended(order, a), b', n);
    }
  }

  /** The keys in order are the old ones followed by each new name once, at its first assignment. */
  lemma {:induction false} AppendedElements(order: seq<string>, names: seq<string>)
    ensures forall x :: x in Appended(order, names) <==> x in order || x in names
    ensures Distinct(order) ==> Distinct(Appended(order, names))
    ensures |order| <= |Appended(order, names)| && Appended(order, names)[..|order|] == order
    decreases |names|
  {
    if names != [] {
      var init := names[..|names| - 1];
      AppendedElements(order, init);
      assert names == init + [names[|names| - 1]];
    }
  }

  lemma LineNamesStep(lines: seq<string>, i: nat, rec: string -> Option<string>)
    requires i < |lines|
    ensures rec(lines[i]).Some? ==> LineNames(lines, i + 1, rec) == LineNames(lines, i, rec) + [rec(lines[i]).value]
    ensures rec(lines[i]).None? ==> LineNames(lines, i + 1, rec) == LineNames(lines, i, rec)
  {
  }

  lemma FileNamesStep(files: seq<SourceFile>, rec: string -> Option<string>, k: nat)
    requires k < |files|
    ensures FileNames(files[..k + 1], rec) == FileNames(files[..k], rec) + LineNames(Lines(files[k]), |Lines(files[k])|, rec)
  {
    assert files[..k + 1][..k] == files[..k];
  }

  /** Before any name, the order is unchanged; no lines and no files name nothing. */
  lemma OrderStart(order: seq<string>, lines: seq<string>, rec: string -> Option<string>)
    ensures Appended(order, []) == order && LineNames(lines, 0, rec) == [] && FileNames([], rec) == []
  {
  }

  // ---------------------------------------------------------------------
  // The index

  /** `order` lists the keys of `m`, each once. */
  ghost predicate KeyOrder(m: map<string, Location>, order: seq<string>) {
    (forall n :: n in m <==> n in order) && Distinct(order)
  }

  /** Assigning a key keeps the order listing the keys: a new key goes last. */
  lemma KeyOrderAssign(m: map<string, Location>, order: seq<string>, name: string, loc: Location)
    requires KeyOrder(m, order)
    ensures KeyOrder(m[name := loc], if name in m then order else order + [name])
    ensures name in m <==> name in order
  {
  }

  /** The module-level state: the discovered widgets path and the two location tables. */
  class MakepadIndex {
    var widgetsPath: Option<string>
    var widgetLocations: map<string, Location>
    /** The keys of `widgetLocations` in `Object.keys` order. */
    var widgetOrder: seq<string>
    var propertyLocations: map<string, Location>

    ghost predicate Valid()
      reads this
    {
      KeyOrder(widgetLocations, widgetOrder)
    }

    /** The tables as the module loads: empty, with no path discovered yet. */
    constructor ()
      ensures Valid()
      ensures widgetsPath == None && widgetLocations == map[] && widgetOrder == [] && propertyLocations == map[]
    {
      widgetsPath := None;
      widgetLocations := map[];
      widgetOrder := [];
      propertyLocations := map[];
    }

    /**
     * `scanMakepadSource()`. `root` is what the path discovery returned and
     * `entries` the listing of that directory. Every line of every `.rs` file
     * is offered to both recognizers: widgets overwrite (last write wins),
     * properties keep their first location.
     */
    method ScanMakepadSource(root: Option<string>, entries: seq<DirEntry>)
      requires Valid()
      modifies this
      ensures Valid()
      ensures widgetsPath == root
      ensures root.None? ==>
                widgetLocations == old(widgetLocations) && widgetOrder == old(widgetOrder) &&
                propertyLocations == old(propertyLocations)
      ensures root.Some? ==>
                var files := RsFiles(root.value, entries);
                widgetLocations == LastWinsFiles(old(widgetLocations), files, ExtWidgetName) &&
                widgetOrder == Appended(old(widgetOrder), FileNames(files, ExtWidgetName)) &&
                propertyLocations == FirstWinsFiles(old(propertyLocations), files, LivePropName)
    {
      hide LastWins, FirstWins, LastWinsFiles, FirstWinsFiles, Appended, LineNames, FileNames, Lines, RsFiles;
      widgetsPath := root;
      if root.None? {
        return;
      }
      var files := RsFiles(root.value, entries);
      ghost var w0, o0, p0 := widgetLocations, widgetOrder, propertyLocations;
      OrderStart(o0, [], ExtWidgetName);
      LastWinsFilesUnfold(w0, [], ExtWidgetName);
      FirstWinsFilesUnfold(p0, [], LivePropName);
      assert files[..0] == [];
      var k := 0;
      while k < |files|
        invariant 0 <= k <= |files| && Valid() && widgetsPath == root
        invariant widgetLocations == LastWinsFiles(w0, files[..k], ExtWidgetName)
        invariant widgetOrder == Appended(o0, FileNames(files[..k], ExtWidgetName))
        invariant propertyLocations == FirstWinsFiles(p0, files[..k], LivePropName)
      {
        var f := files[k];
        var lines := Lines(f);
        ScanLines(f.path, lines);
        LastWinsFilesStep(w0, files, ExtWidgetName, k);
        FirstWinsFilesStep(p0, files, LivePropName, k);
        FileNamesStep(files, ExtWidgetName, k);
        AppendedConcat(o0, FileNames(files[..k], ExtWidgetName), LineNames(lines, |lines|, ExtWidgetName));
        k := k + 1;
      }
      assert files[..k] == files;
    }

    /** The line loop of `scanMakepadSource()` over one file. */
    method ScanLines(path: string, lines: seq<string>)
      requires Valid()
      modifies this
      ensures Valid() && widgetsPath == old(widgetsPath)
      ensures widgetLocations == LastWins(old(widgetLocations), path, lines, |lines|, ExtWidgetName)
      ensures widgetOrder == Appended(old(widgetOrder), LineNames(lines, |lines|, ExtWidgetName))
      ensures propertyLocations == FirstWins(old(propertyLocations), path, lines, |lines|, LivePropName)
    {
      hide LastWins, FirstWins, Appended, LineNames, ExtWidgetName, LivePropName, KeyOrder;
      ghost var w1, o1, p1 := widgetLocations, widgetOrder, propertyLocations;
      ScanStart(w1, path, lines, ExtWidgetName);
      ScanStart(p1, path, lines, LivePropName);
      OrderStart(o1, lines, ExtWidgetName);
      var i := 0;
      while i < |lines|
        invariant 0 <= i <= |lines| && Valid() && widgetsPath == old(widgetsPath)
        invariant widgetLocations == LastWins(w1, path, lines, i, ExtWidgetName)
        invariant widgetOrder == Appended(o1, LineNames(lines, i, ExtWidgetName))
        invariant propertyLocations == FirstWins(p1, path, lines, i, LivePropName)
      {
        var line := lines[i];
        LastWinsStep(w1, path, lines, i, ExtWidgetName);
        LineNamesStep(lines, i, ExtWidgetName);
        FirstWinsStep(p1, path, lines, i, LivePropName);
        match ExtWidgetName(line) {
          case Some(name) =>
            AppendedSnoc(o1, LineNames(lines, i, ExtWidgetName), name);
            KeyOrderAssign(widgetLocations, widgetOrder, name, Location(path, i + 1));
            if name !in widgetLocations {
              widgetOrder := widgetOrder + [name];
            }
            widgetLocations := widgetLocations[name := Location(path, i + 1)];
          case None =>
        }
        match LivePropName(line) {
          case Some(propName) =>
            if propName !in propertyLocations {
              propertyLocations := propertyLocations[propName := Location(path, i + 1)];
            }
          case None =>
        }
        i := i + 1;
      }
    }
    /** `provideDefinition` over the current tables, with the enum search as a loop. */
    method ProvideDefinition(files: map<string, string>, textBefore: string, word: Option<string>) returns (r: Option<Position>)
      ensures r == Definition(widgetLocations, propertyLocations, widgetsPath, files, textBefore, word)
    {
      if word.None? {
        return None;
      }
      var w := word.value;
      if !Contains(textBefore, "live_design!") {
        return None;
      }
      if w in widgetLocations {
        var loc := widgetLocations[w];
        if loc.file in files {
          return Some(Position(loc.file, loc.line - 1));
        }
      }
      if w in propertyLocations {
        var loc := propertyLocations[w];
        if loc.file in files {
          return Some(Position(loc.file, loc.line - 1));
        }
      }
      if widgetsPath.Some? {
        var enumFile := EnumFile(w);
        if enumFile.Some? {
          var path := JoinPath(widgetsPath.value, enumFile.value);
          if path in files {
            var lines := Split(files[path], '\n');
            var found := FindEnumLine(lines, w);
            if found.Some? {
              return Some(Position(path, found.value));
            }
          }
        }
      }
      return None;
    }
  }

  /** After the scan from fresh tables, every widget key names a declaring line and every property key a `#[live` line. */
  lemma ScanFromFreshSound(root: string, entries: seq<DirEntry>, name: string)
    ensures var files := RsFiles(root, entries);
      (name in LastWinsFiles(map[], files, ExtWidgetName) <==> exists k: nat, i: nat :: NamesAt(files, ExtWidgetName, k, i, name)) &&
      (name in FirstWinsFiles(map[], files, LivePropName) <==> exists k: nat, i: nat :: NamesAt(files, LivePropName, k, i, name)) &&
      (name in Appended([], FileNames(files, ExtWidgetName)) <==> name in LastWinsFiles(map[], files, ExtWidgetName))
  {
    var files := RsFiles(root, entries);
    LastWinsFilesKeys(files, ExtWidgetName, name);
    FirstWinsFilesKeys(files, LivePropName, name);
    AppendedElements([], FileNames(files, ExtWidgetName));
    FileNamesKeys(files, ExtWidgetName, name);
  }

  /** A name occurs in the scan-order list exactly when some line of some file names it. */
  lemma {:induction false} FileNamesKeys(files: seq<SourceFile>, rec: string -> Option<string>, name: string)
    ensures name in FileNames(files, rec) <==> exists k: nat, i: nat :: NamesAt(files, rec, k, i, name)
    decreases |files|
  {
    if files != [] {
      var f := files[|files| - 1];
      FileNamesKeys(files[..|files| - 1], rec, name);
      LineNamesKeys(Lines(f), |Lines(f)|, rec, name);
      FilesNamesSnoc(files, rec, name);
    }
  }

  lemma {:induction false} LineNamesKeys(lines: seq<string>, n: nat, rec: string -> Option<string>, name: string)
    requires n <= |lines|
    ensures name in LineNames(lines, n, rec) <==> exists i :: 0 <= i < n && rec(lines[i]) == Some(name)
    decreases n
  {
    if n > 0 {
      LineNamesKeys(lines, n - 1, rec, name);
      if rec(lines[n - 1]) != Some(name) {
        assert forall i :: 0 <= i < n && rec(lines[i]) == Some(name) ==> i < n - 1;
      }
    }
  }

  // ---------------------------------------------------------------------
  // The property table as written

  /**
   * The members every plain JavaScript object inherits from
   * `Object.prototype`. Reading `record[name]` for one of these gives a
   * function or an object, which is truthy, even when `record` has no own
   * key `name`.
   */
  const InheritedNames: seq<string> := [
    "constructor", "hasOwnProperty", "isPrototypeOf", "propertyIsEnumerable", "toLocaleString",
    "toString", "valueOf", "__proto__", "__defineGetter__", "__defineSetter__", "__lookupGetter__", "__lookupSetter__"]

  /** `!PROPERTY_LOCATIONS[propName]`: no own key, and no inherited member of that name. */
  predicate AbsentAsWritten(m: map<string, Location>, name: string) {
    name !in m && name !in InheritedNames
  }

  /** The property scan as written: first write wins, and a name `Object.prototype` supplies is never recorded. */
  function FirstWinsAsWritten(m: map<string, Location>, path: string, lines: seq<string>, n: nat, rec: string -> Option<string>): map<string, Location>
    requires n <= |lines|
    decreases n
  {
    if n == 0 then m
    else
      var before := FirstWinsAsWritten(m, path, lines, n - 1, rec);
      match rec(lines[n - 1])
      case Some(key) => if AbsentAsWritten(before, key) then before[key := Location(path, n)] else before
      case None => before
  }

  /** How the line `    #[live] constructor: f64,` is put together. */
  lemma ConstructorLineParts()
    ensures "    " + "#[live" + "" + "]" + NameColonText(" ", false, "", "constructor") + " f64," == "    #[live] constructor: f64,"
    ensures IsWord("constructor") && AllSpace(" ") && AllSpace("") && '#' !in "    " && ']' !in ""
  {
    assert NameColonText(" ", false, "", "constructor") == " constructor:";
  }

  /** The property pattern reads the name `constructor` from that line. */
  lemma ConstructorLineName()
    ensures LivePropName("    #[live] constructor: f64,") == Some("constructor")
  {
    hide *;
    ConstructorLineParts();
    LivePropNameOf("    ", "", " ", false, "", "constructor", " f64,");
    assert |""| == 0;
  }

  /**
   * A field named `constructor` is dropped by the truthiness test, while the
   * key-membership scan the class uses records it at line 1.
   */
  lemma InheritedPropertyDropped()
    ensures var lines := ["    #[live] constructor: f64,"];
      "constructor" !in FirstWinsAsWritten(map[], "view.rs", lines, 1, LivePropName) &&
      "constructor" in FirstWins(map[], "view.rs", lines, 1, LivePropName) &&
      FirstWins(map[], "view.rs", lines, 1, LivePropName)["constructor"] == Location("view.rs", 1)
  {
    hide LivePropName;
    ConstructorLineName();
    var lines := ["    #[live] constructor: f64,"];
    assert lines[0] == "    #[live] constructor: f64,";
    assert InheritedNames[0] == "constructor";
  }

  /** Where the recognizer names no inherited member, the scan as written and the class's scan agree. */
  lemma {:induction false} FirstWinsAsWrittenAgrees(m: map<string, Location>, path: string, lines: seq<string>, n: nat,
                                                    rec: string -> Option<string>)
    requires n <= |lines|
    requires forall i :: 0 <= i < n && rec(lines[i]).Some? ==> rec(lines[i]).value !in InheritedNames
    ensures FirstWinsAsWritten(m, path, lines, n, rec) == FirstWins(m, path, lines, n, rec)
    decreases n
  {
    if n > 0 {
      FirstWinsAsWrittenAgrees(m, path, lines, n - 1, rec);
    }
  }

  /** The truthiness scan as written over several files, in the order they are read. */
  function FirstWinsAsWrittenFiles(m: map<string, Location>, files: seq<SourceFile>, rec: string -> Option<string>): map<string, Location>
    decreases |files|
  {
    if files == [] then m
    else
      var f := files[|files| - 1];
      FirstWinsAsWritten(FirstWinsAsWrittenFiles(m, files[..|files| - 1], rec), f.path, Lines(f), |Lines(f)|, rec)
  }

  /**
   * Across files, the scan as written and the class's first-wins scan build
   * the same table whenever no scanned line names an `Object.prototype` member.
   */
  lemma {:induction false} FirstWinsAsWrittenFilesAgree(m: map<string, Location>, files: seq<SourceFile>, rec: string -> Option<string>)
    requires forall k: nat, i: nat, key: string :: NamesAt(files, rec, k, i, key) ==> key !in InheritedNames
    ensures FirstWinsAsWrittenFiles(m, files, rec) == FirstWinsFiles(m, files, rec)
    decreases |files|
  {
    if files != [] {
      var init := files[..|files| - 1];
      var f := files[|files| - 1];
      forall k: nat, i: nat, key: string | NamesAt(init, rec, k, i, key) ensures key !in InheritedNames {
        assert init[k] == files[k];
        assert NamesAt(files, rec, k, i, key);
      }
      FirstWinsAsWrittenFilesAgree(m, init, rec);
      forall i | 0 <= i < |Lines(f)| && rec(Lines(f)[i]).Some? ensures rec(Lines(f)[i]).value !in InheritedNames {
        assert NamesAt(files, rec, |files| - 1, i, rec(Lines(f)[i]).value);
      }
      FirstWinsAsWrittenAgrees(FirstWinsFiles(m, init, rec), f.path, Lines(f), |Lines(f)|, rec);
    }
  }

  /** The scan as written never records an `Object.prototype` member the table did not already hold. */
  lemma {:induction false} FirstWinsAsWrittenSkipsInherited(m: map<string, Location>, path: string, lines: seq<string>, n: nat,
                                                            rec: string -> Option<string>, key: string)
    requires n <= |lines| && key in InheritedNames && key !in m
    ensures key !in FirstWinsAsWritten(m, path, lines, n, rec)
    decreases n
  {
    if n > 0 {
      FirstWinsAsWrittenSkipsInherited(m, path, lines, n - 1, rec, key);
    }
  }

  /** Likewise across files. */
  lemma {:induction false} FirstWinsAsWrittenFilesSkipsInherited(m: map<string, Location>, files: seq<SourceFile>,
                                                                 rec: string -> Option<string>, key: string)
    requires key in InheritedNames && key !in m
    ensures key !in FirstWinsAsWrittenFiles(m, files, rec)
    decreases |files|
  {
    if files != [] {
      var f := files[|files| - 1];
      FirstWinsAsWrittenFilesSkipsInherited(m, files[..|files| - 1], rec, key);
      FirstWinsAsWrittenSkipsInherited(FirstWinsAsWrittenFiles(m, files[..|files| - 1], rec), f.path, Lines(f), |Lines(f)|, rec, key);
    }
  }

  // ---------------------------------------------------------------------
  // Go-to-definition

  /** A definition target: a file and a 0-based line (the column is always 0). */
  datatype Position = Position(file: string, line: int)

  /** The enum-value table: the file under the widgets path to search, for each value the lookup knows. */
  function EnumFile(word: string): (r: Option<string>)
    ensures r.Some? ==> r.value == "view.rs" || r.value == "image_cache.rs"
    ensures r.Some? <==> word in ["Fill", "Fit", "Down", "Right", "Overlay", "Centered", "Smallest", "Biggest", "Stretch"]
    ensures r == Some("view.rs") <==> word in ["Fill", "Fit", "Down", "Right", "Overlay"]
  {
    if word in ["Fill", "Fit", "Down", "Right", "Overlay"] then Some("view.rs")
    else if word in ["Centered", "Smallest", "Biggest", "Stretch"] then Some("image_cache.rs")
    else None
  }

  /** A line that marks the definition of an enum value: it contains the value and an attribute opener `#[`. */
  predicate EnumLine(line: string, pattern: string) {
    Contains(line, pattern) && Contains(line, "#[")
  }

  /** The first line at or after `from` that marks `pattern`. */
  function FirstEnumLine(lines: seq<string>, pattern: string, from: nat): (r: Option<nat>)
    requires from <= |lines|
    ensures r.Some? ==> from <= r.value < |lines| && EnumLine(lines[r.value], pattern)
    ensures forall j :: from <= j < |lines| && (r.None? || j < r.value) ==> !EnumLine(lines[j], pattern)
    decreases |lines| - from
  {
    if from == |lines| then None
    else if EnumLine(lines[from], pattern) then Some(from)
    else FirstEnumLine(lines, pattern, from + 1)
  }

  /** The enum search loop: the first marking line, or nothing. */
  method FindEnumLine(lines: seq<string>, pattern: string) returns (r: Option<nat>)
    ensures r == FirstEnumLine(lines, pattern, 0)
  {
    var i := 0;
    while i < |lines|
      invariant 0 <= i <= |lines|
      invariant FirstEnumLine(lines, pattern, 0) == FirstEnumLine(lines, pattern, i)
    {
      if Contains(lines[i], pattern) && Contains(lines[i], "#[") {
        return Some(i);
      }
      i := i + 1;
    }
    return None;
  }

  /** A stored 1-based location as a 0-based position. */
  function ToPosition(loc: Location): Position {
    Position(loc.file, loc.line - 1)
  }

  /**
   * `provideDefinition`. `files` maps every existing path to its text
   * (`existsSync` and `readFileSync`); `word` is the word under the cursor,
   * if any; `textBefore` is the document text up to the cursor.
   */
  function Definition(widgets: map<string, Location>, props: map<string, Location>, widgetsPath: Option<string>,
                      files: map<string, string>, textBefore: string, word: Option<string>): Option<Position>
  {
    if word.None? || !Contains(textBefore, "live_design!") then None
    else
      var w := word.value;
      if w in widgets && widgets[w].file in files then Some(ToPosition(widgets[w]))
      else if w in props && props[w].file in files then Some(ToPosition(props[w]))
      else if widgetsPath.Some? && EnumFile(w).Some? then
        var path := JoinPath(widgetsPath.value, EnumFile(w).value);
        if path !in files then None
        else
          match FirstEnumLine(Split(files[path], '\n'), w, 0)
          case Some(i) => Some(Position(path, i))
          case None => None
      else None
  }

  /** Outside a `live_design!` block, or with no word under the cursor, there is no definition. */
  lemma DefinitionNeedsLiveDesign(widgets: map<string, Location>, props: map<string, Location>, widgetsPath: Option<string>,
                                  files: map<string, string>, textBefore: string, word: Option<string>)
    requires word.None? || !Contains(textBefore, "live_design!")
    ensures Definition(widgets, props, widgetsPath, files, textBefore, word) == None
  {
  }

  /**
   * The lookup order: a widget whose file exists wins; then a property whose
   * file exists; then the enum search; each table answers with its stored
   * line minus one.
   */
  lemma DefinitionOrder(widgets: map<string, Location>, props: map<string, Location>, widgetsPath: Option<string>,
                        files: map<string, string>, textBefore: string, w: string)
    requires Contains(textBefore, "live_design!")
    ensures var r := Definition(widgets, props, widgetsPath, files, textBefore, Some(w));
      (w in widgets && widgets[w].file in files ==> r == Some(Position(widgets[w].file, widgets[w].line - 1))) &&
      (!(w in widgets && widgets[w].file in files) && w in props && props[w].file in files ==>
         r == Some(Position(props[w].file, props[w].line - 1))) &&
      (r.Some? && !(w in widgets && widgets[w].file in files) && !(w in props && props[w].file in files) ==>
         widgetsPath.Some? && EnumFile(w).Some? && r.value.file == JoinPath(widgetsPath.value, EnumFile(w).value) &&
         r.value.file in files && 0 <= r.value.line < |Split(files[r.value.file], '\n')| &&
         EnumLine(Split(files[r.value.file], '\n')[r.value.line], w) &&
         forall j :: 0 <= j < r.value.line ==> !EnumLine(Split(files[r.value.file], '\n')[j], w))
  {
  }

  /**
   * Round trip through the index: after a scan from fresh tables, a widget
   * definition points at the 0-based index of a line that declares the word.
   */
  lemma WidgetDefinitionRoundTrip(root: string, entries: seq<DirEntry>, props: map<string, Location>,
                                  files: map<string, string>, textBefore: string, w: string)
    requires Contains(textBefore, "live_design!")
    requires var widgets := LastWinsFiles(map[], RsFiles(root, entries), ExtWidgetName); w in widgets && widgets[w].file in files
    ensures var scanned := RsFiles(root, entries);
      var r := Definition(LastWinsFiles(map[], scanned, ExtWidgetName), props, Some(root), files, textBefore, Some(w));
      exists k: nat, i: nat :: NamesAt(scanned, ExtWidgetName, k, i, w) && r == Some(Position(scanned[k].path, i))
  {
    var scanned := RsFiles(root, entries);
    var widgets := LastWinsFiles(map[], scanned, ExtWidgetName);
    LastWinsFilesFrom(scanned, ExtWidgetName, w);
    var k: nat, i: nat :| NamesAt(scanned, ExtWidgetName, k, i, w) && widgets[w] == Location(scanned[k].path, i + 1);
    assert Definition(widgets, props, Some(root), files, textBefore, Some(w)) == Some(Position(scanned[k].path, i));
  }

  /** Likewise for a property that is not also a widget: its first `#[live` line, as a 0-based index. */
  lemma PropertyDefinitionRoundTrip(root: string, entries: seq<DirEntry>, widgets: map<string, Location>,
                                    files: map<string, string>, textBefore: string, w: string)
    requires Contains(textBefore, "live_design!")
    requires !(w in widgets && widgets[w].file in files)
    requires var props := FirstWinsFiles(map[], RsFiles(root, entries), LivePropName); w in props && props[w].file in files
    ensures var scanned := RsFiles(root, entries);
      var r := Definition(widgets, FirstWinsFiles(map[], scanned, LivePropName), Some(root), files, textBefore, Some(w));
      exists k: nat, i: nat :: NamesAt(scanned, LivePropName, k, i, w) && r == Some(Position(scanned[k].path, i))
  {
    var scanned := RsFiles(root, entries);
    var props := FirstWinsFiles(map[], scanned, LivePropName);
    FirstWinsFilesFrom(scanned, LivePropName, w);
    var k: nat, i: nat :| NamesAt(scanned, LivePropName, k, i, w) && props[w] == Location(scanned[k].path, i + 1);
    assert Definition(widgets, props, Some(root), files, textBefore, Some(w)) == Some(Position(scanned[k].path, i));
  }
}

=== FILE: extract_widgets.dfy ===
/**
 * The widget scanner of the snippet generator: the struct headers it looks
 * for, the brace walk that delimits a struct body, the `#[live]` field parser,
 * the doc-comment collector, and the catalog they fill.
 */
module ExtractWidgets {
  import opened Text
  import opened Sources
  import opened Patterns

  /** One `#[live]` field of a widget struct. */
  datatype WidgetProperty = WidgetProperty(name: string, propType: string, default: Option<string>)

  /** A catalog entry: the struct name, the file name it was found in, its live fields, its doc text. */
  datatype Widget = Widget(name: string, file: string, properties: seq<WidgetProperty>, doc: string)

  /** One match of the struct header pattern: the struct name, where the match starts, and where it ends (just past `{`). */
  datatype Header = Header(name: string, start: nat, end: nat)

  // ---------------------------------------------------------------------
  // The struct header: #\[derive\([^\]]*(?:Live|Widget)[^\]]*\)\]\s*(?:#\[[^\]]*\]\s*)*pub struct (\w+)\s*\{

  /**
   * `#\[derive\([^\]]*(?:Live|Widget)[^\]]*\)\]` at `p`, its `]` at `c`: the
   * list runs to the first `]`, which follows `)`, and names `Live` or
   * `Widget` before that `)`.
   */
  predicate DeriveListAt(s: string, p: nat, c: nat) {
    At(s, p, "#[derive(") && p + 10 <= c < |s| && s[c] == ']' && s[c - 1] == ')' &&
    (forall j :: p + 9 <= j < c ==> s[j] != ']') &&
    (Occurs(s, p + 9, c - 1, "Live") || Occurs(s, p + 9, c - 1, "Widget"))
  }

  /** `\s*(?:#\[[^\]]*\]\s*)*` covers `s[i..d]`: whitespace and `#[…]` attributes, in any order. */
  predicate AttrRun(s: string, i: nat, d: nat)
    decreases d - i
  {
    i <= d <= |s| &&
    (i == d ||
     (IsSpace(s[i]) && AttrRun(s, i + 1, d)) ||
     (At(s, i, "#[") && IndexFrom(s, i + 2, ']') < d && AttrRun(s, IndexFrom(s, i + 2, ']') + 1, d)))
  }

  /** `pub struct (\w+)\s*\{` at `d`, capturing `name` and ending just past the `{` at `e - 1`. */
  predicate StructHeadAt(s: string, d: nat, name: string, e: nat) {
    IsWord(name) && At(s, d, "pub struct " + name) && d + 11 + |name| < e <= |s| && s[e - 1] == '{' &&
    forall j :: d + 11 + |name| <= j < e - 1 ==> IsSpace(s[j])
  }

  /** Whitespace in front of an attribute run extends it. */
  lemma {:induction false} AttrRunSpaces(s: string, i: nat, j: nat, d: nat)
    requires i <= j && AttrRun(s, j, d) && forall m :: i <= m < j ==> IsSpace(s[m])
    ensures AttrRun(s, i, d)
    decreases j - i
  {
    if i < j {
      AttrRunSpaces(s, i + 1, j, d);
    }
  }

  /** `(?:#\[[^\]]*\]\s*)*` after a leading `\s*`: the attributes between the derive and the declaration. */
  function SkipAttributes(s: string, i: nat): (k: nat)
    requires i <= |s|
    ensures i <= k <= |s|
    ensures k < |s| ==> !IsSpace(s[k])
    ensures AttrRun(s, i, k)
    decreases |s| - i
  {
    var j := SpaceEnd(s, i);
    if At(s, j, "#[") then
      var c := IndexFrom(s, j + 2, ']');
      if c < |s| then
        var k := SkipAttributes(s, c + 1);
        assert AttrRun(s, j, k);
        AttrRunSpaces(s, i, j, k);
        k
      else
        AttrRunSpaces(s, i, j, j);
        j
    else
      AttrRunSpaces(s, i, j, j);
      j
  }

  /** One step of an attribute run: a whitespace character, or an attribute up to its first `]`. */
  lemma AttrRunStep(s: string, i: nat, d: nat)
    requires AttrRun(s, i, d) && i != d
    ensures i < d
    ensures (IsSpace(s[i]) && AttrRun(s, i + 1, d)) ||
            (At(s, i, "#[") && IndexFrom(s, i + 2, ']') < d && AttrRun(s, IndexFrom(s, i + 2, ']') + 1, d))
  {
  }

  /** One round of the skip: whitespace, then an attribute if one starts there. */
  lemma SkipAttributesUnfold(s: string, i: nat)
    requires i <= |s|
    ensures SkipAttributes(s, i) ==
      var j := SpaceEnd(s, i);
      if At(s, j, "#[") && IndexFrom(s, j + 2, ']') < |s| then SkipAttributes(s, IndexFrom(s, j + 2, ']') + 1) else j
  {
  }

  /** The skip stops at once where there is neither whitespace nor `#[`. */
  lemma SkipAttributesStop(s: string, d: nat)
    requires d < |s| && !IsSpace(s[d]) && !At(s, d, "#[")
    ensures SkipAttributes(s, d) == d
  {
    hide AttrRun, SkipAttributes;
    SpaceEndOf(s, d, d);
    SkipAttributesUnfold(s, d);
  }

  /** A leading whitespace character does not change what the skip reaches. */
  lemma SkipAttributesSpace(s: string, i: nat)
    requires i < |s| && IsSpace(s[i])
    ensures SkipAttributes(s, i) == SkipAttributes(s, i + 1)
  {
    hide AttrRun, SkipAttributes;
    assert SpaceEnd(s, i) == SpaceEnd(s, i + 1);
    SkipAttributesUnfold(s, i);
    SkipAttributesUnfold(s, i + 1);
  }

  /** An attribute at the start is skipped whole, up to its first `]`. */
  lemma SkipAttributesAttr(s: string, i: nat)
    requires At(s, i, "#[") && IndexFrom(s, i + 2, ']') < |s|
    ensures SkipAttributes(s, i) == SkipAttributes(s, IndexFrom(s, i + 2, ']') + 1)
  {
    hide AttrRun, SkipAttributes;
    assert !IsSpace(s[i]) by { assert s[i + 0] == "#["[0]; }
    SpaceEndOf(s, i, i);
    SkipAttributesUnfold(s, i);
  }

  /** An attribute run that stops at neither whitespace nor `#[` is exactly what the greedy skip consumes. */
  lemma {:induction false} SkipAttributesOf(s: string, i: nat, d: nat)
    requires AttrRun(s, i, d) && d < |s| && !IsSpace(s[d]) && !At(s, d, "#[")
    ensures SkipAttributes(s, i) == d
    decreases d - i
  {
    hide *;
    if i == d {
      SkipAttributesStop(s, d);
    } else {
      AttrRunStep(s, i, d);
      if IsSpace(s[i]) && AttrRun(s, i + 1, d) {
        SkipAttributesOf(s, i + 1, d);
        SkipAttributesSpace(s, i);
      } else {
        var c := IndexFrom(s, i + 2, ']');
        SkipAttributesOf(s, c + 1, d);
        SkipAttributesAttr(s, i);
      }
    }
  }

  /**
   * `#\[derive\([^\]]*(?:Live|Widget)[^\]]*\)\]` anchored at `p`: the index just
   * past its `]`. The derive list runs to the first `]`, which must be preceded
   * by `)`, and must name `Live` or `Widget` before that `)`.
   */
  function DeriveEnd(s: string, p: nat): (r: Option<nat>)
    requires p <= |s|
    ensures r.Some? ==> p + 11 <= r.value <= |s| && DeriveListAt(s, p, r.value - 1)
  {
    if !At(s, p, "#[derive(") then None
    else
      var c := IndexFrom(s, p + 9, ']');
      if c == |s| || c < p + 10 || s[c - 1] != ')' then None
      else if Occurs(s, p + 9, c - 1, "Live") || Occurs(s, p + 9, c - 1, "Widget") then Some(c + 1)
      else None
  }

  lemma DeriveEndOf(s: string, p: nat, c: nat)
    requires DeriveListAt(s, p, c)
    ensures DeriveEnd(s, p) == Some(c + 1)
  {
    IndexFromOf(s, p + 9, c, ']');
  }

  /** `pub struct (\w+)\s*\{` anchored at `d`: the name and the index just past `{`. */
  function StructDecl(s: string, d: nat): (r: Option<(string, nat)>)
    requires d <= |s|
    ensures r.Some? ==> StructHeadAt(s, d, r.value.0, r.value.1)
  {
    if !At(s, d, "pub struct ") then None
    else
      var n := WordEnd(s, d + 11);
      var b := SpaceEnd(s, n);
      if n > d + 11 && b < |s| && s[b] == '{' then
        var name := s[d + 11..n];
        assert At(s, d + 11, name) by {
          assert forall j :: 0 <= j < |name| ==> s[d + 11 + j] == name[j];
        }
        AtConcat(s, d, "pub struct ", name);
        Some((name, b + 1))
      else None
  }

  lemma StructDeclOf(s: string, d: nat, name: string, e: nat)
    requires StructHeadAt(s, d, name, e)
    ensures StructDecl(s, d) == Some((name, e))
  {
    var n := d + 11 + |name|;
    AtConcat(s, d, "pub struct ", name);
    assert IsSpace(s[n]) || s[n] == '{';
    WordEndOver(s, d + 11, name);
    SpaceEndOf(s, n, e - 1);
  }

  /**
   * The header pattern anchored at `p`. The backtracking engine has no other
   * way to match than this one pass, because no part of the pattern can cross
   * a `]` or give back characters that the next part needs.
   */
  function HeaderAt(s: string, p: nat): (r: Option<Header>)
    requires p <= |s|
    ensures r.Some? ==> r.value.start == p && p < r.value.end <= |s| && IsWord(r.value.name)
  {
    match DeriveEnd(s, p)
    case None => None
    case Some(c) =>
      match StructDecl(s, SkipAttributes(s, c))
      case None => None
      case Some(decl) => Some(Header(decl.0, p, decl.1))
  }

  /** A header is matched only on a derive list, an attribute run and a struct declaration in a row. */
  lemma HeaderAtSound(s: string, p: nat)
    requires p <= |s|
    ensures HeaderAt(s, p).Some? ==> exists c: nat, d: nat ::
      DeriveListAt(s, p, c) && AttrRun(s, c + 1, d) &&
      StructHeadAt(s, d, HeaderAt(s, p).value.name, HeaderAt(s, p).value.end)
  {
    hide DeriveListAt, AttrRun, StructHeadAt, DeriveEnd, SkipAttributes, StructDecl;
    var r := DeriveEnd(s, p);
    if r.Some? {
      var c, d := r.value - 1, SkipAttributes(s, r.value);
      if StructDecl(s, d).Some? {
        assert DeriveListAt(s, p, c) && AttrRun(s, c + 1, d);
      }
    }
  }

  /** Every derive list, attribute run and struct declaration in a row is matched, with its name and end. */
  lemma HeaderAtOf(s: string, p: nat, c: nat, d: nat, name: string, e: nat)
    requires DeriveListAt(s, p, c) && AttrRun(s, c + 1, d) && StructHeadAt(s, d, name, e)
    ensures HeaderAt(s, p) == Some(Header(name, p, e))
  {
    hide DeriveListAt, AttrRun, DeriveEnd, SkipAttributes, StructDecl;
    DeriveEndOf(s, p, c);
    StructHeadStart(s, d, name, e);
    SkipAttributesOf(s, c + 1, d);
    StructDeclOf(s, d, name, e);
  }

  /** A struct declaration starts with `p`: neither whitespace nor an attribute. */
  lemma StructHeadStart(s: string, d: nat, name: string, e: nat)
    requires StructHeadAt(s, d, name, e)
    ensures d < |s| && !IsSpace(s[d]) && !At(s, d, "#[")
  {
    AtConcat(s, d, "pub struct ", name);
    assert s[d + 0] == "pub struct "[0];
    assert !At(s, d, "#[") by { assert s[d + 0] != "#["[0]; }
  }

  /** A `Button` widget declared under its derive attribute. */
  const ButtonSource := "#[derive(Live, Widget)]\npub struct Button {"

  lemma ButtonDerive()
    ensures DeriveListAt(ButtonSource, 0, 22)
  {
    var s := ButtonSource;
    assert forall j :: 0 <= j < 9 ==> s[0 + j] == "#[derive("[j];
    assert forall j :: 9 <= j < 22 ==> s[j] != ']';
    assert forall j :: 0 <= j < 4 ==> s[9 + j] == "Live"[j];
    assert At(s, 9, "Live");
  }

  lemma ButtonAttributes()
    ensures AttrRun(ButtonSource, 23, 24)
  {
    assert AttrRun(ButtonSource, 24, 24);
    assert IsSpace(ButtonSource[23]);
  }

  lemma ButtonStruct()
    ensures StructHeadAt(ButtonSource, 24, "Button", 43)
  {
    var s := ButtonSource;
    assert forall j :: 0 <= j < 17 ==> s[24 + j] == ("pub struct " + "Button")[j];
  }

  /** The `Button` header is found, with the match ending just past `{`. */
  lemma HeaderAtButton()
    ensures HeaderAt(ButtonSource, 0) == Some(Header("Button", 0, 43))
  {
    ButtonDerive();
    ButtonAttributes();
    ButtonStruct();
    hide *;
    HeaderAtOf(ButtonSource, 0, 22, 24, "Button", 43);
  }

  /** Matches that do not overlap, in text order. */
  predicate InTextOrder(hs: seq<Header>) {
    forall k :: 0 <= k < |hs| - 1 ==> hs[k].end <= hs[k + 1].start
  }

  /** `re.finditer` of the header pattern from index `p`: every match, scanning on from the end of the previous one. */
  function Headers(s: string, p: nat): (hs: seq<Header>)
    requires p <= |s|
    ensures forall h | h in hs :: p <= h.start < h.end <= |s|
    ensures InTextOrder(hs)
    decreases |s| - p
  {
    if p == |s| then []
    else
      var r := HeaderAt(s, p);
      if r.Some? then [r.value] + Headers(s, r.value.end)
      else Headers(s, p + 1)
  }

  /** Every header `Headers` reports is a match of the header pattern at its own start. */
  lemma {:induction false} HeadersAreMatches(s: string, p: nat)
    requires p <= |s|
    ensures forall h | h in Headers(s, p) :: HeaderAt(s, h.start) == Some(h)
    decreases |s| - p
  {
    if p < |s| {
      var r := HeaderAt(s, p);
      if r.Some? {
        HeadersAreMatches(s, r.value.end);
      } else {
        HeadersAreMatches(s, p + 1);
      }
    }
  }

  // ---------------------------------------------------------------------
  // The brace walk.

  /** Number of occurrences of `c` in `s[i..k]`. */
  function Count(s: string, i: nat, k: nat, c: char): (n: nat)
    requires i <= k <= |s|
    ensures n <= k - i
    decreases k - i
  {
    if k == i then 0 else Count(s, i, k - 1, c) + (if s[k - 1] == c then 1 else 0)
  }

  /** The brace depth after reading `s[start..k]`, starting at depth 1 just after a header's `{`. */
  function Depth(s: string, start: nat, k: nat): int
    requires start <= k <= |s|
  {
    1 + Count(s, start, k, '{') - Count(s, start, k, '}')
  }

  /** Reading one more character moves the depth by one for a brace and leaves it alone otherwise. */
  lemma DepthStep(s: string, start: nat, k: nat)
    requires start <= k < |s|
    ensures Depth(s, start, k + 1) == Depth(s, start, k) + (if s[k] == '{' then 1 else if s[k] == '}' then -1 else 0)
  {
    assert Count(s, start, k + 1, '{') == Count(s, start, k, '{') + (if s[k] == '{' then 1 else 0);
    assert Count(s, start, k + 1, '}') == Count(s, start, k, '}') + (if s[k] == '}' then 1 else 0);
  }

  /** The `}` that brings the depth to 0, looked for from `k` on, when the depth has not yet reached 0 before `k`. */
  function CloseFrom(s: string, start: nat, k: nat): (r: Option<nat>)
    requires start <= k <= |s|
    requires forall j :: start <= j <= k ==> Depth(s, start, j) >= 1
    ensures r.Some? ==> k <= r.value < |s| && s[r.value] == '}' && Depth(s, start, r.value) == 1
    ensures r.Some? ==> forall j :: start <= j <= r.value ==> Depth(s, start, j) >= 1
    ensures r.None? ==> forall j :: start <= j <= |s| ==> Depth(s, start, j) >= 1
    decreases |s| - k
  {
    if k == |s| then None
    else if s[k] == '}' && Depth(s, start, k) == 1 then Some(k)
    else
      DepthStep(s, start, k);
      CloseFrom(s, start, k + 1)
  }

  /** The first `}` at which the depth, counted from 1 at `start`, comes back to 0. */
  function ClosingBrace(s: string, start: nat): (r: Option<nat>)
    requires start <= |s|
    ensures r.Some? ==> start <= r.value < |s| && s[r.value] == '}' && Depth(s, start, r.value) == 1
    ensures r.Some? ==> forall j :: start <= j <= r.value ==> Depth(s, start, j) >= 1
    ensures r.None? ==> forall j :: start <= j <= |s| ==> Depth(s, start, j) >= 1
  {
    CloseFrom(s, start, start)
  }

  /** `struct_end`: the index of that `}`, or `struct_start` when the depth never comes back to 0. */
  function StructEnd(s: string, start: nat): (e: nat)
    requires start <= |s|
    ensures start <= e <= |s|
  {
    match ClosingBrace(s, start)
    case Some(k) => k
    case None => start
  }

  /**
   * The body ends right before the `}` that closes the struct: inside it the
   * depth never drops below 1 and it holds as many `{` as `}`; a struct whose
   * braces never balance gets an empty body.
   */
  lemma BodyBalanced(s: string, start: nat)
    requires start <= |s|
    ensures var e := StructEnd(s, start);
      (e < |s| && s[e] == '}' && Count(s, start, e, '{') == Count(s, start, e, '}')
        && (forall j :: start <= j <= e ==> Count(s, start, j, '}') <= Count(s, start, j, '{'))
        && Depth(s, start, e + 1) == 0)
      || (e == start && forall j :: start <= j <= |s| ==> Depth(s, start, j) >= 1)
  {
    var r := ClosingBrace(s, start);
    if r.Some? {
      DepthStep(s, start, r.value);
      forall j | start <= j <= r.value ensures Count(s, start, j, '}') <= Count(s, start, j, '{') {
        assert Depth(s, start, j) >= 1;
      }
    }
  }

  /** A `}` at which the depth first comes back to 0 is exactly where the body ends. */
  lemma StructEndIsFirstClose(s: string, start: nat, k: nat)
    requires start <= k < |s| && s[k] == '}' && Depth(s, start, k) == 1
    requires forall j :: start <= j <= k ==> Depth(s, start, j) >= 1
    ensures StructEnd(s, start) == k
  {
    DepthStep(s, start, k);
    var r := ClosingBrace(s, start);
    if r.Some? && r.value < k {
      DepthStep(s, start, r.value);
    }
  }

  /** The character loop of `extract_widgets` that finds `struct_end`. */
  method FindStructEnd(content: string, structStart: nat) returns (structEnd: nat)
    requires structStart <= |content|
    ensures structEnd == StructEnd(content, structStart)
  {
    var braceCount := 1;
    structEnd := structStart;
    var k := structStart;
    while k < |content|
      invariant structStart <= k <= |content|
      invariant braceCount == Depth(content, structStart, k)
      invariant forall j :: structStart <= j <= k ==> Depth(content, structStart, j) >= 1
      invariant CloseFrom(content, structStart, k) == ClosingBrace(content, structStart)
      invariant structEnd == structStart
    {
      var ch := content[k];
      if ch == '{' {
        braceCount := braceCount + 1;
      } else if ch == '}' {
        braceCount := braceCount - 1;
        if braceCount == 0 {
          structEnd := k;
          break;
        }
      }
      k := k + 1;
    }
  }

  // ---------------------------------------------------------------------
  // The field parser: #\[live(?:\(([^)]*)\))?\]\s*(?:pub\s+)?(\w+):\s*([^,\n]+)

  /**
   * `#\[live(?:\(([^)]*)\))?\]` anchored at `p`: the default (the text between
   * the parentheses, or `None` for a bare `#[live]`) and the index just past
   * `]`. An opened parenthesis must close at the first `)`, right before `]`;
   * otherwise the optional group cannot be skipped either, since `]` would have
   * to stand where `(` is.
   */
  function LiveAttr(s: string, p: nat): (r: Option<(Option<string>, nat)>)
    requires p <= |s|
    ensures r.Some? ==> At(s, p, "#[live") && p + 7 <= r.value.1 <= |s| && s[r.value.1 - 1] == ']'
    ensures r.Some? && r.value.0.None? ==> r.value.1 == p + 7
    ensures r.Some? && r.value.0.Some? ==>
      var d := r.value.0.value;
      r.value.1 == p + 9 + |d| && s[p + 6] == '(' && s[p + 7 + |d|] == ')' && ')' !in d
      && d == s[p + 7..p + 7 + |d|]
  {
    if !At(s, p, "#[live") || p + 6 == |s| then None
    else if s[p + 6] == '(' then
      var c := IndexFrom(s, p + 7, ')');
      if c + 1 < |s| && s[c + 1] == ']' then
        Some((Some(s[p + 7..c]), c + 2))
      else None
    else if s[p + 6] == ']' then Some((None, p + 7))
    else None
  }

  /** First index at or after `i` that holds `,` or a newline, or `|s|`. */
  function FieldStop(s: string, i: nat): (k: nat)
    requires i <= |s|
    ensures i <= k <= |s|
    ensures k < |s| ==> s[k] == ',' || s[k] == '\n'
    ensures forall j :: i <= j < k ==> s[j] != ',' && s[j] != '\n'
    decreases |s| - i
  {
    if i == |s| || s[i] == ',' || s[i] == '\n' then i else FieldStop(s, i + 1)
  }

  /** The last index in `[lo, k)` that does not hold a newline. */
  function LastNonNewline(s: string, lo: nat, k: nat): (r: Option<nat>)
    requires lo <= k <= |s|
    ensures r.Some? ==> lo <= r.value < k && s[r.value] != '\n' && forall j :: r.value < j < k ==> s[j] == '\n'
    ensures r.None? ==> forall j :: lo <= j < k ==> s[j] == '\n'
    decreases k - lo
  {
    if k == lo then None
    else if s[k - 1] != '\n' then Some(k - 1)
    else LastNonNewline(s, lo, k - 1)
  }

  /**
   * `\s*([^,\n]+)` anchored at `e`: the bounds of the captured type. When the
   * whitespace run after the colon ends the text or meets a comma, the engine
   * gives back whitespace and captures the last character of the run that is
   * not a newline; a run of newlines alone cannot match.
   */
  function TypeGroup(s: string, e: nat): (r: Option<(nat, nat)>)
    requires e <= |s|
    ensures r.Some? ==> e <= r.value.0 < r.value.1 <= |s|
    ensures r.Some? ==> forall j :: r.value.0 <= j < r.value.1 ==> s[j] != ',' && s[j] != '\n'
  {
    var w := SpaceEnd(s, e);
    if w < |s| && s[w] != ',' then Some((w, FieldStop(s, w)))
    else
      match LastNonNewline(s, e, w)
      case Some(j) => assert IsSpace(s[j]); Some((j, j + 1))
      case None => None
  }

  /** `match.group(3).strip().rstrip(',')`: the group holds no comma, so only the strip has an effect. */
  function PropType(g: string): (t: string)
    requires ',' !in g && '\n' !in g
    ensures ',' !in t && '\n' !in t
    ensures t == [] || (!IsSpace(t[0]) && !IsSpace(t[|t| - 1]))
    ensures (g == [] || (!IsSpace(g[0]) && !IsSpace(g[|g| - 1]))) ==> t == g
  {
    StripChars(g, ',');
    StripChars(g, '\n');
    StripKeepsTrimmed(g);
    RStrip(Strip(g), ',')
  }

  /** The field pattern anchored at `p`: the property and the index where the match ends. */
  function LiveFieldAt(s: string, p: nat): (r: Option<(WidgetProperty, nat)>)
    requires p <= |s|
    ensures r.Some? ==> p < r.value.1 <= |s| && IsWord(r.value.0.name) && At(s, p, "#[live")
  {
    match LiveAttr(s, p)
    case None => None
    case Some(attr) =>
      match NameColon(s, attr.1)
      case None => None
      case Some(nc) =>
        match TypeGroup(s, nc.1)
        case None => None
        case Some(g) =>
          TypeTextAvoids(s, g.0, g.1);
          Some((WidgetProperty(nc.0, PropType(s[g.0..g.1]), attr.0), g.1))
  }

  /** Text free of `,` and newlines, read as a slice. */
  lemma TypeTextAvoids(s: string, a: nat, b: nat)
    requires a <= b <= |s| && forall j :: a <= j < b ==> s[j] != ',' && s[j] != '\n'
    ensures ',' !in s[a..b] && '\n' !in s[a..b]
  {
    assert forall j :: 0 <= j < b - a ==> s[a..b][j] == s[a + j];
  }

  /** A property the field pattern yields is well formed. */
  lemma LiveFieldAtWellFormed(s: string, p: nat)
    requires p <= |s|
    ensures LiveFieldAt(s, p).Some? ==> PropertyWellFormed(LiveFieldAt(s, p).value.0)
  {
  }

  /** `re.finditer` of the field pattern from index `p`: the properties in source order. */
  function LiveFields(s: string, p: nat): seq<WidgetProperty>
    requires p <= |s|
    decreases |s| - p
  {
    if p == |s| then []
    else
      match LiveFieldAt(s, p)
      case Some(m) => [m.0] + LiveFields(s, m.1)
      case None => LiveFields(s, p + 1)
  }

  /** The form every extracted property has: a field name, and a type with no comma, no newline and no surrounding whitespace. */
  predicate PropertyWellFormed(prop: WidgetProperty) {
    IsWord(prop.name) && ',' !in prop.propType && '\n' !in prop.propType
    && (prop.propType == [] || (!IsSpace(prop.propType[0]) && !IsSpace(prop.propType[|prop.propType| - 1])))
  }

  lemma {:induction false} LiveFieldsWellFormed(s: string, p: nat)
    requires p <= |s|
    ensures forall prop | prop in LiveFields(s, p) :: PropertyWellFormed(prop)
    decreases |s| - p
  {
    hide *;
    if p == |s| {
      LiveFieldsEnd(s);
    } else {
      LiveFieldsStep(s, p);
      LiveFieldAtWellFormed(s, p);
      match LiveFieldAt(s, p)
      case Some(m) => LiveFieldsWellFormed(s, m.1);
      case None => LiveFieldsWellFormed(s, p + 1);
    }
  }

  /** `extract_properties`: the loop over the matches of the field pattern in a struct body. */
  method ExtractProperties(structBody: string) returns (properties: seq<WidgetProperty>)
    ensures properties == LiveFields(structBody, 0)
  {
    hide LiveFields, LiveFieldAt;
    properties := [];
    var i := 0;
    while i < |structBody|
      invariant i <= |structBody|
      invariant properties + LiveFields(structBody, i) == LiveFields(structBody, 0)
      decreases |structBody| - i
    {
      LiveFieldsStep(structBody, i);
      match LiveFieldAt(structBody, i)
      case Some(m) =>
        ConcatAssoc(properties, [m.0], LiveFields(structBody, m.1));
        properties := properties + [m.0];
        i := m.1;
      case None =>
        i := i + 1;
    }
    LiveFieldsEnd(structBody);
  }

  // ---------------------------------------------------------------------
  // Reading back a struct body written field by field.

  /** The attribute in front of a field. */
  datatype FieldAttr = Live | LiveWith(arg: string) | Other(attr: string)

  /** A field declaration: its attribute, whether it is `pub`, its name and its type. */
  datatype FieldDecl = FieldDecl(attr: FieldAttr, isPub: bool, name: string, ty: string)

  function AttrText(a: FieldAttr): string {
    match a
    case Live => "#[live]"
    case LiveWith(x) => "#[live(" + x + ")]"
    case Other(x) => "#[" + x + "]"
  }

  function PubGap(isPub: bool): string {
    if isPub then " " else ""
  }

  /** ` [pub ]name:` as it follows the attribute. */
  function FieldName(d: FieldDecl): string {
    NameColonText(" ", d.isPub, PubGap(d.isPub), d.name)
  }

  /** ` [pub ]name: ty,` as it follows the attribute. */
  function FieldText(d: FieldDecl): string {
    FieldName(d) + " " + d.ty + ","
  }

  /** One field on its own line. */
  function DeclText(d: FieldDecl): string {
    "\n    " + AttrText(d.attr) + FieldText(d)
  }

  function BodyText(ds: seq<FieldDecl>): string
    decreases |ds|
  {
    if ds == [] then "" else DeclText(ds[0]) + BodyText(ds[1..])
  }

  /**
   * The fields the round trip speaks about: a field name; a type without
   * comma, newline, `#` or surrounding whitespace; a `#[live(...)]` argument
   * without `)`; any other attribute without `#` and not starting with `live`.
   */
  predicate ValidDecl(d: FieldDecl) {
    IsWord(d.name) && d.ty != [] && ',' !in d.ty && '\n' !in d.ty && '#' !in d.ty
    && !IsSpace(d.ty[0]) && !IsSpace(d.ty[|d.ty| - 1])
    && match d.attr
       case Live => true
       case LiveWith(x) => ')' !in x
       case Other(x) => '#' !in x && !StartsWith(x, "live")
  }

  /** The property a field contributes, if any. */
  function FieldOf(d: FieldDecl): seq<WidgetProperty> {
    if d.attr.Other? then [] else [WidgetProperty(d.name, d.ty, DefaultOf(d.attr))]
  }

  function FieldsOf(ds: seq<FieldDecl>): seq<WidgetProperty>
    decreases |ds|
  {
    if ds == [] then [] else FieldOf(ds[0]) + FieldsOf(ds[1..])
  }

  /** Text without `#` holds no match of the field pattern. */
  lemma {:induction false} LiveFieldsSkip(s: string, i: nat, k: nat)
    requires i <= k <= |s|
    requires forall j :: i <= j < k ==> s[j] != '#'
    ensures LiveFields(s, i) == LiveFields(s, k)
    decreases k - i
  {
    if i < k {
      assert s[i + 0] != "#[live"[0];
      assert LiveFieldAt(s, i) == None;
      LiveFieldsSkip(s, i + 1, k);
    }
  }

  lemma LiveAttrOf(s: string, q: nat, a: FieldAttr)
    requires !a.Other? && (a.LiveWith? ==> ')' !in a.arg)
    requires At(s, q, AttrText(a))
    ensures LiveAttr(s, q) == Some((if a.LiveWith? then Some(a.arg) else None, (q + |AttrText(a)|) as nat))
  {
    if a.Live? {
      assert AttrText(a) == "#[live" + "]";
      LiveAttrBare(s, q);
    } else {
      assert AttrText(a) == "#[live" + ("(" + (a.arg + ")]"));
      LiveAttrWith(s, q, a.arg);
    }
  }

  /** `#[live]` yields no default. */
  lemma LiveAttrBare(s: string, q: nat)
    requires At(s, q, "#[live" + "]")
    ensures LiveAttr(s, q) == Some((None, (q + 7) as nat))
  {
    AtConcat(s, q, "#[live", "]");
    assert s[q + 6 + 0] == "]"[0];
  }

  /** `#[live(x)]` yields the default `x`. */
  lemma LiveAttrWith(s: string, q: nat, x: string)
    requires ')' !in x && At(s, q, "#[live" + ("(" + (x + ")]")))
    ensures LiveAttr(s, q) == Some((Some(x), (q + 9 + |x|) as nat))
  {
    hide IndexFrom;
    AtConcat(s, q, "#[live", "(" + (x + ")]"));
    AtConcat(s, q + 6, "(", x + ")]");
    assert s[q + 6 + 0] == "("[0];
    ArgumentAt(s, q + 7, x);
  }

  /** An argument free of `)` written before `)]` is what the scan for `)` delimits. */
  lemma ArgumentAt(s: string, i: nat, x: string)
    requires ')' !in x && At(s, i, x + ")]")
    ensures IndexFrom(s, i, ')') == i + |x| && i + |x| + 1 < |s| && s[i + |x| + 1] == ']'
    ensures s[i..i + |x|] == x
  {
    AtConcat(s, i, x, ")]");
    var c := i + |x|;
    assert s[c + 0] == ")]"[0] && s[c + 1] == ")]"[1];
    forall j | i <= j < c ensures s[j] != ')' {
      assert s[i + (j - i)] == x[j - i] && x[j - i] in x;
    }
    IndexFromOf(s, i, c, ')');
    assert s[i..c] == x by {
      forall j | 0 <= j < |x| ensures s[i..c][j] == x[j] { assert s[i + j] == x[j]; }
    }
  }

  lemma FieldStopOf(s: string, i: nat, ty: string)
    requires At(s, i, ty + ",") && ',' !in ty && '\n' !in ty
    ensures FieldStop(s, i) == i + |ty| && s[i..i + |ty|] == ty
    decreases |ty|
  {
    AtConcat(s, i, ty, ",");
    if ty == [] {
      assert s[i + 0] == ","[0];
    } else {
      assert s[i + 0] == ty[0] && ty[0] in ty;
      assert ty[1..] + "," == (ty + ",")[1..];
      assert At(s, i + 1, ty[1..] + ",") by {
        forall j | 0 <= j < |ty[1..] + ","| ensures s[i + 1 + j] == (ty[1..] + ",")[j] {
          assert s[i + 1 + j] == s[i + (1 + j)] == (ty + ",")[1 + j];
        }
      }
      assert ',' !in ty[1..] && '\n' !in ty[1..] by {
        forall j | 0 <= j < |ty| - 1 ensures ty[1..][j] in ty { assert ty[1..][j] == ty[j + 1]; }
      }
      FieldStopOf(s, i + 1, ty[1..]);
      assert s[i..i + |ty|] == [s[i]] + s[i + 1..i + 1 + |ty[1..]|];
    }
  }

  lemma TypeGroupOf(s: string, e: nat, ty: string)
    requires At(s, e, " " + ty + ",") && ty != [] && ',' !in ty && '\n' !in ty && !IsSpace(ty[0])
    ensures TypeGroup(s, e) == Some((e + 1, e + 1 + |ty|)) && s[e + 1..e + 1 + |ty|] == ty
  {
    assert " " + ty + "," == " " + (ty + ",");
    AtConcat(s, e, " ", ty + ",");
    assert s[e + 1 + 0] == (ty + ",")[0] == ty[0] && ty[0] in ty;
    SpaceEndOver(s, e, " ");
    FieldStopOf(s, e + 1, ty);
  }

  /** Where the parts of `attr + " " + [pub ] + name + ":" + " " + ty + ","` sit. */
  lemma FieldLayout(s: string, q: nat, d: FieldDecl)
    requires At(s, q, AttrText(d.attr) + FieldText(d))
    ensures At(s, q, AttrText(d.attr))
    ensures At(s, q + |AttrText(d.attr)|, FieldName(d))
    ensures At(s, q + |AttrText(d.attr)| + |FieldName(d)|, " " + d.ty + ",")
    ensures |FieldText(d)| == |FieldName(d)| + |d.ty| + 2
  {
    assert FieldText(d) == FieldName(d) + (" " + d.ty + ",");
    AtConcat(s, q, AttrText(d.attr), FieldText(d));
    AtConcat(s, q + |AttrText(d.attr)|, FieldName(d), " " + d.ty + ",");
  }

  /** The default a live field's attribute gives. */
  function DefaultOf(a: FieldAttr): Option<string> {
    if a.LiveWith? then Some(a.arg) else None
  }

  /** `LiveFieldAt` put together from the results of its three parts. */
  lemma LiveFieldAtFrom(s: string, q: nat, dflt: Option<string>, a: nat, name: string, ty: string, e: nat)
    requires q <= |s|
    requires LiveAttr(s, q) == Some((dflt, a))
    requires NameColon(s, a) == Some((name, e))
    requires TypeGroup(s, e) == Some((e + 1, e + 1 + |ty|))
    requires s[e + 1..e + 1 + |ty|] == ty
    ensures LiveFieldAt(s, q) == Some((WidgetProperty(name, PropType(ty), dflt), (e + 1 + |ty|) as nat))
  {
    hide LiveAttr, NameColon, TypeGroup, PropType;
  }

  /** The three parts of the field pattern on a written field. */
  lemma LiveFieldParts(s: string, q: nat, d: FieldDecl)
    requires ValidDecl(d) && !d.attr.Other?
    requires At(s, q, AttrText(d.attr) + FieldText(d))
    ensures LiveAttr(s, q) == Some((DefaultOf(d.attr), (q + |AttrText(d.attr)|) as nat))
    ensures NameColon(s, q + |AttrText(d.attr)|) == Some((d.name, (q + |AttrText(d.attr)| + |FieldName(d)|) as nat))
    ensures var e := q + |AttrText(d.attr)| + |FieldName(d)|;
      TypeGroup(s, e) == Some((e + 1, e + 1 + |d.ty|)) && s[e + 1..e + 1 + |d.ty|] == d.ty
    ensures |FieldText(d)| == |FieldName(d)| + |d.ty| + 2
  {
    hide LiveAttr, NameColon, TypeGroup;
    FieldLayout(s, q, d);
    var a := q + |AttrText(d.attr)|;
    LiveAttrOf(s, q, d.attr);
    assert AllSpace(" ") && AllSpace(PubGap(d.isPub));
    NameColonOf(s, a, " ", d.isPub, PubGap(d.isPub), d.name);
    assert NameColon(s, a) == Some((d.name, a + |FieldName(d)|));
    var e := a + |FieldName(d)|;
    TypeGroupOf(s, e, d.ty);
  }

  /** A `#[live]` or `#[live(...)]` field is read back as its property; the match ends at the field's comma. */
  lemma LiveFieldAtOf(s: string, q: nat, d: FieldDecl)
    requires ValidDecl(d) && !d.attr.Other?
    requires At(s, q, AttrText(d.attr) + FieldText(d))
    ensures |FieldText(d)| > 0
    ensures LiveFieldAt(s, q) == Some((WidgetProperty(d.name, d.ty, DefaultOf(d.attr)), (q + |AttrText(d.attr)| + |FieldText(d)| - 1) as nat))
  {
    hide LiveAttr, NameColon, TypeGroup;
    LiveFieldParts(s, q, d);
    var a := q + |AttrText(d.attr)|;
    var e := a + |FieldName(d)|;
    LiveFieldAtFrom(s, q, DefaultOf(d.attr), a, d.name, d.ty, e);
    assert PropType(d.ty) == d.ty;
  }

  /** Any other attribute is no match of the field pattern. */
  lemma OtherFieldAt(s: string, q: nat, x: string)
    requires At(s, q, "#[" + x + "]") && !StartsWith(x, "live")
    ensures LiveFieldAt(s, q) == None
  {
    AtConcat(s, q, "#[" + x, "]");
    AtConcat(s, q, "#[", x);
    if |x| >= 4 {
      if At(s, q, "#[live") {
        forall j | 0 <= j < 4 ensures x[j] == "live"[j] {
          assert s[q + 2 + j] == x[j];
          assert s[q + (2 + j)] == "#[live"[2 + j];
        }
      }
    } else {
      assert s[q + 2 + |x| + 0] == "]"[0];
      assert "#[live"[2 + |x|] != ']';
    }
  }

  lemma FieldTextChars(d: FieldDecl)
    requires ValidDecl(d)
    ensures '#' !in FieldText(d)
  {
    var t := FieldText(d);
    assert t == " " + (if d.isPub then "pub" + " " else "") + d.name + ":" + " " + d.ty + ",";
    forall j | 0 <= j < |d.name| ensures d.name[j] != '#' { assert IsWordChar(d.name[j]); }
  }

  /** Text written without `#` puts no `#` into `s`. */
  lemma NoHashAt(s: string, i: nat, t: string)
    requires At(s, i, t) && '#' !in t
    ensures i + |t| <= |s|
    ensures forall j :: i <= j < i + |t| ==> s[j] != '#'
  {
    forall j | i <= j < i + |t| ensures s[j] != '#' {
      assert s[i + (j - i)] == t[j - i] && t[j - i] in t;
    }
  }

  /** The field after a `#[live]` attribute ends in its comma. */
  lemma FieldTextEnds(s: string, q: nat, d: FieldDecl)
    requires At(s, q, AttrText(d.attr) + FieldText(d))
    ensures s[q + |AttrText(d.attr)| + |FieldText(d)| - 1] == ','
  {
    var t := AttrText(d.attr) + FieldText(d);
    assert t[|t| - 1] == ',';
    assert s[q + (|t| - 1)] == t[|t| - 1];
  }

  /** One step of the scan of the field pattern. */
  lemma LiveFieldsStep(s: string, q: nat)
    requires q < |s|
    ensures LiveFieldAt(s, q).None? ==> LiveFields(s, q) == LiveFields(s, q + 1)
    ensures LiveFieldAt(s, q).Some? ==> LiveFields(s, q) == [LiveFieldAt(s, q).value.0] + LiveFields(s, LiveFieldAt(s, q).value.1)
  {
    hide LiveFieldAt;
  }

  /** How a field line is put together. */
  lemma DeclTextParts(d: FieldDecl)
    requires ValidDecl(d)
    ensures DeclText(d) == "\n    " + (AttrText(d.attr) + FieldText(d))
    ensures forall j :: 0 <= j < 5 ==> "\n    "[j] != '#'
    ensures d.attr.Other? ==> AttrText(d.attr) + FieldText(d) == "#" + ("[" + d.attr.attr + "]" + FieldText(d))
    ensures d.attr.Other? ==> '#' !in "[" + d.attr.attr + "]" + FieldText(d) && FieldOf(d) == []
    ensures d.attr.Other? ==> AttrText(d.attr) == "#[" + d.attr.attr + "]" && !StartsWith(d.attr.attr, "live")
    ensures !d.attr.Other? ==> FieldOf(d) == [WidgetProperty(d.name, d.ty, DefaultOf(d.attr))]
  {
    FieldTextChars(d);
  }

  /** One field line contributes exactly its property, if it is a live field, and nothing else. */
  lemma DeclScan(s: string, p: nat, d: FieldDecl)
    requires ValidDecl(d) && At(s, p, DeclText(d))
    ensures LiveFields(s, p) == FieldOf(d) + LiveFields(s, p + |DeclText(d)|)
  {
    hide *;
    DeclTextParts(d);
    AtWithin(s, p, DeclText(d));
    var q := p + 5;
    var end := p + |DeclText(d)|;
    AtConcat(s, p, "\n    ", AttrText(d.attr) + FieldText(d));
    NoHashAt(s, p, "\n    ");
    LiveFieldsSkip(s, p, q);
    if d.attr.Other? {
      var x := d.attr.attr;
      var tail := "[" + x + "]" + FieldText(d);
      AtConcat(s, q, "#", tail);
      NoHashAt(s, q + 1, tail);
      AtConcat(s, q, AttrText(d.attr), FieldText(d));
      OtherFieldAt(s, q, x);
      LiveFieldsStep(s, q);
      LiveFieldsSkip(s, q + 1, end);
    } else {
      LiveFieldAtOf(s, q, d);
      FieldTextEnds(s, q, d);
      LiveFieldsStep(s, q);
      LiveFieldsSkip(s, end - 1, end);
    }
  }

  lemma BodyTextCons(ds: seq<FieldDecl>)
    ensures ds == [] ==> BodyText(ds) == [] && FieldsOf(ds) == []
    ensures ds != [] ==> BodyText(ds) == DeclText(ds[0]) + BodyText(ds[1..])
    ensures ds != [] ==> FieldsOf(ds) == FieldOf(ds[0]) + FieldsOf(ds[1..])
  {
  }

  lemma {:induction false} BodyScan(s: string, p: nat, ds: seq<FieldDecl>)
    requires forall k :: 0 <= k < |ds| ==> ValidDecl(ds[k])
    requires At(s, p, BodyText(ds))
    ensures LiveFields(s, p) == FieldsOf(ds) + LiveFields(s, p + |BodyText(ds)|)
    decreases |ds|
  {
    hide *;
    BodyTextCons(ds);
    if ds != [] {
      var d, t := ds[0], ds[1..];
      AtConcat(s, p, DeclText(d), BodyText(t));
      DeclScan(s, p, d);
      BodyScan(s, p + |DeclText(d)|, t);
    }
  }

  /**
   * `extract_properties` yields exactly one property per `#[live]` or
   * `#[live(...)]` field, in source order, with the default taken from the
   * parentheses; fields under any other attribute contribute nothing.
   */
  lemma ExtractPropertiesOfBody(ds: seq<FieldDecl>, rest: string)
    requires forall k :: 0 <= k < |ds| ==> ValidDecl(ds[k])
    requires '#' !in rest
    ensures LiveFields(BodyText(ds) + rest, 0) == FieldsOf(ds)
  {
    hide *;
    var s := BodyText(ds) + rest;
    AtSelf(s);
    AtConcat(s, 0, BodyText(ds), rest);
    BodyScan(s, 0, ds);
    NoHashAt(s, |BodyText(ds)|, rest);
    LiveFieldsSkip(s, |BodyText(ds)|, |s|);
    LiveFieldsEnd(s);
  }

  lemma LiveFieldsEnd(s: string)
    ensures LiveFields(s, |s|) == []
  {
  }

  // ---------------------------------------------------------------------
  // `extract_doc_comment`: the `///` block above a struct header.

  /** A line whose stripped text starts with `///`. */
  predicate IsDocLine(line: string) {
    StartsWith(Strip(line), "///")
  }

  /** A line that ends the backward scan: not a doc line, not blank, not an attribute. */
  predicate StopsDoc(line: string) {
    var t := Strip(line);
    !StartsWith(t, "///") && t != [] && !StartsWith(t, "#")
  }

  /** The text of a doc line: marker and surrounding whitespace removed. */
  function DocText(line: string): (t: string)
    requires IsDocLine(line)
    ensures t == [] || (!IsSpace(t[0]) && !IsSpace(t[|t| - 1]))
  {
    Strip(Strip(line)[3..])
  }

  /** `lines[-10:]`: the lines the scan looks at. */
  function DocWindow(lines: seq<string>): (w: seq<string>)
    ensures |w| == if |lines| <= 10 then |lines| else 10
    ensures w == lines[|lines| - |w|..]
  {
    if |lines| <= 10 then lines else lines[|lines| - 10..]
  }

  /** The backward scan over a window, from its last line: the doc texts it keeps, in text order. */
  function DocLines(w: seq<string>): seq<string>
    decreases |w|
  {
    if w == [] then []
    else
      var line := w[|w| - 1];
      if IsDocLine(line) then DocLines(w[..|w| - 1]) + [DocText(line)]
      else if StopsDoc(line) then []
      else DocLines(w[..|w| - 1])
  }

  /** The doc text of a comment, as `extract_doc_comment(content, pos)` returns it. */
  function DocComment(content: string, pos: nat): string
    requires pos <= |content|
  {
    Join(DocLines(DocWindow(Split(content[..pos], '\n'))), " ")
  }

  /** Reference reading: the texts of the doc lines of `w`, front to back, every other line dropped. */
  function DocTexts(w: seq<string>): seq<string>
    decreases |w|
  {
    if w == [] then []
    else (if IsDocLine(w[0]) then [DocText(w[0])] else []) + DocTexts(w[1..])
  }

  /** No line of `w` from index `k` on stops the scan. */
  predicate NoStopFrom(w: seq<string>, k: nat) {
    forall i :: k <= i < |w| ==> !StopsDoc(w[i])
  }

  lemma {:induction false} DocTextsAppend(a: seq<string>, b: seq<string>)
    ensures DocTexts(a + b) == DocTexts(a) + DocTexts(b)
    decreases |a|
  {
    if a != [] {
      var ab := a + b;
      assert ab[0] == a[0] && ab[1..] == a[1..] + b;
      DocTextsAppend(a[1..], b);
    } else {
      assert a + b == b;
    }
  }

  /** Without a stopping line, every doc line of the window is kept, in order, and nothing else. */
  lemma {:induction false} DocLinesNoStop(w: seq<string>)
    requires NoStopFrom(w, 0)
    ensures DocLines(w) == DocTexts(w)
    decreases |w|
  {
    if w != [] {
      var init, line := w[..|w| - 1], w[|w| - 1];
      assert w == init + [line];
      assert !StopsDoc(line);
      assert NoStopFrom(init, 0) by {
        forall i | 0 <= i < |init| ensures !StopsDoc(init[i]) { assert init[i] == w[i]; }
      }
      DocLinesNoStop(init);
      DocTextsAppend(init, [line]);
    }
  }

  /** With a stopping line, only the doc lines after the last one are kept: the scan ends there. */
  lemma {:induction false} DocLinesAfterStop(w: seq<string>, k: nat)
    requires k < |w| && StopsDoc(w[k]) && NoStopFrom(w, k + 1)
    ensures DocLines(w) == DocTexts(w[k + 1..])
    decreases |w|
  {
    var init, line := w[..|w| - 1], w[|w| - 1];
    if k == |w| - 1 {
      assert w[k + 1..] == [];
    } else {
      assert w[k + 1..] == init[k + 1..] + [line];
      assert !StopsDoc(w[|w| - 1]);
      assert init[k] == w[k];
      assert NoStopFrom(init, k + 1) by {
        forall i | k + 1 <= i < |init| ensures !StopsDoc(init[i]) { assert init[i] == w[i]; }
      }
      DocLinesAfterStop(init, k);
      DocTextsAppend(init[k + 1..], [line]);
    }
  }

  /** Only the last ten lines before the header matter. */
  lemma DocWindowIgnoresOlder(older: seq<string>, recent: seq<string>)
    requires |recent| >= 10
    ensures DocWindow(older + recent) == DocWindow(recent)
  {
    assert (older + recent)[|older + recent| - 10..] == recent[|recent| - 10..];
  }

  /**
   * `extract_doc_comment`: walks the last ten lines before `pos` backwards,
   * putting each `///` text in front of those already found, skipping blank
   * and `#` lines and stopping at any other line.
   */
  method ExtractDocComment(content: string, pos: nat) returns (doc: string)
    requires pos <= |content|
    ensures doc == DocComment(content, pos)
  {
    hide Strip, Split, DocWindow, DocLines, DocComment, Join;
    DocCommentIs(content, pos);
    var window := DocWindow(Split(content[..pos], '\n'));
    var docLines: seq<string> := [];
    var i := |window|;
    DocScanStart(window);
    while i > 0
      invariant 0 <= i <= |window|
      invariant DocLines(window) == DocLines(window[..i]) + docLines
    {
      var stripped := Strip(window[i - 1]);
      if StartsWith(stripped, "///") {
        DocScanKeeps(window, i, docLines);
        docLines := [Strip(stripped[3..])] + docLines;
      } else if stripped != [] && !StartsWith(stripped, "#") {
        DocScanStops(window, i, docLines);
        assert DocLines(window) == docLines;
        i := i - 1;
        break;
      } else {
        DocScanSkips(window, i, docLines);
      }
      i := i - 1;
    }
    if i == 0 {
      DocScanStart(window);
      assert DocLines(window) == [] + docLines == docLines;
    }
    assert DocLines(window) == docLines;
    doc := Join(docLines, " ");
  }

  /** The scan starts with the whole window still to read and ends once none is left. */
  lemma DocScanStart(window: seq<string>)
    ensures window[..|window|] == window
    ensures DocLines(window) == DocLines(window) + []
    ensures DocLines(window[..0]) == []
  {
    assert window[..0] == [];
  }

  /** A `///` line read backwards from `i` goes in front of the texts found after it. */
  lemma DocScanKeeps(window: seq<string>, i: nat, docLines: seq<string>)
    requires 0 < i <= |window| && DocLines(window) == DocLines(window[..i]) + docLines
    requires StartsWith(Strip(window[i - 1]), "///")
    ensures DocLines(window) == DocLines(window[..i - 1]) + ([Strip(Strip(window[i - 1])[3..])] + docLines)
  {
    hide DocLines, Strip, IsDocLine, StopsDoc, DocText;
    SliceSnoc(window, i);
    DocLineKept(window[..i - 1], window[i - 1]);
    var x := [Strip(Strip(window[i - 1])[3..])];
    ConcatAssoc(DocLines(window[..i - 1]), x, docLines);
  }

  /** A stopping line read backwards from `i` ends the scan with the texts found after it. */
  lemma DocScanStops(window: seq<string>, i: nat, docLines: seq<string>)
    requires 0 < i <= |window| && DocLines(window) == DocLines(window[..i]) + docLines
    requires StopsDoc(window[i - 1])
    ensures DocLines(window) == docLines
  {
    hide *;
    SliceSnoc(window, i);
    DocLineStops(window[..i - 1], window[i - 1]);
    assert [] + docLines == docLines;
  }

  /** A blank or attribute line read backwards from `i` is passed over. */
  lemma DocScanSkips(window: seq<string>, i: nat, docLines: seq<string>)
    requires 0 < i <= |window| && DocLines(window) == DocLines(window[..i]) + docLines
    requires !IsDocLine(window[i - 1]) && !StopsDoc(window[i - 1])
    ensures DocLines(window) == DocLines(window[..i - 1]) + docLines
  {
    hide *;
    SliceSnoc(window, i);
    DocLineSkipped(window[..i - 1], window[i - 1]);
  }

  /** The backward scan over `init + [line]`, one line from the end: a doc line is kept, */
  lemma DocLineKept(init: seq<string>, line: string)
    requires StartsWith(Strip(line), "///")
    ensures DocLines(init + [line]) == DocLines(init) + [Strip(Strip(line)[3..])]
  {
    assert (init + [line])[..|init|] == init;
  }

  /** a stopping line ends the scan, */
  lemma DocLineStops(init: seq<string>, line: string)
    requires StopsDoc(line)
    ensures DocLines(init + [line]) == []
  {
  }

  /** and any other line is passed over. */
  lemma DocLineSkipped(init: seq<string>, line: string)
    requires !IsDocLine(line) && !StopsDoc(line)
    ensures DocLines(init + [line]) == DocLines(init)
  {
    assert (init + [line])[..|init|] == init;
  }

  lemma DocCommentIs(content: string, pos: nat)
    requires pos <= |content|
    ensures DocComment(content, pos) == Join(DocLines(DocWindow(Split(content[..pos], '\n'))), " ")
  {
  }

  /**
   * The doc comment in terms of the lines before `pos`: without a stopping
   * line among the last ten, it is the text of every `///` line there, in
   * order, joined by spaces; with one, only the `///` lines after the last
   * stopping line count.
   */
  lemma DocCommentOf(content: string, pos: nat)
    requires pos <= |content|
    ensures var w := DocWindow(Split(content[..pos], '\n'));
      NoStopFrom(w, 0) ==> DocComment(content, pos) == Join(DocTexts(w), " ")
    ensures var w := DocWindow(Split(content[..pos], '\n'));
      forall k :: 0 <= k < |w| && StopsDoc(w[k]) && NoStopFrom(w, k + 1) ==>
        DocComment(content, pos) == Join(DocTexts(w[k + 1..]), " ")
  {
    var w := DocWindow(Split(content[..pos], '\n'));
    DocCommentIs(content, pos);
    if NoStopFrom(w, 0) {
      DocLinesNoStop(w);
    }
    forall k | 0 <= k < |w| && StopsDoc(w[k]) && NoStopFrom(w, k + 1)
      ensures DocComment(content, pos) == Join(DocTexts(w[k + 1..]), " ")
    {
      DocLinesAfterStop(w, k);
    }
  }

  // ---------------------------------------------------------------------
  // `extract_widgets`: the catalog over all files.

  /** The widget a header yields: name, file name, live fields of the body and doc comment. */
  function WidgetAt(f: SourceFile, h: Header): (w: Widget)
    requires h.start <= h.end <= |f.content|
    ensures w.name == h.name && w.file == f.name
    ensures forall prop | prop in w.properties :: PropertyWellFormed(prop)
  {
    var body := f.content[h.end..StructEnd(f.content, h.end)];
    LiveFieldsWellFormed(body, 0);
    Widget(h.name, f.name, LiveFields(body, 0), DocComment(f.content, h.start))
  }

  predicate HeadersFit(f: SourceFile, hs: seq<Header>) {
    forall k :: 0 <= k < |hs| ==> hs[k].start <= hs[k].end <= |f.content|
  }

  /** The matches of one file entered one by one; excluded names are passed over, a repeated name is overwritten. */
  function AddHeaders(m: map<string, Widget>, f: SourceFile, hs: seq<Header>): map<string, Widget>
    requires HeadersFit(f, hs)
    decreases |hs|
  {
    if hs == [] then m
    else
      var h := hs[|hs| - 1];
      var before := AddHeaders(m, f, hs[..|hs| - 1]);
      if IsSkippedWidget(h.name) then before else before[h.name := WidgetAt(f, h)]
  }

  /** The headers of a file, as the scan finds them. */
  function FileHeaders(f: SourceFile): (hs: seq<Header>)
    ensures HeadersFit(f, hs)
  {
    var hs := Headers(f.content, 0);
    assert forall k :: 0 <= k < |hs| ==> hs[k] in hs;
    hs
  }

  /** The dictionary `extract_widgets` returns for the files in the order they are read. */
  function Catalog(files: seq<SourceFile>): map<string, Widget>
    decreases |files|
  {
    if files == [] then map[]
    else
      var f := files[|files| - 1];
      AddHeaders(Catalog(files[..|files| - 1]), f, FileHeaders(f))
  }

  lemma WidgetAtIs(f: SourceFile, h: Header)
    requires h.start <= h.end <= |f.content|
    ensures WidgetAt(f, h) == Widget(h.name, f.name, LiveFields(f.content[h.end..StructEnd(f.content, h.end)], 0), DocComment(f.content, h.start))
  {
  }

  /** One header more. */
  lemma AddHeadersStep(m: map<string, Widget>, f: SourceFile, hs: seq<Header>, k: nat)
    requires HeadersFit(f, hs) && k < |hs|
    ensures HeadersFit(f, hs[..k]) && HeadersFit(f, hs[..k + 1])
    ensures AddHeaders(m, f, hs[..k + 1]) ==
      if IsSkippedWidget(hs[k].name) then AddHeaders(m, f, hs[..k])
      else AddHeaders(m, f, hs[..k])[hs[k].name := WidgetAt(f, hs[k])]
  {
    assert hs[..k + 1][..k] == hs[..k];
  }

  /** One file more. */
  lemma CatalogStep(files: seq<SourceFile>, n: nat)
    requires n < |files|
    ensures Catalog(files[..n + 1]) == AddHeaders(Catalog(files[..n]), files[n], FileHeaders(files[n]))
  {
    assert files[..n + 1][..n] == files[..n];
  }

  /** `extract_widgets`: for every file and every header match, record the widget unless its name is excluded. */
  method ExtractWidgets(files: seq<SourceFile>) returns (widgets: map<string, Widget>)
    ensures widgets == Catalog(files)
  {
    hide *;
    widgets := map[];
    assert Catalog(files[..0]) == map[] by { assert files[..0] == []; CatalogNil(); }
    for fi := 0 to |files|
      invariant widgets == Catalog(files[..fi])
    {
      var f := files[fi];
      var content := f.content;
      var hs := FileHeaders(f);
      ghost var start := widgets;
      AddHeadersNil(start, f, hs);
      for k := 0 to |hs|
        invariant HeadersFit(f, hs[..k])
        invariant widgets == AddHeaders(start, f, hs[..k])
      {
        var h := hs[k];
        AddHeadersStep(start, f, hs, k);
        HeaderFits(f, hs, k);
        if IsSkippedWidget(h.name) {
          continue;
        }
        var structStart := h.end;
        var structEnd := FindStructEnd(content, structStart);
        var properties := ExtractProperties(content[structStart..structEnd]);
        var doc := ExtractDocComment(content, h.start);
        WidgetAtIs(f, h);
        widgets := widgets[h.name := Widget(h.name, f.name, properties, doc)];
      }
      assert hs[..|hs|] == hs;
      CatalogStep(files, fi);
    }
    assert files[..|files|] == files;
  }

  lemma CatalogNil()
    ensures Catalog([]) == map[]
  {
  }

  lemma AddHeadersNil(m: map<string, Widget>, f: SourceFile, hs: seq<Header>)
    ensures HeadersFit(f, hs[..0]) && AddHeaders(m, f, hs[..0]) == m
  {
    assert hs[..0] == [];
  }

  lemma HeaderFits(f: SourceFile, hs: seq<Header>, k: nat)
    requires HeadersFit(f, hs) && k < |hs|
    ensures hs[k].start <= hs[k].end <= |f.content|
  {
  }

  /** What one file contributes: a name is present exactly when it was present or an admitted header carries it. */
  lemma {:induction false} AddHeadersKeys(m: map<string, Widget>, f: SourceFile, hs: seq<Header>, name: string)
    requires HeadersFit(f, hs)
    ensures name in AddHeaders(m, f, hs) <==>
      name in m || exists k :: 0 <= k < |hs| && hs[k].name == name && !IsSkippedWidget(name)
    decreases |hs|
  {
    hide WidgetAt;
    if hs != [] {
      var init := hs[..|hs| - 1];
      AddHeadersKeys(m, f, init, name);
      assert forall k :: 0 <= k < |init| ==> init[k] == hs[k];
    }
  }

  /** A name that no header of the file carries keeps the value it had. */
  lemma {:induction false} AddHeadersKeeps(m: map<string, Widget>, f: SourceFile, hs: seq<Header>, name: string)
    requires HeadersFit(f, hs) && name in m
    requires forall k :: 0 <= k < |hs| ==> hs[k].name != name
    ensures name in AddHeaders(m, f, hs) && AddHeaders(m, f, hs)[name] == m[name]
    decreases |hs|
  {
    hide WidgetAt;
    if hs != [] {
      AddHeadersKeeps(m, f, hs[..|hs| - 1], name);
    }
  }

  /** Last write wins: an admitted name is bound to the widget of its last header in the file. */
  lemma {:induction false} AddHeadersLast(m: map<string, Widget>, f: SourceFile, hs: seq<Header>, k: nat)
    requires HeadersFit(f, hs) && k < |hs| && !IsSkippedWidget(hs[k].name)
    requires forall k2 :: k < k2 < |hs| ==> hs[k2].name != hs[k].name
    ensures hs[k].name in AddHeaders(m, f, hs)
    ensures AddHeaders(m, f, hs)[hs[k].name] == WidgetAt(f, hs[k])
    decreases |hs|
  {
    hide WidgetAt;
    if k < |hs| - 1 {
      var init := hs[..|hs| - 1];
      assert init[k] == hs[k];
      AddHeadersLast(m, f, init, k);
    }
  }

  /** Excluded names never become keys. */
  lemma {:induction false} AddHeadersAdmits(m: map<string, Widget>, f: SourceFile, hs: seq<Header>)
    requires HeadersFit(f, hs)
    requires forall name | name in m :: !IsSkippedWidget(name)
    ensures forall name | name in AddHeaders(m, f, hs) :: !IsSkippedWidget(name)
    decreases |hs|
  {
    hide WidgetAt;
    if hs != [] {
      AddHeadersAdmits(m, f, hs[..|hs| - 1]);
    }
  }

  /** No `Draw…`, `…Ref`, `…Set` or denylisted name is ever a key of the catalog. */
  lemma {:induction false} CatalogNeverSkipped(files: seq<SourceFile>)
    ensures forall name | name in Catalog(files) :: !IsSkippedWidget(name)
    decreases |files|
  {
    if files != [] {
      var f := files[|files| - 1];
      CatalogNeverSkipped(files[..|files| - 1]);
      AddHeadersAdmits(Catalog(files[..|files| - 1]), f, FileHeaders(f));
    }
  }

  /** The catalog's keys are exactly the admitted names of the header matches of all files. */
  lemma {:induction false} CatalogKeys(files: seq<SourceFile>, name: string)
    ensures name in Catalog(files) <==>
      !IsSkippedWidget(name) && exists i, k :: 0 <= i < |files| && 0 <= k < |FileHeaders(files[i])| && FileHeaders(files[i])[k].name == name
    decreases |files|
  {
    hide WidgetAt, FileHeaders;
    if files != [] {
      var init, f := files[..|files| - 1], files[|files| - 1];
      CatalogKeys(init, name);
      AddHeadersKeys(Catalog(init), f, FileHeaders(f), name);
      CatalogNeverSkipped(init);
      if exists i, k :: 0 <= i < |files| && 0 <= k < |FileHeaders(files[i])| && FileHeaders(files[i])[k].name == name {
        var i, k :| 0 <= i < |files| && 0 <= k < |FileHeaders(files[i])| && FileHeaders(files[i])[k].name == name;
        if i < |init| { assert init[i] == files[i]; }
      }
      if exists i, k :: 0 <= i < |init| && 0 <= k < |FileHeaders(init[i])| && FileHeaders(init[i])[k].name == name {
        var i, k :| 0 <= i < |init| && 0 <= k < |FileHeaders(init[i])| && FileHeaders(init[i])[k].name == name;
        assert files[i] == init[i];
      }
    }
  }

  /** A name carried by a header of the last file is bound to that file's last such header, whatever earlier files held. */
  lemma CatalogLastFile(files: seq<SourceFile>, k: nat)
    requires files != []
    requires var hs := FileHeaders(files[|files| - 1]);
      k < |hs| && !IsSkippedWidget(hs[k].name) && forall k2 :: k < k2 < |hs| ==> hs[k2].name != hs[k].name
    ensures var f := files[|files| - 1]; var h := FileHeaders(f)[k];
      h.name in Catalog(files) && Catalog(files)[h.name] == WidgetAt(f, h)
  {
    var f := files[|files| - 1];
    AddHeadersLast(Catalog(files[..|files| - 1]), f, FileHeaders(f), k);
  }

  /** A name the last file does not carry keeps the binding the earlier files gave it. */
  lemma CatalogEarlierFile(files: seq<SourceFile>, name: string)
    requires files != [] && name in Catalog(files[..|files| - 1])
    requires var hs := FileHeaders(files[|files| - 1]); forall k :: 0 <= k < |hs| ==> hs[k].name != name
    ensures name in Catalog(files) && Catalog(files)[name] == Catalog(files[..|files| - 1])[name]
  {
    var f := files[|files| - 1];
    AddHeadersKeeps(Catalog(files[..|files| - 1]), f, FileHeaders(f), name);
  }
  /** Every entry of a file's matches is keyed by its own name, an identifier. */
  lemma {:induction false} AddHeadersNamed(m: map<string, Widget>, f: SourceFile, hs: seq<Header>)
    requires HeadersFit(f, hs)
    requires forall k :: 0 <= k < |hs| ==> IsWord(hs[k].name)
    requires forall name | name in m :: m[name].name == name && IsWord(name)
    ensures forall name | name in AddHeaders(m, f, hs) :: AddHeaders(m, f, hs)[name].name == name && IsWord(name)
    decreases |hs|
  {
    hide WidgetAt;
    if hs != [] {
      AddHeadersNamed(m, f, hs[..|hs| - 1]);
      WidgetAtIs(f, hs[|hs| - 1]);
    }
  }

  /** Every catalog entry is keyed by the widget's own name, and that name is an identifier. */
  lemma {:induction false} CatalogNamed(files: seq<SourceFile>)
    ensures forall name | name in Catalog(files) :: Catalog(files)[name].name == name && IsWord(name)
    decreases |files|
  {
    if files != [] {
      var f := files[|files| - 1];
      var hs := FileHeaders(f);
      CatalogNamed(files[..|files| - 1]);
      HeadersAreMatches(f.content, 0);
      forall k | 0 <= k < |hs| ensures IsWord(hs[k].name) {
        assert hs[k] in Headers(f.content, 0);
        assert HeaderAt(f.content, hs[k].start) == Some(hs[k]);
      }
      AddHeadersNamed(Catalog(files[..|files| - 1]), f, hs);
    }
  }
}

=== FILE: generate_locations.dfy ===
// scripts/generate_locations.py: where each widget struct and each `#[live]`
// property is defined, for Go-to-Definition.

module GenerateLocations {
  import opened Text
  import opened Sources
  import opened Patterns
  import opened LineScan

  /** A line the widget scan records: `^pub struct (\w+)\s*\{` naming a type that is not skipped. */
  function WidgetLineName(line: string): (r: Option<string>)
    ensures r.Some? <==> StructLineName(line).Some? && !IsSkippedWidget(StructLineName(line).value)
    ensures r.Some? ==> r == StructLineName(line)
  {
    match StructLineName(line)
    case Some(name) => if IsSkippedWidget(name) then None else Some(name)
    case None => None
  }

  /** `find_widget_locations()`: every recorded line, later files and lines overwriting earlier ones. */
  function WidgetLocations(dir: string, entries: seq<DirEntry>): map<string, Location> {
    LastWinsFiles(map[], RsFiles(dir, entries), WidgetLineName)
  }

  method FindWidgetLocations(dir: string, entries: seq<DirEntry>) returns (locations: map<string, Location>)
    ensures locations == WidgetLocations(dir, entries)
  {
    hide *;
    var files := RsFiles(dir, entries);
    locations := map[];
    LastWinsFilesUnfold(map[], []  , WidgetLineName);
    assert files[..0] == [];
    var k := 0;
    while k < |files|
      invariant 0 <= k <= |files|
      invariant locations == LastWinsFiles(map[], files[..k], WidgetLineName)
    {
      var f := files[k];
      var lines := Lines(f);
      var before := locations;
      ScanStart(before, f.path, lines, WidgetLineName);
      var i := 0;
      while i < |lines|
        invariant 0 <= i <= |lines|
        invariant locations == LastWins(before, f.path, lines, i, WidgetLineName)
      {
        LastWinsStep(before, f.path, lines, i, WidgetLineName);
        match WidgetLineName(lines[i]) {
          case Some(name) =>
            locations := locations[name := Location(f.path, i + 1)];
          case None =>
        }
        i := i + 1;
      }
      LastWinsFilesStep(map[], files, WidgetLineName, k);
      k := k + 1;
    }
    assert files[..k] == files;
    WidgetLocationsIs(dir, entries);
  }

  lemma WidgetLocationsIs(dir: string, entries: seq<DirEntry>)
    ensures WidgetLocations(dir, entries) == LastWinsFiles(map[], RsFiles(dir, entries), WidgetLineName)
  {
  }

  /**
   * Every recorded widget is a word that is not skipped, and its location is
   * a 1-based line of a globbed `.rs` file that reads `pub struct `, the name,
   * optional whitespace and `{`.
   */
  lemma WidgetLocationsSound(dir: string, entries: seq<DirEntry>, name: string)
    requires name in WidgetLocations(dir, entries)
    ensures IsWord(name) && !IsSkippedWidget(name)
    ensures exists f: SourceFile, i: nat, gap: string, rest: string ::
              DirEntry(f.name, f.content) in entries && IsRsFile(f.name) && f.path == JoinPath(dir, f.name) && i < |Lines(f)| &&
              AllSpace(gap) && Lines(f)[i] == "pub struct " + name + gap + "{" + rest &&
              WidgetLocations(dir, entries)[name] == Location(f.path, i + 1)
  {
    var files := RsFiles(dir, entries);
    LastWinsFilesFrom(files, WidgetLineName, name);
    var k: nat, i: nat :| NamesAt(files, WidgetLineName, k, i, name) &&
      WidgetLocations(dir, entries)[name] == Location(files[k].path, i + 1);
    assert files[k] in files;
    assert StructLineName(Lines(files[k])[i]) == Some(name);
    var gap, rest :| AllSpace(gap) && Lines(files[k])[i] == "pub struct " + name + gap + "{" + rest;
  }

  /** A widget is recorded exactly when some line of some globbed file declares it and it is not skipped. */
  lemma WidgetLocationsComplete(dir: string, entries: seq<DirEntry>, name: string)
    ensures name in WidgetLocations(dir, entries) <==>
      exists k: nat, i: nat :: NamesAt(RsFiles(dir, entries), WidgetLineName, k, i, name)
  {
    hide *;
    WidgetLocationsIs(dir, entries);
    LastWinsFilesKeys(RsFiles(dir, entries), WidgetLineName, name);
  }

  /** A type declared twice points at its last declaration in the last file that declares it. */
  lemma WidgetLocationsLastWins(dir: string, entries: seq<DirEntry>, k: nat, i: nat, name: string)
    requires NamesAt(RsFiles(dir, entries), WidgetLineName, k, i, name)
    requires forall j :: i < j < |Lines(RsFiles(dir, entries)[k])| ==> WidgetLineName(Lines(RsFiles(dir, entries)[k])[j]) != Some(name)
    requires forall k' :: k < k' < |RsFiles(dir, entries)| ==> Silent(RsFiles(dir, entries), WidgetLineName, k', name)
    ensures name in WidgetLocations(dir, entries) && WidgetLocations(dir, entries)[name] == Location(RsFiles(dir, entries)[k].path, i + 1)
  {
    LastWinsFilesLast(RsFiles(dir, entries), WidgetLineName, k, i, name);
  }

  /** A widget declaration is recorded under its name. */
  lemma WidgetLineNameRecords()
    ensures WidgetLineName("pub struct Button {") == Some("Button")
  {
    hide StructLineName;
    StructLineNameOf("Button", " ", "");
    assert "pub struct " + "Button" + " " + "{" + "" == "pub struct Button {";
    assert "Button"[3] != "Ref"[0] && "Button"[3] != "Set"[0] && "Button"[0] != "Draw"[0];
    assert |"Button"| == 6;
  }

  /** A `*Ref` handle type is skipped. */
  lemma WidgetLineNameSkipsRef()
    ensures WidgetLineName("pub struct ButtonRef {") == None
  {
    hide StructLineName;
    StructLineNameOf("ButtonRef", " ", "");
    assert "pub struct " + "ButtonRef" + " " + "{" + "" == "pub struct ButtonRef {";
    assert "ButtonRef"[6] == 'R' && "ButtonRef"[7] == 'e' && "ButtonRef"[8] == 'f';
    assert EndsWith("ButtonRef", "Ref");
  }

  /** A denylisted name is skipped. */
  lemma WidgetLineNameSkipsDenylisted()
    ensures WidgetLineName("pub struct WidgetAction {") == None
  {
    hide StructLineName;
    StructLineNameOf("WidgetAction", " ", "");
    assert "pub struct " + "WidgetAction" + " " + "{" + "" == "pub struct WidgetAction {";
    assert WidgetDenylist[0] == "WidgetAction";
  }

  // ---------------------------------------------------------------------
  // Properties

  /** The `#[live]` properties of `view.rs`: each line the pattern names, later lines overwriting earlier ones. */
  function ViewProperties(view: SourceFile): map<string, Location> {
    LastWins(map[], view.path, Lines(view), |Lines(view)|, LivePropName)
  }

  /** The index of the first line containing `pub struct Walk`, if any. */
  function FirstWalkLine(lines: seq<string>, from: nat): (r: Option<nat>)
    requires from <= |lines|
    ensures r.Some? ==> from <= r.value < |lines| && Contains(lines[r.value], "pub struct Walk")
    ensures forall j :: from <= j < |lines| && (r.None? || j < r.value) ==> !Contains(lines[j], "pub struct Walk")
    decreases |lines| - from
  {
    if from == |lines| then None
    else if Contains(lines[from], "pub struct Walk") then Some(from)
    else FirstWalkLine(lines, from + 1)
  }

  /**
   * `find_property_locations()`: the properties of `view.rs`, then, when the
   * `cx_2d.rs` file of the draw crate exists, `width` and `height` pointed at
   * its first `pub struct Walk` line.
   */
  function PropertyLocations(view: SourceFile, walk: Option<SourceFile>): map<string, Location> {
    var props := ViewProperties(view);
    if walk.None? then props
    else
      match FirstWalkLine(Lines(walk.value), 0)
      case Some(i) =>
        props["width" := Location(walk.value.path, i + 1)]["height" := Location(walk.value.path, i + 1)]
      case None => props
  }

  method FindPropertyLocations(view: SourceFile, walk: Option<SourceFile>) returns (properties: map<string, Location>)
    ensures properties == PropertyLocations(view, walk)
  {
    properties := map[];
    var lines := Split(view.content, '\n');
    var i := 0;
    while i < |lines|
      invariant 0 <= i <= |lines|
      invariant properties == LastWins(map[], view.path, lines, i, LivePropName)
    {
      match LivePropName(lines[i]) {
        case Some(name) =>
          properties := properties[name := Location(view.path, i + 1)];
        case None =>
      }
      i := i + 1;
    }
    if walk.Some? {
      var wlines := Split(walk.value.content, '\n');
      var j := 0;
      while j < |wlines|
        invariant 0 <= j <= |wlines|
        invariant FirstWalkLine(wlines, 0) == FirstWalkLine(wlines, j)
        invariant properties == ViewProperties(view)
      {
        if Contains(wlines[j], "pub struct Walk") {
          properties := properties["width" := Location(walk.value.path, j + 1)];
          properties := properties["height" := Location(walk.value.path, j + 1)];
          break;
        }
        j := j + 1;
      }
    }
  }

  /** Every `view.rs` entry is a word named by a `#[live` line, at that line's 1-based number. */
  lemma ViewPropertiesSound(view: SourceFile, name: string)
    requires name in ViewProperties(view)
    ensures IsWord(name)
    ensures var loc := ViewProperties(view)[name];
      loc.file == view.path && 1 <= loc.line <= |Lines(view)| &&
      LivePropName(Lines(view)[loc.line - 1]) == Some(name) && Contains(Lines(view)[loc.line - 1], "#[live")
  {
    LastWinsFrom(map[], view.path, Lines(view), |Lines(view)|, LivePropName, name);
  }

  /** A property declared on several lines of `view.rs` points at the last of them. */
  lemma ViewPropertiesLastWins(view: SourceFile, i: nat, name: string)
    requires i < |Lines(view)| && LivePropName(Lines(view)[i]) == Some(name)
    requires forall j :: i < j < |Lines(view)| ==> LivePropName(Lines(view)[j]) != Some(name)
    ensures name in ViewProperties(view) && ViewProperties(view)[name] == Location(view.path, i + 1)
  {
    LastWinsLast(map[], view.path, Lines(view), |Lines(view)|, LivePropName, i, name);
  }

  /**
   * With a `pub struct Walk` line, `width` and `height` point at the first
   * such line and every other property keeps its `view.rs` location; without
   * one (or without the file) the result is the `view.rs` scan.
   */
  lemma WalkOverride(view: SourceFile, walk: Option<SourceFile>, name: string)
    ensures walk.Some? && (exists i :: 0 <= i < |Lines(walk.value)| && Contains(Lines(walk.value)[i], "pub struct Walk")) ==>
      var w := walk.value;
      var r := PropertyLocations(view, walk);
      "width" in r && "height" in r && r["width"] == r["height"] && r["width"].file == w.path &&
      1 <= r["width"].line <= |Lines(w)| && Contains(Lines(w)[r["width"].line - 1], "pub struct Walk") &&
      (forall j :: 0 <= j < r["width"].line - 1 ==> !Contains(Lines(w)[j], "pub struct Walk")) &&
      (name != "width" && name != "height" ==>
        (name in r <==> name in ViewProperties(view)) && (name in r ==> r[name] == ViewProperties(view)[name]))
    ensures (walk.None? || forall i :: 0 <= i < |Lines(walk.value)| ==> !Contains(Lines(walk.value)[i], "pub struct Walk")) ==>
      PropertyLocations(view, walk) == ViewProperties(view)
  {
    if walk.Some? {
      var first := FirstWalkLine(Lines(walk.value), 0);
      if exists i :: 0 <= i < |Lines(walk.value)| && Contains(Lines(walk.value)[i], "pub struct Walk") {
        assert first.Some?;
      }
    }
  }
}

=== FILE: line_scan.dfy ===
// The map-building line scans shared by scripts/generate_locations.py and
// src/extension.ts: each line a recognizer names is entered as
// `name -> (file, line index + 1)`, either overwriting (last write wins) or
// only when the name is new (first write wins).

module LineScan {
  import opened Text
  import opened Sources

  /** A directory listing entry: a file name and its text. */
  datatype DirEntry = DirEntry(name: string, content: string)

  /** The path of `name` inside `dir` (no normalisation). */
  function JoinPath(dir: string, name: string): string {
    dir + "/" + name
  }

  /** A name the scanners read: Python `glob("*.rs")` and JavaScript `f.endsWith('.rs')` alike. */
  predicate IsRsFile(name: string) {
    EndsWith(name, ".rs")
  }

  /** The `.rs` entries of `dir`, in listing order, each with its full path. */
  function RsFiles(dir: string, entries: seq<DirEntry>): (r: seq<SourceFile>)
    ensures |r| <= |entries|
    ensures forall f :: f in r ==> IsRsFile(f.name) && f.path == JoinPath(dir, f.name) && DirEntry(f.name, f.content) in entries
    ensures forall e :: e in entries && IsRsFile(e.name) ==> SourceFile(JoinPath(dir, e.name), e.name, e.content) in r
  {
    if entries == [] then []
    else
      var rest := RsFiles(dir, entries[1..]);
      assert forall e :: e in entries[1..] ==> e in entries;
      if IsRsFile(entries[0].name) then [SourceFile(JoinPath(dir, entries[0].name), entries[0].name, entries[0].content)] + rest
      else rest
  }

  /**
   * The listing is filtered in order: the files of two listings read one
   * after the other are those of the first, then those of the second.
   */
  lemma {:induction false} RsFilesConcat(dir: string, a: seq<DirEntry>, b: seq<DirEntry>)
    ensures RsFiles(dir, a + b) == RsFiles(dir, a) + RsFiles(dir, b)
    decreases |a|
  {
    if a == [] {
      assert a + b == b;
    } else {
      assert (a + b)[0] == a[0];
      assert (a + b)[1..] == a[1..] + b;
      RsFilesConcat(dir, a[1..], b);
    }
  }

  /** A single entry gives its file when it is a `.rs` name and nothing otherwise. */
  lemma RsFilesOne(dir: string, e: DirEntry)
    ensures RsFiles(dir, [e]) == if IsRsFile(e.name) then [SourceFile(JoinPath(dir, e.name), e.name, e.content)] else []
  {
    assert [e][1..] == [];
  }

  /** The first `n` lines entered in order; a later line naming the same key overwrites it. */
  function LastWins(m: map<string, Location>, path: string, lines: seq<string>, n: nat, rec: string -> Option<string>): map<string, Location>
    requires n <= |lines|
    decreases n
  {
    if n == 0 then m
    else
      var before := LastWins(m, path, lines, n - 1, rec);
      match rec(lines[n - 1])
      case Some(key) => before[key := Location(path, n)]
      case None => before
  }

  /** The first `n` lines entered in order; a key already present keeps its location. */
  function FirstWins(m: map<string, Location>, path: string, lines: seq<string>, n: nat, rec: string -> Option<string>): map<string, Location>
    requires n <= |lines|
    decreases n
  {
    if n == 0 then m
    else
      var before := FirstWins(m, path, lines, n - 1, rec);
      match rec(lines[n - 1])
      case Some(key) => if key in before then before else before[key := Location(path, n)]
      case None => before
  }

  /** Before any line, the scan is the starting map. */
  lemma ScanStart(m: map<string, Location>, path: string, lines: seq<string>, rec: string -> Option<string>)
    ensures LastWins(m, path, lines, 0, rec) == m && FirstWins(m, path, lines, 0, rec) == m
  {
  }

  /** One more line: entered (overwriting) when the recognizer names a key. */
  lemma LastWinsStep(m: map<string, Location>, path: string, lines: seq<string>, i: nat, rec: string -> Option<string>)
    requires i < |lines|
    ensures rec(lines[i]).Some? ==> LastWins(m, path, lines, i + 1, rec) == LastWins(m, path, lines, i, rec)[rec(lines[i]).value := Location(path, i + 1)]
    ensures rec(lines[i]).None? ==> LastWins(m, path, lines, i + 1, rec) == LastWins(m, path, lines, i, rec)
  {
  }

  /** One more line: entered when the recognizer names a key not yet present. */
  lemma FirstWinsStep(m: map<string, Location>, path: string, lines: seq<string>, i: nat, rec: string -> Option<string>)
    requires i < |lines|
    ensures rec(lines[i]).Some? && rec(lines[i]).value !in FirstWins(m, path, lines, i, rec) ==>
      FirstWins(m, path, lines, i + 1, rec) == FirstWins(m, path, lines, i, rec)[rec(lines[i]).value := Location(path, i + 1)]
    ensures rec(lines[i]).None? || rec(lines[i]).value in FirstWins(m, path, lines, i, rec) ==>
      FirstWins(m, path, lines, i + 1, rec) == FirstWins(m, path, lines, i, rec)
  {
  }

  /** A key's last naming line decides its location. */
  lemma {:induction false} LastWinsLast(m: map<string, Location>, path: string, lines: seq<string>, n: nat,
                                        rec: string -> Option<string>, i: nat, key: string)
    requires i < n <= |lines| && rec(lines[i]) == Some(key)
    requires forall j :: i < j < n ==> rec(lines[j]) != Some(key)
    ensures key in LastWins(m, path, lines, n, rec) && LastWins(m, path, lines, n, rec)[key] == Location(path, i + 1)
    decreases n
  {
    if i < n - 1 {
      LastWinsLast(m, path, lines, n - 1, rec, i, key);
    }
  }

  /** A key no line names keeps what it had. */
  lemma {:induction false} LastWinsUntouched(m: map<string, Location>, path: string, lines: seq<string>, n: nat,
                                             rec: string -> Option<string>, key: string)
    requires n <= |lines|
    requires forall j :: 0 <= j < n ==> rec(lines[j]) != Some(key)
    ensures key in LastWins(m, path, lines, n, rec) <==> key in m
    ensures key in m ==> LastWins(m, path, lines, n, rec)[key] == m[key]
    decreases n
  {
    if n > 0 {
      LastWinsUntouched(m, path, lines, n - 1, rec, key);
    }
  }

  /** Every entry was there before or comes from a line that names its key, at that line's 1-based number. */
  lemma {:induction false} LastWinsFrom(m: map<string, Location>, path: string, lines: seq<string>, n: nat,
                                        rec: string -> Option<string>, key: string)
    requires n <= |lines| && key in LastWins(m, path, lines, n, rec)
    ensures var r := LastWins(m, path, lines, n, rec);
      (key in m && r[key] == m[key]) ||
      exists i :: 0 <= i < n && rec(lines[i]) == Some(key) && r[key] == Location(path, i + 1)
    decreases n
  {
    if n > 0 && rec(lines[n - 1]) != Some(key) {
      LastWinsFrom(m, path, lines, n - 1, rec, key);
    }
  }

  /** The keys after the scan: those there before and those some scanned line names. */
  lemma {:induction false} LastWinsKeys(m: map<string, Location>, path: string, lines: seq<string>, n: nat,
                                        rec: string -> Option<string>, key: string)
    requires n <= |lines|
    ensures key in LastWins(m, path, lines, n, rec) <==> key in m || exists i :: 0 <= i < n && rec(lines[i]) == Some(key)
    decreases n
  {
    if n > 0 {
      LastWinsKeys(m, path, lines, n - 1, rec, key);
      if rec(lines[n - 1]) == Some(key) {
        assert key in LastWins(m, path, lines, n, rec);
      } else {
        assert forall i :: 0 <= i < n && rec(lines[i]) == Some(key) ==> i < n - 1;
      }
    }
  }

  /** First write wins enters the same keys as last write wins. */
  lemma {:induction false} FirstWinsKeys(m: map<string, Location>, path: string, lines: seq<string>, n: nat,
                                         rec: string -> Option<string>, key: string)
    requires n <= |lines|
    ensures key in FirstWins(m, path, lines, n, rec) <==> key in m || exists i :: 0 <= i < n && rec(lines[i]) == Some(key)
    decreases n
  {
    if n > 0 {
      FirstWinsKeys(m, path, lines, n - 1, rec, key);
      if rec(lines[n - 1]) == Some(key) {
        assert key in FirstWins(m, path, lines, n, rec);
      } else {
        assert forall i :: 0 <= i < n && rec(lines[i]) == Some(key) ==> i < n - 1;
      }
    }
  }

  /** A key already present is never overwritten. */
  lemma {:induction false} FirstWinsKeeps(m: map<string, Location>, path: string, lines: seq<string>, n: nat,
                                          rec: string -> Option<string>, key: string)
    requires n <= |lines| && key in m
    ensures key in FirstWins(m, path, lines, n, rec) && FirstWins(m, path, lines, n, rec)[key] == m[key]
    decreases n
  {
    if n > 0 {
      FirstWinsKeeps(m, path, lines, n - 1, rec, key);
    }
  }

  /** A new key takes the location of its first naming line. */
  lemma {:induction false} FirstWinsFirst(m: map<string, Location>, path: string, lines: seq<string>, n: nat,
                                          rec: string -> Option<string>, i: nat, key: string)
    requires i < n <= |lines| && key !in m && rec(lines[i]) == Some(key)
    requires forall j :: 0 <= j < i ==> rec(lines[j]) != Some(key)
    ensures key in FirstWins(m, path, lines, n, rec) && FirstWins(m, path, lines, n, rec)[key] == Location(path, i + 1)
    decreases n
  {
    if i < n - 1 {
      FirstWinsFirst(m, path, lines, n - 1, rec, i, key);
    } else {
      FirstWinsAbsent(m, path, lines, i, rec, key);
    }
  }

  /** Before its first naming line a new key is absent. */
  lemma {:induction false} FirstWinsAbsent(m: map<string, Location>, path: string, lines: seq<string>, n: nat,
                                           rec: string -> Option<string>, key: string)
    requires n <= |lines| && key !in m
    requires forall j :: 0 <= j < n ==> rec(lines[j]) != Some(key)
    ensures key !in FirstWins(m, path, lines, n, rec)
    decreases n
  {
    if n > 0 {
      FirstWinsAbsent(m, path, lines, n - 1, rec, key);
    }
  }

  /** Every entry was there before or comes from a line that names its key. */
  lemma {:induction false} FirstWinsFrom(m: map<string, Location>, path: string, lines: seq<string>, n: nat,
                                         rec: string -> Option<string>, key: string)
    requires n <= |lines| && key in FirstWins(m, path, lines, n, rec)
    ensures var r := FirstWins(m, path, lines, n, rec);
      (key in m && r[key] == m[key]) ||
      exists i :: 0 <= i < n && rec(lines[i]) == Some(key) && r[key] == Location(path, i + 1)
    decreases n
  {
    if n > 0 {
      var before := FirstWins(m, path, lines, n - 1, rec);
      if key in before {
        FirstWinsFrom(m, path, lines, n - 1, rec, key);
      }
    }
  }

  // ---------------------------------------------------------------------
  // Over several files, in the order they are read.

  function LastWinsFiles(m: map<string, Location>, files: seq<SourceFile>, rec: string -> Option<string>): map<string, Location>
    decreases |files|
  {
    if files == [] then m
    else
      var f := files[|files| - 1];
      LastWins(LastWinsFiles(m, files[..|files| - 1], rec), f.path, Lines(f), |Lines(f)|, rec)
  }

  function FirstWinsFiles(m: map<string, Location>, files: seq<SourceFile>, rec: string -> Option<string>): map<string, Location>
    decreases |files|
  {
    if files == [] then m
    else
      var f := files[|files| - 1];
      FirstWins(FirstWinsFiles(m, files[..|files| - 1], rec), f.path, Lines(f), |Lines(f)|, rec)
  }

  lemma LastWinsFilesUnfold(m: map<string, Location>, files: seq<SourceFile>, rec: string -> Option<string>)
    ensures files == [] ==> LastWinsFiles(m, files, rec) == m
    ensures files != [] ==>
              LastWinsFiles(m, files, rec) ==
              LastWins(LastWinsFiles(m, files[..|files| - 1], rec), files[|files| - 1].path, Lines(files[|files| - 1]), |Lines(files[|files| - 1])|, rec)
  {
  }

  lemma FirstWinsFilesUnfold(m: map<string, Location>, files: seq<SourceFile>, rec: string -> Option<string>)
    ensures files == [] ==> FirstWinsFiles(m, files, rec) == m
    ensures files != [] ==>
              FirstWinsFiles(m, files, rec) ==
              FirstWins(FirstWinsFiles(m, files[..|files| - 1], rec), files[|files| - 1].path, Lines(files[|files| - 1]), |Lines(files[|files| - 1])|, rec)
  {
  }

  /** Line `i` of file `k` names `key`. */
  predicate NamesAt(files: seq<SourceFile>, rec: string -> Option<string>, k: nat, i: nat, key: string) {
    k < |files| && i < |Lines(files[k])| && rec(Lines(files[k])[i]) == Some(key)
  }

  /** No line of file `k` names `key`. */
  predicate Silent(files: seq<SourceFile>, rec: string -> Option<string>, k: nat, key: string)
    requires k < |files|
  {
    forall i :: 0 <= i < |Lines(files[k])| ==> rec(Lines(files[k])[i]) != Some(key)
  }

  lemma LastWinsFilesStep(m: map<string, Location>, files: seq<SourceFile>, rec: string -> Option<string>, n: nat)
    requires n < |files|
    ensures LastWinsFiles(m, files[..n + 1], rec) == LastWins(LastWinsFiles(m, files[..n], rec), files[n].path, Lines(files[n]), |Lines(files[n])|, rec)
  {
    assert files[..n + 1][..n] == files[..n];
  }

  lemma FirstWinsFilesStep(m: map<string, Location>, files: seq<SourceFile>, rec: string -> Option<string>, n: nat)
    requires n < |files|
    ensures FirstWinsFiles(m, files[..n + 1], rec) == FirstWins(FirstWinsFiles(m, files[..n], rec), files[n].path, Lines(files[n]), |Lines(files[n])|, rec)
  {
    assert files[..n + 1][..n] == files[..n];
  }

  /** Every entry of a scan from nothing points at a line that names its key: a 1-based line number within its file. */
  lemma {:induction false} LastWinsFilesFrom(files: seq<SourceFile>, rec: string -> Option<string>, key: string)
    requires key in LastWinsFiles(map[], files, rec)
    ensures exists k: nat, i: nat :: NamesAt(files, rec, k, i, key) && LastWinsFiles(map[], files, rec)[key] == Location(files[k].path, i + 1)
    decreases |files|
  {
    hide LastWins, LastWinsFiles;
    LastWinsFilesUnfold(map[], files, rec);
    var init := files[..|files| - 1];
    var f := files[|files| - 1];
    var before := LastWinsFiles(map[], init, rec);
    LastWinsFrom(before, f.path, Lines(f), |Lines(f)|, rec, key);
    var r := LastWinsFiles(map[], files, rec);
    if key in before && r[key] == before[key] {
      LastWinsFilesFrom(init, rec, key);
      var k: nat, i: nat :| NamesAt(init, rec, k, i, key) && before[key] == Location(init[k].path, i + 1);
      assert init[k] == files[k];
      assert NamesAt(files, rec, k, i, key);
    } else {
      var i :| 0 <= i < |Lines(f)| && rec(Lines(f)[i]) == Some(key) && r[key] == Location(f.path, i + 1);
      assert NamesAt(files, rec, |files| - 1, i, key);
    }
  }

  /** With last write wins, the last naming line of the last file that names a key decides its location. */
  lemma {:induction false} LastWinsFilesLast(files: seq<SourceFile>, rec: string -> Option<string>, k: nat, i: nat, key: string)
    requires NamesAt(files, rec, k, i, key)
    requires forall j :: i < j < |Lines(files[k])| ==> rec(Lines(files[k])[j]) != Some(key)
    requires forall k' :: k < k' < |files| ==> Silent(files, rec, k', key)
    ensures key in LastWinsFiles(map[], files, rec) && LastWinsFiles(map[], files, rec)[key] == Location(files[k].path, i + 1)
    decreases |files|
  {
    hide LastWins, LastWinsFiles;
    LastWinsFilesUnfold(map[], files, rec);
    var init := files[..|files| - 1];
    var f := files[|files| - 1];
    var before := LastWinsFiles(map[], init, rec);
    if k == |files| - 1 {
      LastWinsLast(before, f.path, Lines(f), |Lines(f)|, rec, i, key);
    } else {
      assert init[k] == files[k];
      forall k' | k < k' < |init| ensures Silent(init, rec, k', key) {
        assert init[k'] == files[k'];
        assert Silent(files, rec, k', key);
      }
      LastWinsFilesLast(init, rec, k, i, key);
      assert Silent(files, rec, |files| - 1, key);
      LastWinsUntouched(before, f.path, Lines(f), |Lines(f)|, rec, key);
    }
  }

  /** Every entry of a first-wins scan from nothing points at a line that names its key. */
  lemma {:induction false} FirstWinsFilesFrom(files: seq<SourceFile>, rec: string -> Option<string>, key: string)
    requires key in FirstWinsFiles(map[], files, rec)
    ensures exists k: nat, i: nat :: NamesAt(files, rec, k, i, key) && FirstWinsFiles(map[], files, rec)[key] == Location(files[k].path, i + 1)
    decreases |files|
  {
    hide FirstWins, FirstWinsFiles;
    FirstWinsFilesUnfold(map[], files, rec);
    var init := files[..|files| - 1];
    var f := files[|files| - 1];
    var before := FirstWinsFiles(map[], init, rec);
    FirstWinsFrom(before, f.path, Lines(f), |Lines(f)|, rec, key);
    var r := FirstWinsFiles(map[], files, rec);
    if key in before && r[key] == before[key] {
      FirstWinsFilesFrom(init, rec, key);
      var k: nat, i: nat :| NamesAt(init, rec, k, i, key) && before[key] == Location(init[k].path, i + 1);
      assert init[k] == files[k];
      assert NamesAt(files, rec, k, i, key);
    } else {
      var i :| 0 <= i < |Lines(f)| && rec(Lines(f)[i]) == Some(key) && r[key] == Location(f.path, i + 1);
      assert NamesAt(files, rec, |files| - 1, i, key);
    }
  }

  /** With first write wins, the first naming line of the first file that names a key decides its location. */
  lemma {:induction false} FirstWinsFilesFirst(files: seq<SourceFile>, rec: string -> Option<string>, k: nat, i: nat, key: string)
    requires NamesAt(files, rec, k, i, key)
    requires forall j :: 0 <= j < i ==> rec(Lines(files[k])[j]) != Some(key)
    requires forall k' :: 0 <= k' < k ==> Silent(files, rec, k', key)
    ensures key in FirstWinsFiles(map[], files, rec) && FirstWinsFiles(map[], files, rec)[key] == Location(files[k].path, i + 1)
    decreases |files|
  {
    hide FirstWins, FirstWinsFiles;
    FirstWinsFilesUnfold(map[], files, rec);
    var init := files[..|files| - 1];
    var f := files[|files| - 1];
    var before := FirstWinsFiles(map[], init, rec);
    if k == |files| - 1 {
      forall k' | 0 <= k' < |init| ensures Silent(init, rec, k', key) {
        assert init[k'] == files[k'];
        assert Silent(files, rec, k', key);
      }
      FirstWinsFilesAbsent(init, rec, key);
      FirstWinsFirst(before, f.path, Lines(f), |Lines(f)|, rec, i, key);
    } else {
      assert init[k] == files[k];
      forall k' | 0 <= k' < k ensures Silent(init, rec, k', key) {
        assert init[k'] == files[k'];
        assert Silent(files, rec, k', key);
      }
      FirstWinsFilesFirst(init, rec, k, i, key);
      FirstWinsKeeps(before, f.path, Lines(f), |Lines(f)|, rec, key);
    }
  }

  /** A key no file names is absent from a first-wins scan from nothing. */
  lemma {:induction false} FirstWinsFilesAbsent(files: seq<SourceFile>, rec: string -> Option<string>, key: string)
    requires forall k :: 0 <= k < |files| ==> Silent(files, rec, k, key)
    ensures key !in FirstWinsFiles(map[], files, rec)
    decreases |files|
  {
    if files != [] {
      var init := files[..|files| - 1];
      var f := files[|files| - 1];
      forall k | 0 <= k < |init| ensures Silent(init, rec, k, key) {
        assert init[k] == files[k];
        assert Silent(files, rec, k, key);
      }
      FirstWinsFilesAbsent(init, rec, key);
      assert Silent(files, rec, |files| - 1, key);
      FirstWinsAbsent(FirstWinsFiles(map[], init, rec), f.path, Lines(f), |Lines(f)|, rec, key);
    }
  }

  /** A scan from nothing holds exactly the keys some line of some file names. */
  lemma {:induction false} LastWinsFilesKeys(files: seq<SourceFile>, rec: string -> Option<string>, key: string)
    ensures key in LastWinsFiles(map[], files, rec) <==> exists k: nat, i: nat :: NamesAt(files, rec, k, i, key)
    decreases |files|
  {
    hide LastWins, LastWinsFiles;
    LastWinsFilesUnfold(map[], files, rec);
    if files != [] {
      var init := files[..|files| - 1];
      var f := files[|files| - 1];
      LastWinsFilesKeys(init, rec, key);
      LastWinsKeys(LastWinsFiles(map[], init, rec), f.path, Lines(f), |Lines(f)|, rec, key);
      FilesNamesSnoc(files, rec, key);
    }
  }

  /** A first-wins scan from nothing holds exactly the keys some line of some file names. */
  lemma {:induction false} FirstWinsFilesKeys(files: seq<SourceFile>, rec: string -> Option<string>, key: string)
    ensures key in FirstWinsFiles(map[], files, rec) <==> exists k: nat, i: nat :: NamesAt(files, rec, k, i, key)
    decreases |files|
  {
    hide FirstWins, FirstWinsFiles;
    FirstWinsFilesUnfold(map[], files, rec);
    if files != [] {
      var init := files[..|files| - 1];
      var f := files[|files| - 1];
      FirstWinsFilesKeys(init, rec, key);
      FirstWinsKeys(FirstWinsFiles(map[], init, rec), f.path, Lines(f), |Lines(f)|, rec, key);
      FilesNamesSnoc(files, rec, key);
    }
  }

  /** A key is named in the files when it is named in all but the last, or in the last. */
  lemma FilesNamesSnoc(files: seq<SourceFile>, rec: string -> Option<string>, key: string)
    requires files != []
    ensures var init := files[..|files| - 1]; var f := files[|files| - 1];
      (exists k: nat, i: nat :: NamesAt(files, rec, k, i, key)) <==>
      (exists k: nat, i: nat :: NamesAt(init, rec, k, i, key)) || exists i :: 0 <= i < |Lines(f)| && rec(Lines(f)[i]) == Some(key)
  {
    var init := files[..|files| - 1];
    var f := files[|files| - 1];
    if exists k: nat, i: nat :: NamesAt(files, rec, k, i, key) {
      var k: nat, i: nat :| NamesAt(files, rec, k, i, key);
      if k < |init| {
        assert init[k] == files[k];
        assert NamesAt(init, rec, k, i, key);
      }
    }
    if exists k: nat, i: nat :: NamesAt(init, rec, k, i, key) {
      var k: nat, i: nat :| NamesAt(init, rec, k, i, key);
      assert init[k] == files[k];
      assert NamesAt(files, rec, k, i, key);
    }
    if exists i :: 0 <= i < |Lines(f)| && rec(Lines(f)[i]) == Some(key) {
      var i :| 0 <= i < |Lines(f)| && rec(Lines(f)[i]) == Some(key);
      assert NamesAt(files, rec, |files| - 1, i, key);
    }
  }

  /** Both policies enter the same keys; they differ only in which line a repeated key points at. */
  lemma SameKeys(files: seq<SourceFile>, rec: string -> Option<string>)
    ensures LastWinsFiles(map[], files, rec).Keys == FirstWinsFiles(map[], files, rec).Keys
  {
    forall key | true ensures key in LastWinsFiles(map[], files, rec) <==> key in FirstWinsFiles(map[], files, rec) {
      LastWinsFilesKeys(files, rec, key);
      FirstWinsFilesKeys(files, rec, key);
    }
  }
}

=== FILE: patterns.dfy ===
/**
 * The fixed line patterns that the location scanners share, written as
 * recognizers, and the rules that keep internal types out of every catalog.
 *
 * Each recognizer follows what the regular-expression engine does with the
 * pattern, backtracking included; where backtracking cannot change the outcome
 * the recognizer is a single greedy pass.
 */
module Patterns {
  import opened Text

  /** `(\w+):` at index `b`: the name and the index just past the colon. */
  function WordColon(s: string, b: nat): (r: Option<(string, nat)>)
    requires b <= |s|
    ensures r.Some? ==> IsWord(r.value.0) && b < r.value.1 <= |s|
  {
    var n := WordEnd(s, b);
    if n > b && n < |s| && s[n] == ':' then Some((s[b..n], n + 1)) else None
  }

  /**
   * `\s*(?:pub\s+)?(\w+):` anchored at index `i`. When `pub` and whitespace
   * are present the name must follow them; the engine's fallback (reading
   * `pub` itself as the name) cannot succeed, because a colon would have to
   * follow `pub` directly.
   */
  function NameColon(s: string, i: nat): (r: Option<(string, nat)>)
    requires i <= |s|
    ensures r.Some? ==> IsWord(r.value.0) && i < r.value.1 <= |s|
  {
    var a := SpaceEnd(s, i);
    if At(s, a, "pub") && a + 3 < |s| && IsSpace(s[a + 3]) then WordColon(s, SpaceEnd(s, a + 3))
    else WordColon(s, a)
  }

  /** The text that `NameColon` reads, spelled out: whitespace, an optional `pub` and gap, a name, a colon. */
  function NameColonText(lead: string, isPub: bool, gap: string, name: string): string {
    lead + (if isPub then "pub" + gap else "") + name + ":"
  }

  /** `WordColon` finds a name that is written at `b` and followed by a colon. */
  lemma WordColonAt(s: string, b: nat, name: string)
    requires IsWord(name) && At(s, b, name + ":")
    ensures WordColon(s, b) == Some((name, b + |name| + 1))
  {
    AtConcat(s, b, name, ":");
    assert s[b + |name| + 0] == ":"[0];
    WordEndOver(s, b, name);
  }

  /** `NameColon` reads back exactly the name that was written at `i`, whatever follows it. */
  lemma NameColonOf(s: string, i: nat, lead: string, isPub: bool, gap: string, name: string)
    requires AllSpace(lead) && AllSpace(gap) && (isPub <==> |gap| > 0) && IsWord(name)
    requires At(s, i, NameColonText(lead, isPub, gap, name))
    ensures NameColon(s, i) == Some((name, i + |NameColonText(lead, isPub, gap, name)|))
  {
    if isPub {
      assert NameColonText(lead, isPub, gap, name) == lead + ("pub" + gap + (name + ":"));
      AtConcat(s, i, lead, "pub" + gap + (name + ":"));
      NameColonPubAt(s, i, lead, gap, name);
    } else {
      assert NameColonText(lead, isPub, gap, name) == lead + (name + ":");
      AtConcat(s, i, lead, name + ":");
      NameColonPlainAt(s, i, lead, name);
    }
  }

  lemma NameColonPubAt(s: string, i: nat, lead: string, gap: string, name: string)
    requires AllSpace(lead) && AllSpace(gap) && |gap| > 0 && IsWord(name)
    requires At(s, i, lead) && At(s, i + |lead|, "pub" + gap + (name + ":"))
    ensures NameColon(s, i) == Some((name, i + |lead| + 3 + |gap| + |name| + 1))
  {
    var a := i + |lead|;
    var b := a + 3 + |gap|;
    AtConcat(s, a, "pub" + gap, name + ":");
    AtConcat(s, a, "pub", gap);
    AtConcat(s, b, name, ":");
    assert s[a + 0] == "pub"[0];
    SpaceEndOver(s, i, lead);
    assert s[a + 3 + 0] == gap[0];
    assert s[b + 0] == name[0];
    SpaceEndOver(s, a + 3, gap);
    WordColonAt(s, b, name);
  }

  lemma NameColonPlainAt(s: string, i: nat, lead: string, name: string)
    requires AllSpace(lead) && IsWord(name)
    requires At(s, i, lead) && At(s, i + |lead|, name + ":")
    ensures NameColon(s, i) == Some((name, i + |lead| + |name| + 1))
  {
    var a := i + |lead|;
    AtConcat(s, a, name, ":");
    assert s[a + 0] == name[0];
    SpaceEndOver(s, i, lead);
    NotPubPrefix(s, a, name);
    WordColonAt(s, a, name);
  }

  /** A name followed directly by a colon is not the `pub` keyword and its gap. */
  lemma NotPubPrefix(s: string, a: nat, name: string)
    requires IsWord(name) && At(s, a, name + ":")
    ensures !(At(s, a, "pub") && a + 3 < |s| && IsSpace(s[a + 3]))
  {
    var w := name + ":";
    if |name| >= 4 {
      assert s[a + 3] == w[3] == name[3];
      assert IsWordChar(name[3]);
    } else if |name| == 3 {
      assert s[a + 3] == w[3] == ':';
    } else {
      assert s[a + |name|] == w[|name|] == ':';
      assert "pub"[|name|] != ':';
    }
  }

  /**
   * `^pub struct (\w+)\s*\{` on one line (Python `re.match`, JavaScript
   * `line.match` with `^`): the declared name. Indented lines and
   * `pub(crate) struct` lines declare nothing.
   */
  function StructLineName(line: string): (r: Option<string>)
    ensures r.Some? ==> IsWord(r.value) && StartsWith(line, "pub struct " + r.value)
    ensures r.Some? ==> exists gap, rest :: AllSpace(gap) && line == "pub struct " + r.value + gap + "{" + rest
  {
    if !StartsWith(line, "pub struct ") then None
    else
      var n := WordEnd(line, 11);
      var b := SpaceEnd(line, n);
      if n > 11 && b < |line| && line[b] == '{' then
        assert forall j :: 0 <= j < n ==> line[0 + j] == ("pub struct " + line[11..n])[j];
        StructLineLayout(line, n, b);
        Some(line[11..n])
      else None
  }

  /** A `pub struct ` line cut at the end of the name and at the brace. */
  lemma StructLineLayout(line: string, n: nat, b: nat)
    requires StartsWith(line, "pub struct ") && 11 <= n <= b < |line| && line[b] == '{'
    requires forall j :: n <= j < b ==> IsSpace(line[j])
    ensures AllSpace(line[n..b])
    ensures line == "pub struct " + line[11..n] + line[n..b] + "{" + line[b + 1..]
  {
    assert forall j :: 0 <= j < b - n ==> line[n..b][j] == line[n + j];
    assert forall j :: 0 <= j < 11 ==> line[..11][j] == "pub struct "[j] by {
      forall j | 0 <= j < 11 ensures line[..11][j] == "pub struct "[j] {
        assert line[0 + j] == "pub struct "[j];
      }
    }
    assert line[..11] == "pub struct ";
    assert line == line[..11] + line[11..n] + line[n..b] + [line[b]] + line[b + 1..];
  }

  /** A line of the form `pub struct <Name><whitespace>{...}` declares exactly `Name`. */
  lemma StructLineNameOf(name: string, gap: string, rest: string)
    requires IsWord(name) && AllSpace(gap)
    ensures StructLineName("pub struct " + name + gap + "{" + rest) == Some(name)
  {
    var line := "pub struct " + name + gap + "{" + rest;
    var n := 11 + |name|;
    var b := n + |gap|;
    assert forall j :: 0 <= j < 11 ==> line[0 + j] == "pub struct "[j];
    assert forall j :: 11 <= j < n ==> line[j] == name[j - 11];
    assert forall j :: n <= j < b ==> line[j] == gap[j - n];
    assert line[b] == '{';
    WordEndOf(line, 11, n);
    SpaceEndOf(line, n, b);
    assert line[11..n] == name;
  }

  /** A line that does not start with `pub struct ` declares nothing. */
  lemma StructLineNameNeedsPrefix(line: string)
    requires !StartsWith(line, "pub struct ")
    ensures StructLineName(line) == None
  {
  }

  /** `.*?\]\s*(?:pub\s+)?(\w+):` from index `q`: the lazy `.*?` tries every `]` from left to right. */
  function LazyClose(s: string, q: nat): (r: Option<string>)
    ensures r.Some? ==> IsWord(r.value)
    decreases |s| - q
  {
    if q >= |s| then None
    else if s[q] == ']' && NameColon(s, q + 1).Some? then Some(NameColon(s, q + 1).value.0)
    else LazyClose(s, q + 1)
  }

  /** `#\[live.*?\]\s*(?:pub\s+)?(\w+):` anchored at index `i`. */
  function LiveNameAt(s: string, i: nat): (r: Option<string>)
    ensures r.Some? ==> IsWord(r.value) && At(s, i, "#[live")
  {
    if At(s, i, "#[live") then LazyClose(s, i + 6) else None
  }

  /** Leftmost match of that pattern at or after index `i`. */
  function LiveNameFrom(s: string, i: nat): (r: Option<string>)
    ensures r.Some? ==> IsWord(r.value) && Contains(s, "#[live")
    decreases |s| - i
  {
    if i >= |s| then None
    else if LiveNameAt(s, i).Some? then LiveNameAt(s, i)
    else LiveNameFrom(s, i + 1)
  }

  /** Python `re.search` / JavaScript `line.match` of the property-line pattern: the name at the leftmost match. */
  function LivePropName(line: string): (r: Option<string>)
    ensures r.Some? ==> IsWord(r.value) && Contains(line, "#[live")
  {
    LiveNameFrom(line, 0)
  }

  lemma {:induction false} LazyCloseSkips(s: string, q: nat, q': nat)
    requires q <= q' <= |s|
    requires forall j :: q <= j < q' ==> s[j] != ']'
    ensures LazyClose(s, q) == LazyClose(s, q')
    decreases q' - q
  {
    if q < q' {
      assert s[q] != ']';
      LazyCloseSkips(s, q + 1, q');
    }
  }

  lemma {:induction false} LiveNameSkips(s: string, i: nat, k: nat)
    requires i <= k <= |s|
    requires forall j :: i <= j < k ==> s[j] != '#'
    ensures LiveNameFrom(s, i) == LiveNameFrom(s, k)
    decreases k - i
  {
    if i < k {
      assert s[i + 0] != "#[live"[0];
      assert LiveNameAt(s, i) == None;
      LiveNameSkips(s, i + 1, k);
    }
  }

  /** A `#[live` at `k` whose first `]` is at `q` and is followed by a field name and colon matches with that name. */
  lemma LiveNameAtOf(s: string, k: nat, q: nat, lead: string, isPub: bool, gap: string, name: string)
    requires At(s, k, "#[live") && k + 6 <= q < |s| && s[q] == ']'
    requires forall j :: k + 6 <= j < q ==> s[j] != ']'
    requires AllSpace(lead) && AllSpace(gap) && (isPub <==> |gap| > 0) && IsWord(name)
    requires At(s, q + 1, NameColonText(lead, isPub, gap, name))
    ensures LiveNameAt(s, k) == Some(name)
  {
    LazyCloseSkips(s, k + 6, q);
    NameColonOf(s, q + 1, lead, isPub, gap, name);
  }

  /** A match at `k` with no `#` before it is the leftmost one. */
  lemma LivePropNameAt(s: string, k: nat, name: string)
    requires k <= |s| && forall j :: 0 <= j < k ==> s[j] != '#'
    requires LiveNameAt(s, k) == Some(name)
    ensures LivePropName(s) == Some(name)
  {
    LiveNameSkips(s, 0, k);
  }

  /** Where the parts of `before + "#[live" + args + "]"` sit. */
  lemma LiveAttrLayout(x: string, before: string, args: string)
    requires x == before + "#[live" + args + "]"
    requires '#' !in before && ']' !in args
    ensures At(x, |before|, "#[live") && x[|before| + 6 + |args|] == ']' && |x| == |before| + 7 + |args|
    ensures forall j :: 0 <= j < |before| ==> x[j] != '#'
    ensures forall j :: |before| + 6 <= j < |before| + 6 + |args| ==> x[j] != ']'
  {
    var k := |before|;
    forall j | 0 <= j < k ensures x[j] != '#' {
      assert x[j] == before[j] && before[j] in before;
    }
    forall j | k + 6 <= j < k + 6 + |args| ensures x[j] != ']' {
      assert x[j] == args[j - k - 6] && args[j - k - 6] in args;
    }
    assert forall j :: 0 <= j < 6 ==> x[k + j] == "#[live"[j];
  }

  /** Where the parts of `before + "#[live" + args + "]" + t + rest` sit. */
  lemma LiveLineLayout(s: string, before: string, args: string, t: string, rest: string)
    requires s == before + "#[live" + args + "]" + t + rest
    requires '#' !in before && ']' !in args
    ensures At(s, |before|, "#[live") && s[|before| + 6 + |args|] == ']'
    ensures forall j :: 0 <= j < |before| ==> s[j] != '#'
    ensures forall j :: |before| + 6 <= j < |before| + 6 + |args| ==> s[j] != ']'
    ensures At(s, |before| + 7 + |args|, t)
  {
    var x := before + "#[live" + args + "]";
    LiveAttrLayout(x, before, args);
    assert s == x + (t + rest);
    assert forall j :: 0 <= j < |x| ==> s[j] == x[j];
    assert forall j :: 0 <= j < |t| ==> s[|x| + j] == t[j];
    assert At(s, |before|, "#[live") by {
      forall j | 0 <= j < 6 ensures s[|before| + j] == "#[live"[j] {
        assert x[|before| + j] == "#[live"[j];
      }
    }
  }

  /**
   * The property-line pattern reads back the field name after a `#[live...]`
   * attribute whose arguments hold no `]`, whatever text without `#` stands
   * before the attribute and whatever follows the colon.
   */
  lemma LivePropNameOf(before: string, args: string, lead: string, isPub: bool, gap: string,
                       name: string, rest: string)
    requires '#' !in before && ']' !in args
    requires AllSpace(lead) && AllSpace(gap) && (isPub <==> |gap| > 0) && IsWord(name)
    ensures LivePropName(before + "#[live" + args + "]" + NameColonText(lead, isPub, gap, name) + rest) == Some(name)
  {
    var t := NameColonText(lead, isPub, gap, name);
    var s := before + "#[live" + args + "]" + t + rest;
    LiveLineLayout(s, before, args, t, rest);
    LiveNameAtOf(s, |before|, |before| + 6 + |args|, lead, isPub, gap, name);
    LivePropNameAt(s, |before|, name);
  }

  /** The internal types every scanner skips: `Draw*`, `*Ref` and `*Set`. */
  predicate IsInternalType(name: string) {
    StartsWith(name, "Draw") || EndsWith(name, "Ref") || EndsWith(name, "Set")
  }

  /** The four widget-machinery names the two scripts also skip. */
  const WidgetDenylist: seq<string> := ["WidgetAction", "WidgetActionData", "WidgetUid", "WidgetRegistry"]

  /** The scripts' skip rule: an internal type or a denylisted name. */
  predicate IsSkippedWidget(name: string) {
    IsInternalType(name) || name in WidgetDenylist
  }
}

=== FILE: snippets.dfy ===
// The VS Code snippet table built by scripts/extract_widgets.py: one snippet per
// common widget of the catalog, then the hand-authored tables merged over it.

module Snippets {
  import opened Text
  import opened ExtractWidgets

  /** A snippet entry: trigger prefix, body lines and description. */
  datatype Snippet = Snippet(prefix: string, body: seq<string>, description: string)

  /** The widgets that get a snippet. */
  const CommonWidgets: seq<string> := [
    "View", "Button", "Label", "Image", "TextInput", "CheckBox",
    "Slider", "DropDown", "ScrollBars", "PortalList", "Window",
    "Root", "RadioButton", "FoldButton", "Icon", "Html", "Markdown",
    "Video", "Splitter", "TabBar", "StackNavigation", "Modal",
    "Tooltip", "ExpandablePanel", "ColorPicker", "FileTree"
  ]

  predicate IsCommonWidget(name: string) {
    name in CommonWidgets
  }

  /** The widgets whose snippet carries a property template. */
  predicate IsTemplated(name: string) {
    name in ["View", "Button", "Label", "Image", "TextInput", "CheckBox", "Slider", "PortalList"]
  }

  /** The lines between the opening line and the closing `}`. */
  function TemplateLines(name: string): (lines: seq<string>)
    ensures |lines| >= 1
    ensures !IsTemplated(name) ==> lines == ["    $0"]
  {
    if !IsTemplated(name) then ["    $0"]
    else if name == "View" then [
      "    width: ${2|Fill,Fit,100|}",
      "    height: ${3|Fill,Fit,100|}",
      "    flow: ${4|Down,Right,Overlay,RightWrap|}",
      "    $0"]
    else if name == "Button" then [
      "    text: \"${2:Button Text}\"",
      "    $0"]
    else if name == "Label" then [
      "    text: \"${2:Label Text}\"",
      "    draw_text: {",
      "        color: ${3:#fff}",
      "        text_style: {font_size: ${4:14.0}}",
      "    }",
      "    $0"]
    else if name == "Image" then [
      "    width: ${2|Fill,Fit,100|}",
      "    height: ${3|Fill,Fit,100|}",
      "    fit: ${4|Centered,Smallest,Biggest,Stretch,Size|}",
      "    $0"]
    else if name == "TextInput" then [
      "    width: ${2:200.0}",
      "    empty_text: \"${3:Enter text...}\"",
      "    $0"]
    else if name == "CheckBox" then [
      "    text: \"${2:Checkbox Label}\"",
      "    $0"]
    else if name == "Slider" then [
      "    width: ${2:150.0}",
      "    min: ${3:0.0}",
      "    max: ${4:100.0}",
      "    step: ${5:1.0}",
      "    $0"]
    else if name == "PortalList" then [
      "    flow: ${2|Down,Right|}",
      "    spacing: ${3:5}",
      "    ${4:item_template} = <View> {",
      "        width: ${5|Fill,100|}",
      "        height: ${6|Fit,100|}",
      "        $0",
      "    }"]
    else [
      "    $0"]
  }

  /** The text in front of the `<` of a snippet's first line. */
  function OpeningLead(name: string): string {
    "${1:" + Lower(name) + "_name} = "
  }

  /** The first body line: `${1:<lower>_name} = <Name> {`. */
  function OpeningLine(name: string): string {
    OpeningLead(name) + "<" + name + "> {"
  }

  /** The description: the doc comment, or a generic one when there is none. */
  function Description(w: Widget): (d: string)
    ensures w.doc != [] ==> d == w.doc
    ensures w.doc == [] ==> d == "Makepad " + w.name + " widget"
  {
    if w.doc != [] then w.doc else "Makepad " + w.name + " widget"
  }

  /** `generate_widget_snippet`: prefix, opening line, template, closing brace, description. */
  function WidgetSnippet(w: Widget): Snippet {
    Snippet("mp" + Lower(w.name), [OpeningLine(w.name)] + TemplateLines(w.name) + ["}"], Description(w))
  }

  /** The shape every widget snippet has. */
  lemma WidgetSnippetShape(w: Widget)
    ensures var sn := WidgetSnippet(w);
      && sn.prefix == "mp" + Lower(w.name)
      && |sn.body| >= 3 && sn.body[0] == OpeningLine(w.name) && sn.body[|sn.body| - 1] == "}"
      && (!IsTemplated(w.name) ==> |sn.body| == 3)
      && (w.doc != [] ==> sn.description == w.doc)
      && (w.doc == [] ==> sn.description == "Makepad " + w.name + " widget")
  {
  }

  /** `generate_widget_snippet` as written: the body list is started and then extended. */
  method GenerateWidgetSnippet(w: Widget) returns (sn: Snippet)
    ensures sn == WidgetSnippet(w)
  {
    var prefix := "mp" + Lower(w.name);
    var bodyLines := [OpeningLine(w.name)];
    bodyLines := bodyLines + TemplateLines(w.name);
    bodyLines := bodyLines + ["}"];
    var description := if w.doc != [] then w.doc else "Makepad " + w.name + " widget";
    sn := Snippet(prefix, bodyLines, description);
  }

  /** The widget name a snippet's first line instantiates: the text between the first `<` and the next `>`. */
  function InstantiatedName(line: string): (r: Option<string>)
    ensures r.Some? ==> '<' in line && |r.value| < |line|
  {
    var i := IndexFrom(line, 0, '<');
    if i == |line| then None
    else
      var k := IndexFrom(line, i + 1, '>');
      if k == |line| then None
      else
        Some(line[i + 1..k])
  }

  /** The text in front of the `<` holds no `<`. */
  lemma OpeningLeadHasNoAngle(name: string)
    requires IsWord(name)
    ensures forall j :: 0 <= j < |OpeningLead(name)| ==> OpeningLead(name)[j] != '<'
  {
    var lower := Lower(name);
    var lead := OpeningLead(name);
    forall j | 0 <= j < |lead| ensures lead[j] != '<' {
      if j < 4 {
        assert lead[j] == "${1:"[j];
      } else if j < 4 + |lower| {
        assert lead[j] == lower[j - 4];
        assert IsWordChar(name[j - 4]);
      } else {
        assert lead[j] == "_name} = "[j - 4 - |lower|];
      }
    }
  }

  /** A line `lead<name> {` whose lead holds no `<` instantiates `name`. */
  lemma InstantiatedNameOf(lead: string, name: string)
    requires forall j :: 0 <= j < |lead| ==> lead[j] != '<'
    requires IsWord(name)
    ensures InstantiatedName(lead + ("<" + (name + "> {"))) == Some(name)
  {
    var line := lead + ("<" + (name + "> {"));
    assert forall j :: 0 <= j < |lead| ==> line[j] == lead[j];
    assert line[|lead|] == '<';
    IndexFromOf(line, 0, |lead|, '<');
    var k := |lead| + 1 + |name|;
    forall j | |lead| + 1 <= j < k ensures line[j] != '>' {
      assert line[j] == name[j - |lead| - 1];
      assert IsWordChar(name[j - |lead| - 1]);
    }
    assert line[k] == '>';
    IndexFromOf(line, |lead| + 1, k, '>');
    assert line[|lead| + 1..k] == name;
  }

  lemma OpeningLineIs(w: Widget)
    ensures WidgetSnippet(w).body[0] == OpeningLead(w.name) + ("<" + (w.name + "> {"))
  {
  }

  /** The first line of a widget's snippet instantiates exactly that widget. */
  lemma SnippetInstantiatesWidget(w: Widget)
    requires IsWord(w.name)
    ensures InstantiatedName(WidgetSnippet(w).body[0]) == Some(w.name)
  {
    hide *;
    OpeningLineIs(w);
    OpeningLeadHasNoAngle(w.name);
    InstantiatedNameOf(OpeningLead(w.name), w.name);
  }

  // ---------------------------------------------------------------------
  // `generate_snippets`: the table of widget snippets.

  function SnippetKey(name: string): string {
    name + " Widget"
  }

  /** The widget name a snippet key is built from. */
  function KeyName(key: string): string {
    if |key| >= 7 then key[..|key| - 7] else key
  }

  /** Different widgets never share a snippet key: the key gives the name back. */
  lemma KeyNameOf(name: string)
    ensures KeyName(SnippetKey(name)) == name
  {
    assert SnippetKey(name)[..|name|] == name;
  }

  /** Different widgets never share a snippet key. */
  lemma SnippetKeyInjective()
    ensures forall a, b {:trigger SnippetKey(a), SnippetKey(b)} :: SnippetKey(a) == SnippetKey(b) ==> a == b
  {
    forall a, b | SnippetKey(a) == SnippetKey(b) ensures a == b {
      assert |a| == |b|;
      assert a == SnippetKey(a)[..|a|];
      assert b == SnippetKey(b)[..|b|];
    }
  }

  /** The widget-snippet table: an entry keyed `"<Name> Widget"` for each common widget of the catalog. */
  function WidgetSnippets(widgets: map<string, Widget>): (t: map<string, Snippet>)
    ensures forall name :: SnippetKey(name) in t <==> name in widgets && IsCommonWidget(name)
    ensures forall key | key in t :: key == SnippetKey(KeyName(key)) && KeyName(key) in widgets && IsCommonWidget(KeyName(key))
    ensures forall name | name in widgets && IsCommonWidget(name) :: t[SnippetKey(name)] == WidgetSnippet(widgets[name])
  {
    SnippetKeyInjective();
    assert forall name :: KeyName(SnippetKey(name)) == name by {
      forall name ensures KeyName(SnippetKey(name)) == name { KeyNameOf(name); }
    }
    map name | name in widgets && IsCommonWidget(name) :: SnippetKey(name) := WidgetSnippet(widgets[name])
  }

  /** `snippets` holds exactly the entries of the common widgets among `done`. */
  ghost predicate Covers(widgets: map<string, Widget>, snippets: map<string, Snippet>, done: set<string>) {
    && done <= widgets.Keys
    && (forall name :: SnippetKey(name) in snippets <==> name in done && IsCommonWidget(name))
    && (forall key | key in snippets :: key == SnippetKey(KeyName(key)) && KeyName(key) in done && IsCommonWidget(KeyName(key)))
    && (forall name | name in done && IsCommonWidget(name) :: snippets[SnippetKey(name)] == WidgetSnippet(widgets[name]))
  }

  lemma CoversNone(widgets: map<string, Widget>)
    ensures Covers(widgets, map[], {})
  {
  }

  /** Visiting one more catalog entry keeps `Covers`. */
  lemma CoversStep(widgets: map<string, Widget>, snippets: map<string, Snippet>, done: set<string>, name: string)
    requires Covers(widgets, snippets, done) && name in widgets && name !in done
    ensures IsCommonWidget(name) ==> Covers(widgets, snippets[SnippetKey(name) := WidgetSnippet(widgets[name])], done + {name})
    ensures !IsCommonWidget(name) ==> Covers(widgets, snippets, done + {name})
  {
    hide WidgetSnippet, IsCommonWidget, SnippetKey;
    KeyNameOf(name);
    forall n | n != name ensures SnippetKey(n) != SnippetKey(name) {
      KeyNameOf(n);
    }
  }

  /** Once every entry is visited, the table is the widget-snippet table. */
  lemma CoversAll(widgets: map<string, Widget>, snippets: map<string, Snippet>)
    requires Covers(widgets, snippets, widgets.Keys)
    ensures snippets == WidgetSnippets(widgets)
  {
    hide WidgetSnippet;
    var t := WidgetSnippets(widgets);
    assert snippets.Keys == t.Keys;
  }

  /** `generate_snippets`: the catalog is walked entry by entry, each common widget adding its snippet. */
  method GenerateSnippets(widgets: map<string, Widget>) returns (snippets: map<string, Snippet>)
    ensures snippets == WidgetSnippets(widgets)
  {
    hide WidgetSnippet, WidgetSnippets, Covers;
    snippets := map[];
    CoversNone(widgets);
    var remaining := widgets.Keys;
    ghost var done: set<string> := {};
    while remaining != {}
      invariant remaining + done == widgets.Keys && remaining !! done
      invariant Covers(widgets, snippets, done)
      decreases |remaining|
    {
      var name :| name in remaining;
      CoversStep(widgets, snippets, done, name);
      if name in CommonWidgets {
        var snippet := GenerateWidgetSnippet(widgets[name]);
        snippets := snippets[SnippetKey(name) := snippet];
      }
      remaining := remaining - {name};
      done := done + {name};
    }
    CoversAll(widgets, snippets);
  }

  // ---------------------------------------------------------------------
  // The merge in `main`: `dict.update` with each table in turn.

  /** The tables merged in order: a key takes its value from the last table that holds it. */
  function Merged(tables: seq<map<string, Snippet>>): map<string, Snippet>
    decreases |tables|
  {
    if tables == [] then map[] else Merged(tables[..|tables| - 1]) + tables[|tables| - 1]
  }

  lemma MergedSnoc(tables: seq<map<string, Snippet>>, t: map<string, Snippet>)
    ensures Merged(tables + [t]) == Merged(tables) + t
    ensures Merged([]) == map[]
  {
    assert (tables + [t])[..|tables|] == tables;
  }

  method MergeTables(tables: seq<map<string, Snippet>>) returns (all: map<string, Snippet>)
    ensures all == Merged(tables)
  {
    all := map[];
    assert tables[..0] == [];
    for i := 0 to |tables|
      invariant all == Merged(tables[..i])
    {
      assert tables[..i + 1][..i] == tables[..i];
      all := all + tables[i];
    }
    assert tables[..|tables|] == tables;
  }

  /** A key is in the merge exactly when some table holds it. */
  lemma {:induction false} MergedKeys(tables: seq<map<string, Snippet>>, key: string)
    ensures key in Merged(tables) <==> exists i :: 0 <= i < |tables| && key in tables[i]
    decreases |tables|
  {
    if tables != [] {
      var init := tables[..|tables| - 1];
      MergedKeys(init, key);
      if exists i :: 0 <= i < |init| && key in init[i] {
        var i :| 0 <= i < |init| && key in init[i];
        assert key in tables[i];
      }
      if exists i :: 0 <= i < |tables| && key in tables[i] {
        var i :| 0 <= i < |tables| && key in tables[i];
        if i < |init| { assert key in init[i]; }
      }
    }
  }

  /** Later tables overwrite earlier keys: the value comes from the last table holding the key. */
  lemma {:induction false} MergedLastWins(tables: seq<map<string, Snippet>>, i: nat, key: string)
    requires i < |tables| && key in tables[i]
    requires forall j :: i < j < |tables| ==> key !in tables[j]
    ensures key in Merged(tables) && Merged(tables)[key] == tables[i][key]
    decreases |tables|
  {
    var init := tables[..|tables| - 1];
    if i < |init| {
      forall j | i < j < |init| ensures key !in init[j] {
        assert init[j] == tables[j];
      }
      MergedLastWins(init, i, key);
    }
  }

  /** `main`'s snippet file: widget snippets, then the property, Rust and layout tables. */
  method GenerateAllSnippets(widgets: map<string, Widget>, propSnippets: map<string, Snippet>,
                             rustSnippets: map<string, Snippet>, layoutSnippets: map<string, Snippet>)
    returns (all: map<string, Snippet>)
    ensures all == Merged([WidgetSnippets(widgets), propSnippets, rustSnippets, layoutSnippets])
  {
    hide *;
    all := map[];
    var widgetSnippets := GenerateSnippets(widgets);
    assert [] + [widgetSnippets] == [widgetSnippets];
    assert [widgetSnippets] + [propSnippets] == [widgetSnippets, propSnippets];
    assert [widgetSnippets, propSnippets] + [rustSnippets] == [widgetSnippets, propSnippets, rustSnippets];
    assert [widgetSnippets, propSnippets, rustSnippets] + [layoutSnippets] == [widgetSnippets, propSnippets, rustSnippets, layoutSnippets];
    MergedSnoc([], widgetSnippets);
    all := all + widgetSnippets;
    MergedSnoc([widgetSnippets], propSnippets);
    all := all + propSnippets;
    MergedSnoc([widgetSnippets, propSnippets], rustSnippets);
    all := all + rustSnippets;
    MergedSnoc([widgetSnippets, propSnippets, rustSnippets], layoutSnippets);
    all := all + layoutSnippets;
  }

  /** A common widget's snippet survives the merge unless a hand-authored table reuses its key. */
  lemma WidgetSnippetSurvives(widgets: map<string, Widget>, propSnippets: map<string, Snippet>,
                              rustSnippets: map<string, Snippet>, layoutSnippets: map<string, Snippet>, name: string)
    requires name in widgets && IsCommonWidget(name)
    requires SnippetKey(name) !in propSnippets && SnippetKey(name) !in rustSnippets && SnippetKey(name) !in layoutSnippets
    ensures var all := Merged([WidgetSnippets(widgets), propSnippets, rustSnippets, layoutSnippets]);
      SnippetKey(name) in all && all[SnippetKey(name)] == WidgetSnippet(widgets[name])
  {
    hide WidgetSnippet, WidgetSnippets;
    MergedLastWins([WidgetSnippets(widgets), propSnippets, rustSnippets, layoutSnippets], 0, SnippetKey(name));
  }
}

=== FILE: text.dfy ===
/**
 * Character classes and string helpers shared by the scanners.
 *
 * The scripts use Python's `re`, `str.strip`, `str.split`, `str.join` and
 * `str.lower`; the editor extension uses the JavaScript counterparts. Only
 * ASCII is modelled: `\w` is `[A-Za-z0-9_]` and `\s` is the six ASCII
 * whitespace characters.
 */
module Text {

  datatype Option<T> = None | Some(value: T)

  /** ASCII whitespace: what `\s` matches and what `strip()` removes. */
  predicate IsSpace(c: char) {
    c == ' ' || c == '\t' || c == '\n' || c == '\r' || c == '\U{B}' || c == '\U{C}'
  }

  /** ASCII identifier characters: what `\w` matches. */
  predicate IsWordChar(c: char) {
    ('a' <= c <= 'z') || ('A' <= c <= 'Z') || ('0' <= c <= '9') || c == '_'
  }

  /** A non-empty run of identifier characters: what `(\w+)` captures. */
  predicate IsWord(s: string) {
    |s| > 0 && forall i :: 0 <= i < |s| ==> IsWordChar(s[i])
  }

  predicate AllSpace(s: string) {
    forall i :: 0 <= i < |s| ==> IsSpace(s[i])
  }

  /** `p` occurs in `s` at index `i`. */
  predicate At(s: string, i: nat, p: string) {
    i + |p| <= |s| && forall j :: 0 <= j < |p| ==> s[i + j] == p[j]
  }

  predicate StartsWith(s: string, p: string) {
    At(s, 0, p)
  }

  predicate EndsWith(s: string, p: string) {
    |p| <= |s| && At(s, |s| - |p|, p)
  }

  /** `p` occurs inside `s[i..k]`. */
  predicate Occurs(s: string, i: nat, k: nat, p: string) {
    exists j: nat :: i <= j && j + |p| <= k && At(s, j, p)
  }

  /** `p` occurs somewhere in `s` (Python `p in s`, JavaScript `s.includes(p)`). */
  predicate Contains(s: string, p: string) {
    Occurs(s, 0, |s|, p)
  }

  /** A text whose characters all differ from the first character of `p` does not contain `p`. */
  lemma NotContainsWithoutHead(s: string, p: string)
    requires |p| > 0 && p[0] !in s
    ensures !Contains(s, p)
  {
    forall i: nat | i < |s| ensures s[i] != p[0] {
      assert s[i] in s;
    }
    forall i: nat | i + |p| <= |s| ensures !At(s, i, p) {
      if i < |s| { assert s[i + 0] == s[i]; }
    }
  }

  /** End of the run of identifier characters that starts at `i` (greedy `\w*`). */
  function WordEnd(s: string, i: nat): (k: nat)
    requires i <= |s|
    ensures i <= k <= |s|
    ensures forall j {:trigger IsWordChar(s[j])} :: i <= j < k ==> IsWordChar(s[j])
    ensures k < |s| ==> !IsWordChar(s[k])
    decreases |s| - i
  {
    if i < |s| && IsWordChar(s[i]) then WordEnd(s, i + 1) else i
  }

  /** End of the run of whitespace that starts at `i` (greedy `\s*`). */
  function SpaceEnd(s: string, i: nat): (k: nat)
    requires i <= |s|
    ensures i <= k <= |s|
    ensures forall j {:trigger IsSpace(s[j])} :: i <= j < k ==> IsSpace(s[j])
    ensures k < |s| ==> !IsSpace(s[k])
    decreases |s| - i
  {
    if i < |s| && IsSpace(s[i]) then SpaceEnd(s, i + 1) else i
  }

  /** Start of the run of whitespace that ends at `k`, looking no further back than `lo`. */
  function SpaceStart(s: string, lo: nat, k: nat): (j: nat)
    requires lo <= k <= |s|
    ensures lo <= j <= k
    ensures forall m {:trigger IsSpace(s[m])} :: j <= m < k ==> IsSpace(s[m])
    ensures j > lo ==> !IsSpace(s[j - 1])
    decreases k - lo
  {
    if k > lo && IsSpace(s[k - 1]) then SpaceStart(s, lo, k - 1) else k
  }

  /** Start of the run of identifier characters that ends at `k` (the widest `\w+` ending there). */
  function WordStart(s: string, k: nat): (j: nat)
    requires k <= |s|
    ensures j <= k
    ensures forall m {:trigger IsWordChar(s[m])} :: j <= m < k ==> IsWordChar(s[m])
    ensures j > 0 ==> !IsWordChar(s[j - 1])
    decreases k
  {
    if k > 0 && IsWordChar(s[k - 1]) then WordStart(s, k - 1) else k
  }

  /** The greedy runs are determined by their characters: a known run followed by a stop. */
  lemma {:induction false} WordEndOf(s: string, i: nat, k: nat)
    requires i <= k <= |s|
    requires forall j :: i <= j < k ==> IsWordChar(s[j])
    requires k == |s| || !IsWordChar(s[k])
    ensures WordEnd(s, i) == k
    decreases k - i
  {
    if i < k { WordEndOf(s, i + 1, k); }
  }

  lemma {:induction false} SpaceEndOf(s: string, i: nat, k: nat)
    requires i <= k <= |s|
    requires forall j :: i <= j < k ==> IsSpace(s[j])
    requires k == |s| || !IsSpace(s[k])
    ensures SpaceEnd(s, i) == k
    decreases k - i
  {
    if i < k { SpaceEndOf(s, i + 1, k); }
  }

  /** An occurrence of `x + y` is an occurrence of `x` followed by one of `y`. */
  lemma AtConcat(s: string, i: nat, x: string, y: string)
    ensures At(s, i, x + y) <==> At(s, i, x) && At(s, i + |x|, y)
  {
    if At(s, i, x) && At(s, i + |x|, y) {
      forall j | 0 <= j < |x + y| ensures s[i + j] == (x + y)[j] {
        if j >= |x| { assert s[i + j] == s[i + |x| + (j - |x|)]; }
      }
    }
    if At(s, i, x + y) {
      forall j | 0 <= j < |x| ensures s[i + j] == x[j] {
        assert s[i + j] == (x + y)[j];
      }
      forall j | 0 <= j < |y| ensures s[i + |x| + j] == y[j] {
        assert s[i + |x| + j] == s[i + (|x| + j)] == (x + y)[|x| + j];
      }
    }
  }

  /** Whitespace written at `i` and followed by a non-space is exactly the run `SpaceEnd` skips. */
  lemma SpaceEndOver(s: string, i: nat, w: string)
    requires AllSpace(w) && At(s, i, w)
    requires i + |w| == |s| || !IsSpace(s[i + |w|])
    ensures SpaceEnd(s, i) == i + |w|
  {
    forall j | i <= j < i + |w| ensures IsSpace(s[j]) {
      assert s[j] == s[i + (j - i)] == w[j - i];
    }
    SpaceEndOf(s, i, i + |w|);
  }

  /** Likewise for a word and `WordEnd`. */
  lemma WordEndOver(s: string, i: nat, w: string)
    requires (forall j :: 0 <= j < |w| ==> IsWordChar(w[j])) && At(s, i, w)
    requires i + |w| == |s| || !IsWordChar(s[i + |w|])
    ensures WordEnd(s, i) == i + |w| && s[i..i + |w|] == w
  {
    forall j | i <= j < i + |w| ensures IsWordChar(s[j]) && s[j] == w[j - i] {
      assert s[j] == s[i + (j - i)];
      assert IsWordChar(w[j - i]);
    }
    WordEndOf(s, i, i + |w|);
  }

  /** Python `str.strip()` and JavaScript `trim()`, over ASCII whitespace. */
  function Strip(s: string): (r: string)
    ensures SpaceEnd(s, 0) + |r| <= |s| && r == s[SpaceEnd(s, 0)..SpaceEnd(s, 0) + |r|]
    ensures forall j :: 0 <= j < |s| && !(SpaceEnd(s, 0) <= j < SpaceEnd(s, 0) + |r|) ==> IsSpace(s[j])
    ensures r == [] || (!IsSpace(r[0]) && !IsSpace(r[|r| - 1]))
    ensures r == [] <==> AllSpace(s)
  {
    var a := SpaceEnd(s, 0);
    var b := SpaceStart(s, a, |s|);
    assert a < b ==> !IsSpace(s[a]) && !IsSpace(s[b - 1]);
    s[a..b]
  }

  /** A text without surrounding whitespace is left as it is. */
  lemma StripKeepsTrimmed(s: string)
    ensures (s == [] || (!IsSpace(s[0]) && !IsSpace(s[|s| - 1]))) ==> Strip(s) == s
  {
    if s != [] && !IsSpace(s[0]) && !IsSpace(s[|s| - 1]) {
      var r := Strip(s);
      assert SpaceEnd(s, 0) == 0;
      var last := s[|s| - 1];
      assert |s| - 1 < |r| || IsSpace(last);
    }
  }

  /** Stripping only removes characters. */
  lemma StripChars(s: string, c: char)
    ensures c in Strip(s) ==> c in s
  {
    var r := Strip(s);
    var a := SpaceEnd(s, 0);
    if c in r {
      var j :| 0 <= j < |r| && r[j] == c;
      assert s[a + j] == c;
    }
  }

  /** Python `str.rstrip(chars)` for a single character. */
  function RStrip(s: string, c: char): (r: string)
    ensures c !in s ==> r == s
    ensures r == [] || r[|r| - 1] != c
    ensures StartsWith(s, r)
  {
    if |s| > 0 && s[|s| - 1] == c then
      assert c in s;
      RStrip(s[..|s| - 1], c)
    else s
  }

  function LowerChar(c: char): char {
    if 'A' <= c <= 'Z' then (c as int + 32) as char else c
  }

  /** Python `str.lower()` on ASCII letters. */
  function Lower(s: string): (r: string)
    ensures |r| == |s|
    ensures forall i :: 0 <= i < |s| ==> r[i] == LowerChar(s[i])
  {
    if s == [] then [] else [LowerChar(s[0])] + Lower(s[1..])
  }

  /** First index at or after `i` that holds `c`, or `|s|` when there is none. */
  function IndexFrom(s: string, i: nat, c: char): (k: nat)
    requires i <= |s|
    ensures i <= k <= |s|
    ensures k < |s| ==> s[k] == c
    ensures forall j :: i <= j < k ==> s[j] != c
    decreases |s| - i
  {
    if i == |s| || s[i] == c then i else IndexFrom(s, i + 1, c)
  }

  lemma AtWithin(s: string, i: nat, p: string)
    requires At(s, i, p)
    ensures i + |p| <= |s|
  {
  }

  lemma AtSelf(s: string)
    ensures At(s, 0, s)
  {
    assert forall j :: 0 <= j < |s| ==> s[0 + j] == s[j];
  }

  /** A prefix stays a prefix when more text follows. */
  lemma StartsWithExtend(s: string, p: string, t: string)
    requires StartsWith(s, p)
    ensures StartsWith(s + t, p)
  {
    assert forall j :: 0 <= j < |p| ==> (s + t)[j] == s[j];
  }

  lemma {:induction false} IndexFromOf(s: string, i: nat, k: nat, c: char)
    requires i <= k <= |s| && (k == |s| || s[k] == c)
    requires forall j :: i <= j < k ==> s[j] != c
    ensures IndexFrom(s, i, c) == k
    decreases k - i
  {
    if i < k { IndexFromOf(s, i + 1, k, c); }
  }

  /** `split(sep)` for a one-character separator, in Python and JavaScript alike: always one piece or more. */
  function Split(s: string, sep: char): (parts: seq<string>)
    ensures |parts| >= 1
    ensures forall k :: 0 <= k < |parts| ==> sep !in parts[k]
    decreases |s|
  {
    var i := IndexFrom(s, 0, sep);
    if i == |s| then [s] else [s[..i]] + Split(s[i + 1..], sep)
  }

  /** `sep.join(parts)`. */
  function Join(parts: seq<string>, sep: string): string
    decreases |parts|
  {
    if |parts| == 0 then "" else if |parts| == 1 then parts[0] else parts[0] + sep + Join(parts[1..], sep)
  }

  /** Splitting and joining back with the same separator gives the text again. */
  lemma {:induction false} JoinSplit(s: string, sep: char)
    ensures Join(Split(s, sep), [sep]) == s
    decreases |s|
  {
    var i := IndexFrom(s, 0, sep);
    if i < |s| {
      JoinSplit(s[i + 1..], sep);
      assert s == s[..i] + [sep] + s[i + 1..];
    }
  }

  /** The first separator of `a + [sep] + b` is the one after `a` when `a` has none. */
  lemma FirstSeparator(a: string, sep: char, b: string)
    requires sep !in a
    ensures IndexFrom(a + [sep] + b, 0, sep) == |a|
  {
    var s := a + [sep] + b;
    var k := IndexFrom(s, 0, sep);
    assert s[|a|] == sep;
    assert forall j :: 0 <= j < |a| ==> s[j] == a[j];
  }

  /** Joining pieces that hold no separator and splitting again gives the pieces back. */
  lemma {:induction false} SplitJoin(parts: seq<string>, sep: char)
    requires |parts| >= 1
    requires forall k :: 0 <= k < |parts| ==> sep !in parts[k]
    ensures Split(Join(parts, [sep]), sep) == parts
    decreases |parts|
  {
    if |parts| == 1 {
      var s := parts[0];
      assert forall j :: 0 <= j < |s| ==> s[j] != sep;
    } else {
      var rest := Join(parts[1..], [sep]);
      var s := parts[0] + [sep] + rest;
      assert Join(parts, [sep]) == s;
      FirstSeparator(parts[0], sep, rest);
      assert s[..|parts[0]|] == parts[0];
      assert s[|parts[0]| + 1..] == rest;
      SplitJoin(parts[1..], sep);
    }
  }

  /** The pieces written one after another, as successive `write` calls leave them in a file. */
  function Concat(parts: seq<string>): string
    decreases |parts|
  {
    if parts == [] then "" else Concat(parts[..|parts| - 1]) + parts[|parts| - 1]
  }

  lemma {:induction false} ConcatSplit(parts: seq<string>, i: nat)
    requires i <= |parts|
    ensures Concat(parts) == Concat(parts[..i]) + Concat(parts[i..])
    decreases |parts|
  {
    if i == |parts| {
      assert parts[..i] == parts && parts[i..] == [];
    } else {
      var n := |parts| - 1;
      var tail := parts[i..];
      ConcatSplit(parts[..n], i);
      assert parts[..n][..i] == parts[..i];
      assert tail[..|tail| - 1] == parts[..n][i..];
      assert tail[|tail| - 1] == parts[n];
      calc {
        Concat(parts);
        Concat(parts[..n]) + parts[n];
        (Concat(parts[..i]) + Concat(parts[..n][i..])) + parts[n];
        Concat(parts[..i]) + (Concat(parts[..n][i..]) + parts[n]);
        Concat(parts[..i]) + Concat(tail);
      }
    }
  }

  /** One piece more. */
  lemma ConcatSnoc(parts: seq<string>, i: nat)
    requires i < |parts|
    ensures Concat(parts[..i + 1]) == Concat(parts[..i]) + parts[i]
    ensures Concat(parts[..0]) == ""
    ensures Concat(parts[..|parts|]) == Concat(parts)
  {
    assert parts[..i + 1][..i] == parts[..i];
    assert parts[..0] == [] && parts[..|parts|] == parts;
  }

  lemma ConcatFirst(parts: seq<string>)
    requires parts != []
    ensures Concat(parts) == parts[0] + Concat(parts[1..])
  {
    ConcatSplit(parts, 1);
    assert parts[..1][..0] == [];
  }

  /** The `i`-th piece sits in the text right after the pieces before it. */
  lemma ConcatAt(parts: seq<string>, i: nat)
    requires i < |parts|
    ensures At(Concat(parts), |Concat(parts[..i])|, parts[i])
  {
    hide *;
    ConcatSplit(parts, i);
    ConcatFirst(parts[i..]);
    assert parts[i..][0] == parts[i];
    var pre, rest := Concat(parts[..i]), Concat(parts[i..][1..]);
    AtSelf(parts[i]);
    AtShift(pre, parts[i], rest, 0, parts[i]);
    assert pre + parts[i] + rest == pre + (parts[i] + rest);
  }

  /** Pieces keep their order: each starts after the ones before it end. */
  lemma ConcatOrder(parts: seq<string>, i: nat, j: nat)
    requires i < j <= |parts|
    ensures |Concat(parts[..i])| + |parts[i]| <= |Concat(parts[..j])|
  {
    ConcatSplit(parts[..j], i + 1);
    assert parts[..j][..i + 1] == parts[..i + 1];
    assert parts[..i + 1][..i] == parts[..i];
  }

  /** `x` occurs in `s` and `y` occurs after that occurrence ends. */
  ghost predicate InOrder(s: string, x: string, y: string) {
    exists p: nat, q: nat :: p + |x| <= q && At(s, p, x) && At(s, q, y)
  }

  /** Of two pieces, the earlier one is found first in the text. */
  lemma ConcatInOrder(parts: seq<string>, i: nat, j: nat)
    requires i < j < |parts|
    ensures InOrder(Concat(parts), parts[i], parts[j])
  {
    ConcatAt(parts, i);
    ConcatAt(parts, j);
    ConcatOrder(parts, i, j);
  }

  /** Order is kept when text is added around. */
  lemma InOrderShift(pre: string, s: string, post: string, x: string, y: string)
    requires InOrder(s, x, y)
    ensures InOrder(pre + s + post, x, y)
  {
    var p: nat, q: nat :| p + |x| <= q && At(s, p, x) && At(s, q, y);
    AtShift(pre, s, post, p, x);
    AtShift(pre, s, post, q, y);
  }

  /** An occurrence stays an occurrence when text is added around it. */
  lemma AtShift(pre: string, s: string, post: string, i: nat, p: string)
    requires At(s, i, p)
    ensures At(pre + s + post, |pre| + i, p)
  {
    var t := pre + s + post;
    forall j | 0 <= j < |p| ensures t[|pre| + i + j] == p[j] {
      assert t[|pre| + (i + j)] == s[i + j];
    }
  }

  /** A non-empty prefix is the shorter prefix followed by its last element. */
  lemma SliceSnoc<T>(s: seq<T>, i: nat)
    requires 0 < i <= |s|
    ensures s[..i] == s[..i - 1] + [s[i - 1]]
  {
  }

  lemma ConcatAssoc<T>(a: seq<T>, b: seq<T>, c: seq<T>)
    ensures (a + b) + c == a + (b + c)
  {
  }

  /** Code-point lexicographic order, as Python compares `str` values. */
  predicate Less(a: string, b: string)
    decreases |a|
  {
    if |a| == 0 then |b| > 0
    else |b| > 0 && (a[0] < b[0] || (a[0] == b[0] && Less(a[1..], b[1..])))
  }

  lemma {:induction false} LessIrreflexive(a: string)
    ensures !Less(a, a)
    decreases |a|
  {
    if |a| > 0 { LessIrreflexive(a[1..]); }
  }

  lemma {:induction false} LessTransitive(a: string, b: string, c: string)
    requires Less(a, b) && Less(b, c)
    ensures Less(a, c)
    decreases |a|
  {
    if |a| > 0 && a[0] == b[0] && b[0] == c[0] {
      LessTransitive(a[1..], b[1..], c[1..]);
    }
  }

  lemma {:induction false} LessTotal(a: string, b: string)
    ensures a == b || Less(a, b) || Less(b, a)
    decreases |a|
  {
    if |a| > 0 && |b| > 0 && a[0] == b[0] {
      LessTotal(a[1..], b[1..]);
      if a[1..] == b[1..] { assert a == [a[0]] + a[1..] && b == [b[0]] + b[1..]; }
    }
  }

  lemma {:induction false} LessAsymmetric(a: string, b: string)
    requires Less(a, b)
    ensures !Less(b, a)
    decreases |a|
  {
    if |a| > 0 && a[0] == b[0] { LessAsymmetric(a[1..], b[1..]); }
  }
}

/** Source files as the scanners receive them, and the locations they record. */
module Sources {
  import opened Text

  /** A `.rs` file: its full path, its file name and its text. */
  datatype SourceFile = SourceFile(path: string, name: string, content: string)

  /** A recorded definition site: a file and a 1-based line number. */
  datatype Location = Location(file: string, line: nat)

  /** `content.split('\n')`. */
  function Lines(f: SourceFile): seq<string> {
    Split(f.content, '\n')
  }
}
